=== FILE: README.md ===
# chatbot-engine: a Dafny model of the LASA pipeline

chatbot-engine is a Korean-language chatbot. Its service answers a chat request
in four stages: Listen, Analyze, Solve, Answer.

- The listener (`SimpleListener`) cleans the text.
- An analyzer turns the text into an intent, a confidence and entities:
  - `RasaAnalyzer` reads a Rasa server's parse, and backs it up with a keyword scan for locations.
  - `KoalaNLPAnalyzer` scores KOMORAN morphemes against keyword sets.
  - `HybridAnalyzer` runs both and fuses their verdicts and entities.
  - `SimpleAnalyzer` uses regular expressions.
- The solver (`SimpleSolver`) turns the analysis into data and a response template.
  For this it consults the weather service and a text generator.
- The answerer (`SimpleAnswerer`) fills in the template.
- `AnalyzerConfig` chooses the analyzer.
- `LasaChatbotService` composes the four stages.

The model has one module per Java class, all functional. Every Java `null` the
code tests for is an `Option`. Every exception a stage catches is an `Option`
result or an explicit error branch. What the code consults outside itself is a
parameter:

- the Rasa reply
- the KOMORAN tokens
- the Unicode letter/digit class
- the clocks
- the random index
- the HTTP answers
- the generated text
- the iteration order of every `HashMap` the code loops over

The support modules model the Java library behaviour the code relies on:

- `Text`: `String.trim`, ASCII `toLowerCase`, `contains`, `String.join`/`split`, `Integer.toString` on 32-bit values and `Integer.parseInt` on ASCII digits.
- `Formatter`: `String.format` with `%s` and `%d`.
- `Lasa`: the result records with `addEntity` and `addData`.

The centrepiece is the hybrid analyzer. Its contracts and lemmas cover:

- Fusion rules: the four ordered rules of `determineIntent`, with both directions of when KOMORAN's intent prevails.
- Entity merge: the key-by-key outcome of the merge, and that the Java loop computes it for every iteration order of KOMORAN's entity map.
- End-to-end: the fused result's bounds on top of the two real analyzers.

## Model

| member | source | states |
|---|---|---|
| HybridAnalyzer.DetermineIntent | src/main/java/com/yk/chatbot/lasa/impl/HybridAnalyzer.java:71-103 | agreeing analyzers give their intent at min(1, mean + 0.1); a confident (≥ 0.7) and strictly stronger side wins at its own confidence; otherwise Rasa's intent at 0.9 × Rasa's confidence |
| HybridAnalyzer.IntentFromOneSide | src/main/java/com/yk/chatbot/lasa/impl/HybridAnalyzer.java:71-103 | the fused intent is always one of the two proposals |
| HybridAnalyzer.ConfidenceStaysInUnitInterval | src/main/java/com/yk/chatbot/lasa/impl/HybridAnalyzer.java:77-98 | confidences in [0, 1] fuse to a confidence in [0, 1] |
| HybridAnalyzer.KoalaWinsIff | src/main/java/com/yk/chatbot/lasa/impl/HybridAnalyzer.java:84-98 | for different intents, KOMORAN's prevails exactly when its confidence is ≥ 0.7 and strictly above Rasa's |
| HybridAnalyzer.DisagreementNeverBoosts | src/main/java/com/yk/chatbot/lasa/impl/HybridAnalyzer.java:84-98 | without agreement the fused confidence is never above both inputs |
| HybridAnalyzer.AgreementIsSymmetric | src/main/java/com/yk/chatbot/lasa/impl/HybridAnalyzer.java:77-82 | on agreement the verdict does not depend on which analyzer is which, and is at least the weaker confidence |
| HybridAnalyzer.ConfidentTieGoesToRasa | src/main/java/com/yk/chatbot/lasa/impl/HybridAnalyzer.java:84-98 | a tie between two confident, different analyzers falls to the last rule: Rasa's intent at 0.9 × its confidence |
| HybridAnalyzer.MergeEntities | src/main/java/com/yk/chatbot/lasa/impl/HybridAnalyzer.java:109-170 | the merged keys are the union; one-sided keys keep their value; on a conflict location, datetime and person take KOMORAN's value and every other key keeps Rasa's |
| HybridAnalyzer.VisitedStep | src/main/java/com/yk/chatbot/lasa/impl/HybridAnalyzer.java:119-156 | resolving one KOMORAN key and then the rest resolves the same entries as visiting them all |
| HybridAnalyzer.MergeLoopVisits | src/main/java/com/yk/chatbot/lasa/impl/HybridAnalyzer.java:119-156 | after visiting some KOMORAN keys, the loop has resolved exactly those keys and left every other entry alone |
| HybridAnalyzer.MergeLoopIsMerge | src/main/java/com/yk/chatbot/lasa/impl/HybridAnalyzer.java:109-170 | the Java loop over KOMORAN's entity map yields the merge above for every iteration order |
| HybridAnalyzer.Fuse | src/main/java/com/yk/chatbot/lasa/impl/HybridAnalyzer.java:42-50 | the fused result records the message, takes intent and confidence from the verdict and the entities from the merge |
| HybridAnalyzer.Analyze | src/main/java/com/yk/chatbot/lasa/impl/HybridAnalyzer.java:28-64 | the result carries exactly the intent and confidence of `determineIntent` on the two analyses and the merge of their entities: so the intent is one of the two analyzers' intents, the entity keys are the union of both, a KOMORAN value of a location, datetime or person key and a Rasa value of any other key survive, and the confidence lies in [0, 1] whenever the Rasa server's does |
| HybridAnalyzer.BothFailingGivesBoostedError | src/main/java/com/yk/chatbot/lasa/impl/HybridAnalyzer.java:77-82 | when both analyzers fail they agree on "error" and the agreement bonus lifts the confidence to 0.1 |
| HybridAnalyzer.KoalaLocationWins | src/main/java/com/yk/chatbot/lasa/impl/HybridAnalyzer.java:125-149 | when KOMORAN's intent is weather, the location KOMORAN extracted is the fused location |
| KoalaNLPAnalyzer.Score | src/main/java/com/yk/chatbot/lasa/impl/KoalaNLPAnalyzer.java:128-140 | an intent's score counts at most one per token |
| KoalaNLPAnalyzer.ScoreZero | src/main/java/com/yk/chatbot/lasa/impl/KoalaNLPAnalyzer.java:128-140 | a score is zero exactly when no noun, verb or adjective token is a keyword |
| KoalaNLPAnalyzer.ScoreAtMostMatchCount | src/main/java/com/yk/chatbot/lasa/impl/KoalaNLPAnalyzer.java:128-161 | every token that scores is also counted for the confidence |
| KoalaNLPAnalyzer.DetermineIntent | src/main/java/com/yk/chatbot/lasa/impl/KoalaNLPAnalyzer.java:124-147 | the answer is the intent with the highest positive score, or "fallback" when none scored |
| KoalaNLPAnalyzer.FallbackIffNoKeyword | src/main/java/com/yk/chatbot/lasa/impl/KoalaNLPAnalyzer.java:124-147 | "fallback" exactly when no content token is a keyword of either intent |
| KoalaNLPAnalyzer.TieBreakOnlyOnTies | src/main/java/com/yk/chatbot/lasa/impl/KoalaNLPAnalyzer.java:142-146 | the map's iteration order decides only between equal scores |
| KoalaNLPAnalyzer.CalcConfidence | src/main/java/com/yk/chatbot/lasa/impl/KoalaNLPAnalyzer.java:150-161 | the confidence is in [0, 1] and is 0 for fallback and error |
| KoalaNLPAnalyzer.ConfidenceGrowsWithMatches | src/main/java/com/yk/chatbot/lasa/impl/KoalaNLPAnalyzer.java:150-161 | more matching tokens never lower the confidence, and four reach the cap of 1 |
| KoalaNLPAnalyzer.IntentConfidenceBounds | src/main/java/com/yk/chatbot/lasa/impl/KoalaNLPAnalyzer.java:124-161 | a determined intent has confidence between 0.65 and 1 |
| KoalaNLPAnalyzer.AnalyzerCities | src/main/java/com/yk/chatbot/lasa/impl/KoalaNLPAnalyzer.java:35-56 | the analyzer's cities are the weather service's plus 제주도 exactly when 제주 is known |
| KoalaNLPAnalyzer.LocationNameOfAnalyzerCities | src/main/java/com/yk/chatbot/lasa/impl/KoalaNLPAnalyzer.java:182-194 | a text is a location name exactly when it is a known city or 제주도 with 제주 known |
| KoalaNLPAnalyzer.Locations | src/main/java/com/yk/chatbot/lasa/impl/KoalaNLPAnalyzer.java:164-180 | exactly the proper-noun tokens that are location names are collected, every one of them, in token order |
| KoalaNLPAnalyzer.LocationsAppend | src/main/java/com/yk/chatbot/lasa/impl/KoalaNLPAnalyzer.java:164-180 | the locations of two token runs in a row are those of the first run followed by those of the second |
| KoalaNLPAnalyzer.LocationEntitySplits | src/main/java/com/yk/chatbot/lasa/impl/KoalaNLPAnalyzer.java:164-180 | splitting the location entity on commas gives back the found locations in order |
| KoalaNLPAnalyzer.ServiceCitiesHaveNoComma | src/main/java/com/yk/chatbot/service/WeatherService.java:107-132 | no city of the coordinate table holds a comma, so the joined entity is unambiguous |
| KoalaNLPAnalyzer.Analyze | src/main/java/com/yk/chatbot/lasa/impl/KoalaNLPAnalyzer.java:93-121 | a tokenizer failure gives the error analysis; otherwise the intent is weather, greeting or fallback with its confidence, and only weather carries a location |
| KoalaNLPAnalyzer.AnalyzeFallback | src/main/java/com/yk/chatbot/lasa/impl/KoalaNLPAnalyzer.java:93-121 | a successful analysis is "fallback" exactly when no content token is a keyword |
| RasaAnalyzer.KeptEntities | src/main/java/com/yk/chatbot/lasa/impl/RasaAnalyzer.java:47-62 | exactly the entities whose value is present and not blank are kept, trimmed |
| RasaAnalyzer.AddUsableAdds | src/main/java/com/yk/chatbot/lasa/impl/RasaAnalyzer.java:50-62 | the loop adds exactly the usable entities it visits on top of the existing ones |
| RasaAnalyzer.ForEachOrderIrrelevant | src/main/java/com/yk/chatbot/lasa/impl/RasaAnalyzer.java:47-62 | any iteration order of the reply's entity map gives the same entities |
| RasaAnalyzer.BackstopKeyword | src/main/java/com/yk/chatbot/lasa/impl/RasaAnalyzer.java:69-84 | the backstop answers a keyword from the fixed list |
| RasaAnalyzer.BackstopKeywordFirst | src/main/java/com/yk/chatbot/lasa/impl/RasaAnalyzer.java:69-84 | nothing is found exactly when the lower-cased message names no keyword; otherwise the earliest named keyword is found |
| RasaAnalyzer.KeywordsNonEmpty | src/main/java/com/yk/chatbot/lasa/impl/RasaAnalyzer.java:72-76 | no backstop keyword is empty, so the backstop never stores an empty location |
| RasaAnalyzer.Backstop | src/main/java/com/yk/chatbot/lasa/impl/RasaAnalyzer.java:78-84 | without a keyword in the message the analysis is unchanged; with one, location becomes that keyword and every other entity, the intent, the confidence and the message stay |
| RasaAnalyzer.WithEntities | src/main/java/com/yk/chatbot/lasa/impl/RasaAnalyzer.java:50-85 | only the location entity can differ from the kept entities, and only when the backstop condition holds; when it holds but the message names no keyword, the entities are exactly the kept ones |
| RasaAnalyzer.Analyze | src/main/java/com/yk/chatbot/lasa/impl/RasaAnalyzer.java:28-103 | a failed exchange gives the error analysis; otherwise the reply's intent and confidence with the kept entities, every value non-empty |
| RasaAnalyzer.AnalyzeUnfolds | src/main/java/com/yk/chatbot/lasa/impl/RasaAnalyzer.java:47-85 | with a non-empty entity map the analysis is the entity loop followed by the backstop |
| RasaAnalyzer.BackstopLocationIsKeyword | src/main/java/com/yk/chatbot/lasa/impl/RasaAnalyzer.java:65-84 | a location the reply did not carry is one of the listed keywords |
| RasaAnalyzer.EmptyEntitiesSkipBackstop | src/main/java/com/yk/chatbot/lasa/impl/RasaAnalyzer.java:48-88 | a reply with an empty entity map never gets a location |
| RasaAnalyzer.TemperatureOverridesLocation | src/main/java/com/yk/chatbot/lasa/impl/RasaAnalyzer.java:65 | because `&&` binds tighter than `\|\|`, a temperature reply's location always comes from the keyword scan when one matches |
| RasaAnalyzer.WeatherKeepsExtractedLocation | src/main/java/com/yk/chatbot/lasa/impl/RasaAnalyzer.java:65 | a weather reply that carries a usable location keeps exactly the kept entities |
| RasaAnalyzer.ClientErrorIsErrorAnalysis | src/main/java/com/yk/chatbot/lasa/impl/RasaAnalyzer.java:95-102 | the client's error reply and a failure in the analyzer give the same error analysis |
| SimpleAnalyzer.FirstMatch | src/main/java/com/yk/chatbot/lasa/impl/SimpleAnalyzer.java:50-58 | the found intent matches and every intent before it in iteration order does not; none is found exactly when no pattern matches |
| SimpleAnalyzer.AlternativeAt | src/main/java/com/yk/chatbot/lasa/impl/SimpleAnalyzer.java:82 | the alternative that matches at a position, or none exactly when none does |
| SimpleAnalyzer.LeftmostFrom | src/main/java/com/yk/chatbot/lasa/impl/SimpleAnalyzer.java:82-94 | a regex `find` hit is the leftmost position where some alternative occurs |
| SimpleAnalyzer.LeftmostNoneIffAbsent | src/main/java/com/yk/chatbot/lasa/impl/SimpleAnalyzer.java:82-94 | the search finds nothing exactly when no alternative occurs |
| SimpleAnalyzer.ExtractEntities | src/main/java/com/yk/chatbot/lasa/impl/SimpleAnalyzer.java:76-99 | weather gets at most a city the message contains, the one that occurs leftmost; time_query at most a part of the day, also the leftmost; other intents nothing |
| SimpleAnalyzer.WeatherLocationIffCity | src/main/java/com/yk/chatbot/lasa/impl/SimpleAnalyzer.java:80-87 | a weather message gets a location exactly when it names one of the eight cities |
| SimpleAnalyzer.Analyze | src/main/java/com/yk/chatbot/lasa/impl/SimpleAnalyzer.java:38-68 | empty input and no match give "unknown" at 0; a match gives its intent at 1 with its entities; the message is not recorded |
| SimpleAnalyzer.OrderIrrelevantForOneMatch | src/main/java/com/yk/chatbot/lasa/impl/SimpleAnalyzer.java:50-58 | when only one pattern matches, the map's iteration order does not matter |
| SimpleAnalyzer.FirstWordsAreHangul | src/main/java/com/yk/chatbot/lasa/impl/SimpleAnalyzer.java:24-34 | every pattern but greeting starts with Hangul words |
| SimpleAnalyzer.AsciiMatchesOnlyGreeting | src/main/java/com/yk/chatbot/lasa/impl/SimpleAnalyzer.java:24-34 | an ASCII message can match no pattern but greeting |
| SimpleAnalyzer.HelloIsGreeting | src/main/java/com/yk/chatbot/lasa/impl/SimpleAnalyzer.java:24-58 | "Hello" is a greeting at confidence 1 under every iteration order |
| SimpleListener.CollapseSpaces | src/main/java/com/yk/chatbot/lasa/impl/SimpleListener.java:21 | collapsing never lengthens the text, empties only empty text and keeps a non-whitespace first character |
| SimpleListener.CollapseIsCollapsed | src/main/java/com/yk/chatbot/lasa/impl/SimpleListener.java:21 | after collapsing, the only whitespace is single plain spaces |
| SimpleListener.CollapseKeepsNonSpaces | src/main/java/com/yk/chatbot/lasa/impl/SimpleListener.java:21 | collapsing keeps every non-whitespace character, in order |
| SimpleListener.CollapseKeepsLast | src/main/java/com/yk/chatbot/lasa/impl/SimpleListener.java:21 | a final non-whitespace character survives collapsing |
| SimpleListener.CollapseFixpoint | src/main/java/com/yk/chatbot/lasa/impl/SimpleListener.java:21 | already-collapsed text is left unchanged |
| SimpleListener.CollapseIdempotent | src/main/java/com/yk/chatbot/lasa/impl/SimpleListener.java:21 | collapsing twice is collapsing once |
| SimpleListener.CollapseAppend | src/main/java/com/yk/chatbot/lasa/impl/SimpleListener.java:21 | text ending in a non-whitespace character collapses on its own: collapsing it followed by more text is its collapse followed by the collapse of the rest |
| SimpleListener.CollapseRun | src/main/java/com/yk/chatbot/lasa/impl/SimpleListener.java:21 | a whitespace run between two non-spaces becomes exactly one space, and the text on either side collapses on its own |
| SimpleListener.FilterKept | src/main/java/com/yk/chatbot/lasa/impl/SimpleListener.java:24 | the filter leaves only letters, digits, whitespace and ASCII punctuation |
| SimpleListener.FilterKeptAppend | src/main/java/com/yk/chatbot/lasa/impl/SimpleListener.java:24 | the filter acts character by character: the filter of a concatenation is the concatenation of the filters, so kept characters stay in input order |
| SimpleListener.FilterKeptCounts | src/main/java/com/yk/chatbot/lasa/impl/SimpleListener.java:24 | the filter keeps each allowed character as often as it occurred and drops every other |
| SimpleListener.Listen | src/main/java/com/yk/chatbot/lasa/impl/SimpleListener.java:15-27 | a missing request or message gives the empty text; otherwise a text no longer than the input of allowed characters only |
| SimpleListener.CollapseKeepsEnds | src/main/java/com/yk/chatbot/lasa/impl/SimpleListener.java:21 | trimmed text stays free of whitespace at both ends after collapsing |
| SimpleListener.NormalizeShape | src/main/java/com/yk/chatbot/lasa/impl/SimpleListener.java:21 | after line 21 the text is collapsed and has no whitespace at either end |
| SimpleListener.ListenOnlyPlainSpaces | src/main/java/com/yk/chatbot/lasa/impl/SimpleListener.java:15-27 | the plain space is the only whitespace a listened message can hold |
| SimpleListener.ListenCanExposeDoubleSpace | src/main/java/com/yk/chatbot/lasa/impl/SimpleListener.java:21-24 | the filter runs after the collapse, so deleting a character between two spaces leaves a double space |
| SimpleSolver.ExtractLocationFromMessage | src/main/java/com/yk/chatbot/lasa/impl/SimpleSolver.java:96-110 | the answer is always a listed keyword; an empty or missing message gives 서울; any other answer is contained in the message |
| SimpleSolver.ExtractFindsEarliestKeyword | src/main/java/com/yk/chatbot/lasa/impl/SimpleSolver.java:96-110 | the earliest listed keyword the message contains is the answer |
| SimpleSolver.ShadowedKeyword | src/main/java/com/yk/chatbot/lasa/impl/SimpleSolver.java:68-110 | a keyword containing an earlier keyword can never be the answer |
| SimpleSolver.SeoulLongFormIsShadowed | src/main/java/com/yk/chatbot/lasa/impl/SimpleSolver.java:68-110 | 서울특별시 is never extracted, although it is listed |
| SimpleSolver.BusanLongFormIsShadowed | src/main/java/com/yk/chatbot/lasa/impl/SimpleSolver.java:68-110 | 부산광역시 is never extracted, although it is listed |
| SimpleSolver.JejuLongFormsAreShadowed | src/main/java/com/yk/chatbot/lasa/impl/SimpleSolver.java:68-110 | 제주도 and 제주특별자치도 are never extracted, although they are listed |
| SimpleSolver.ResolveLocation | src/main/java/com/yk/chatbot/lasa/impl/SimpleSolver.java:132-146 | a non-empty location entity is used; an empty one gives 서울; a missing one (or a missing entity map) gives exactly the keyword scan's answer |
| SimpleSolver.EmptyEntityIgnoresMessage | src/main/java/com/yk/chatbot/lasa/impl/SimpleSolver.java:133-140 | when the entity is present, the message is never consulted |
| SimpleSolver.WeatherDetail | src/main/java/com/yk/chatbot/lasa/impl/SimpleSolver.java:150-151 | a known weather gets its description, any other a generic sentence around it |
| SimpleSolver.GenericDetailQuotesWeather | src/main/java/com/yk/chatbot/lasa/impl/SimpleSolver.java:150-151 | the generic sentence quotes the weather text |
| SimpleSolver.ErrorWeatherGetsGenericDetail | src/main/java/com/yk/chatbot/lasa/impl/SimpleSolver.java:150-151 | the weather service's failure text is wrapped in the generic sentence |
| SimpleSolver.TemperatureBand | src/main/java/com/yk/chatbot/lasa/impl/SimpleSolver.java:184-195 | every temperature lies in one of five bands |
| SimpleSolver.TempDescription | src/main/java/com/yk/chatbot/lasa/impl/SimpleSolver.java:184-195 | every temperature gets one of the five band texts |
| SimpleSolver.BandsAreMonotone | src/main/java/com/yk/chatbot/lasa/impl/SimpleSolver.java:184-195 | a warmer temperature is never in a colder band |
| SimpleSolver.DescriptionsPartitionTemperatures | src/main/java/com/yk/chatbot/lasa/impl/SimpleSolver.java:184-195 | the bands are ≤ 0, 1–10, 11–20, 21–28 and ≥ 29, and two temperatures share a text exactly when they share a band |
| SimpleSolver.Template | src/main/java/com/yk/chatbot/lasa/impl/SimpleSolver.java:252 | a known intent gets its template, any other the fallback template |
| SimpleSolver.SuccessResult | src/main/java/com/yk/chatbot/lasa/impl/SimpleSolver.java:248-254 | a successful result for the intent with its template and no data |
| SimpleSolver.ErrorResult | src/main/java/com/yk/chatbot/lasa/impl/SimpleSolver.java:256-264 | an unsuccessful "error" result with the "%s" template and the system error text |
| SimpleSolver.FallbackResult | src/main/java/com/yk/chatbot/lasa/impl/SimpleSolver.java:266-274 | a successful "fallback" result with the "%s" template and the default text |
| SimpleSolver.Enrich | src/main/java/com/yk/chatbot/lasa/impl/SimpleSolver.java:283-297 | a non-empty generated text replaces the stored response; otherwise nothing changes |
| SimpleSolver.EnrichIdempotent | src/main/java/com/yk/chatbot/lasa/impl/SimpleSolver.java:283-297 | enriching twice with the same text is enriching once |
| SimpleSolver.ReportedIntent | src/main/java/com/yk/chatbot/lasa/impl/SimpleSolver.java:125-226 | every solution reports an intent that has a template |
| SimpleSolver.Solve | src/main/java/com/yk/chatbot/lasa/impl/SimpleSolver.java:113-232 | a missing analysis gives the error result; success exactly when the intent is not "error"; the template is the reported intent's; the data keys are those of the intent's case |
| SimpleSolver.WithPhrase | src/main/java/com/yk/chatbot/lasa/impl/SimpleSolver.java:126-128 | a successful result for the intent with its template, storing exactly the one phrase under its key |
| SimpleSolver.WeatherSolution | src/main/java/com/yk/chatbot/lasa/impl/SimpleSolver.java:130-160 | a successful "weather" result with the weather template, storing exactly location, weather, detail and date |
| SimpleSolver.TemperatureSolution | src/main/java/com/yk/chatbot/lasa/impl/SimpleSolver.java:162-200 | a successful "temperature" result with the temperature template, storing exactly location, temperature and description |
| SimpleSolver.HandledIntentsHaveTemplates | src/main/java/com/yk/chatbot/lasa/impl/SimpleSolver.java:125-214 | every intent the switch names has its own template |
| SimpleSolver.SolveHandled | src/main/java/com/yk/chatbot/lasa/impl/SimpleSolver.java:125-214 | each named case other than "error" succeeds, reports its own intent and template, and stores that intent's keys |
| SimpleSolver.SolveAnalysis | src/main/java/com/yk/chatbot/lasa/impl/SimpleSolver.java:125-226 | a non-null analysis succeeds exactly when its intent is not "error"; unnamed intents report "fallback"; the data keys match the reported intent |
| SimpleSolver.WeatherData | src/main/java/com/yk/chatbot/lasa/impl/SimpleSolver.java:130-160 | the weather solution stores the resolved location, the service's weather, its detail and the date |
| SimpleSolver.TemperatureData | src/main/java/com/yk/chatbot/lasa/impl/SimpleSolver.java:162-200 | the temperature solution stores the resolved location, the service's integer temperature and its band text |
| SimpleSolver.PhraseData | src/main/java/com/yk/chatbot/lasa/impl/SimpleSolver.java:126-128 | greetings and farewells store a phrase from their list |
| SimpleSolver.FallbackData | src/main/java/com/yk/chatbot/lasa/impl/SimpleSolver.java:216-226 | unhandled intents and "error" store the generated text when there is one, the default text otherwise |
| SimpleAnswerer.DateTimeSuffix | src/main/java/com/yk/chatbot/lasa/impl/SimpleAnswerer.java:69-72 | a non-empty date becomes a " (… 기준)" suffix that quotes it; an empty one adds nothing |
| SimpleAnswerer.FormatResponseMessage | src/main/java/com/yk/chatbot/lasa/impl/SimpleAnswerer.java:47-98 | a missing template gives the fixed apology; a missing intent fails; intents without a case show the template as is; greeting, bye, time, weather and temperature fill their templates as the render lemmas below state |
| SimpleAnswerer.ErrorResponse | src/main/java/com/yk/chatbot/lasa/impl/SimpleAnswerer.java:106-113 | an "error" response with the text, confidence 0 and no entities |
| SimpleAnswerer.Answer | src/main/java/com/yk/chatbot/lasa/impl/SimpleAnswerer.java:20-39 | a missing solution or a rendering failure gives an error response; otherwise the rendered text with the solution's intent and data, at 1 for success and 0.5 otherwise |
| SimpleAnswerer.ZeroConfidenceIsErrorResponse | src/main/java/com/yk/chatbot/lasa/impl/SimpleAnswerer.java:20-39 | confidence 0 marks exactly the two error responses |
| SimpleAnswerer.FallbackRendersPlaceholder | src/main/java/com/yk/chatbot/lasa/impl/SimpleAnswerer.java:94-96 | fallback and error solutions render as the literal "%s"; the stored text is never shown |
| SimpleAnswerer.GreetingShowsPhrase | src/main/java/com/yk/chatbot/lasa/impl/SimpleAnswerer.java:57-60 | a greeting answer shows exactly the phrase the solver picked |
| SimpleAnswerer.TemperatureTemplate | src/main/java/com/yk/chatbot/lasa/impl/SimpleAnswerer.java:76-82 | the temperature template renders location, degrees and description in place |
| SimpleAnswerer.TemperatureRoundTrip | src/main/java/com/yk/chatbot/lasa/impl/SimpleAnswerer.java:76-82 | a 32-bit temperature stored by the solver is printed back unchanged |
| SimpleAnswerer.UnparsableTemperatureFails | src/main/java/com/yk/chatbot/lasa/impl/SimpleAnswerer.java:78-79 | a temperature text that is not an integer makes the answer the rendering error |
| SimpleAnswerer.WeatherDateSuffix | src/main/java/com/yk/chatbot/lasa/impl/SimpleAnswerer.java:62-74 | a non-empty date adds the date suffix to the weather text; an empty one leaves the plain three-value format |
| SimpleAnswerer.PlaceholderRenders | src/main/java/com/yk/chatbot/lasa/impl/SimpleAnswerer.java:57-92 | greeting and bye templates render exactly the stored phrase, and the default phrase when none is stored |
| SimpleAnswerer.TimeRenders | src/main/java/com/yk/chatbot/lasa/impl/SimpleAnswerer.java:83-87 | the time template renders "현재 시간은 <time>입니다." with the stored time, or the current time when none is stored |
| SimpleAnswerer.WeatherRenders | src/main/java/com/yk/chatbot/lasa/impl/SimpleAnswerer.java:62-74 | the weather template renders location, weather and detail into its sentence, each defaulted when missing, followed by the date suffix |
| SimpleAnswerer.WeatherDefaults | src/main/java/com/yk/chatbot/lasa/impl/SimpleAnswerer.java:62-74 | with nothing stored the weather text is "서울의 현재 날씨는 알 수 없음입니다. " |
| SimpleAnswerer.TemperatureRenders | src/main/java/com/yk/chatbot/lasa/impl/SimpleAnswerer.java:76-82 | the temperature template renders location, the decimal temperature and description into its sentence, each defaulted when missing |
| SimpleAnswerer.TemperatureDefaultsToZero | src/main/java/com/yk/chatbot/lasa/impl/SimpleAnswerer.java:76-82 | without a stored temperature the text reads 0°C |
| SimpleAnswerer.ConfiguredTemplatesRender | src/main/java/com/yk/chatbot/lasa/impl/SimpleAnswerer.java:47-98 | a solution carrying its intent's configured template renders, provided a temperature is stored as a 32-bit integer |
| SimpleAnswerer.SolutionsAlwaysRender | src/main/java/com/yk/chatbot/lasa/impl/SimpleAnswerer.java:47-98 | every solution the solver builds renders without an exception |
| Lasa.NewAnalysis | src/main/java/com/yk/chatbot/lasa/AnalysisResult.java:29-30 | a built analysis starts with an empty entity map |
| Lasa.AddEntity | src/main/java/com/yk/chatbot/lasa/AnalysisResult.java:45-51 | the pair is stored, a null map counting as empty; every other entity and field is unchanged |
| Lasa.AddEntityOverwrites | src/main/java/com/yk/chatbot/lasa/AnalysisResult.java:45-51 | a second value under the same name replaces the first |
| Lasa.AddEntityCommutes | src/main/java/com/yk/chatbot/lasa/AnalysisResult.java:45-51 | entities under different names can be added in either order |
| Lasa.NewSolution | src/main/java/com/yk/chatbot/lasa/SolutionResult.java:29-30 | a built solution starts with an empty data map |
| Lasa.AddData | src/main/java/com/yk/chatbot/lasa/SolutionResult.java:52-58 | the pair is stored, a null map counting as empty; every other entry, field and the success flag are unchanged |
| Lasa.AddDataOverwrites | src/main/java/com/yk/chatbot/lasa/SolutionResult.java:52-58 | a second value under the same key replaces the first |
| Lasa.AddDataCommutes | src/main/java/com/yk/chatbot/lasa/SolutionResult.java:52-58 | data under different keys can be added in either order |
| AnalyzerConfig.PrimaryAnalyzer | src/main/java/com/yk/chatbot/config/AnalyzerConfig.java:36-57 | "rasa" and "koala" in any letter case select those analyzers; everything else selects the hybrid |
| AnalyzerConfig.MissingSettingSelectsHybrid | src/main/java/com/yk/chatbot/config/AnalyzerConfig.java:26 | without a setting the hybrid analyzer is used |
| AnalyzerConfig.SelectionIgnoresCase | src/main/java/com/yk/chatbot/config/AnalyzerConfig.java:45-55 | the choice depends on the setting only up to letter case |
| AnalyzerConfig.UpperCaseRasa | src/main/java/com/yk/chatbot/config/AnalyzerConfig.java:45-55 | "RASA" selects Rasa and "Koala" selects KOMORAN |
| WeatherService.MaskApiKey | src/main/java/com/yk/chatbot/service/WeatherService.java:155-160 | keys shorter than eight characters mask to "***", longer ones show only their first and last four |
| WeatherService.MaskShowsOnlyEnds | src/main/java/com/yk/chatbot/service/WeatherService.java:155-160 | keys with the same ends mask alike |
| WeatherService.BlankKeyIsNotValid | src/main/java/com/yk/chatbot/service/WeatherService.java:369-371 | a blank key is never a real key |
| WeatherService.PaddedDummyKeyIsValid | src/main/java/com/yk/chatbot/service/WeatherService.java:369-371 | the dummy key itself is not valid, but the dummy key with a leading space is, because it is compared untrimmed |
| WeatherService.TestModeWeather | src/main/java/com/yk/chatbot/service/WeatherService.java:181-189 | test-mode weather is clear, cloudy or overcast |
| WeatherService.TestModeWeatherClear | src/main/java/com/yk/chatbot/service/WeatherService.java:181-189 | the test weather is clear exactly before noon and from 21:00 |
| WeatherService.TestModeTemperature | src/main/java/com/yk/chatbot/service/WeatherService.java:241-249 | test-mode temperatures lie between −3 and 30 |
| WeatherService.AfternoonIsWarmer | src/main/java/com/yk/chatbot/service/WeatherService.java:241-249 | in every season the afternoon is warmer than the morning |
| WeatherService.SummerWarmestWinterColdest | src/main/java/com/yk/chatbot/service/WeatherService.java:241-249 | summer is warmest and winter coldest at every hour |
| WeatherService.ClearAndRainAvoidReservedTexts | src/main/java/com/yk/chatbot/service/WeatherService.java:37-53 | no clear, cloud or rain code translates to the unknown or error text |
| WeatherService.SnowAndHazeAvoidReservedTexts | src/main/java/com/yk/chatbot/service/WeatherService.java:56-73 | no snow or haze code translates to the unknown or error text |
| WeatherService.ThunderAndDrizzleAvoidReservedTexts | src/main/java/com/yk/chatbot/service/WeatherService.java:76-96 | no thunderstorm or drizzle code translates to the unknown or error text |
| WeatherService.TranslationsAreKnown | src/main/java/com/yk/chatbot/service/WeatherService.java:33-97 | no code translates to the unknown or error text |
| WeatherService.TranslateDescription | src/main/java/com/yk/chatbot/service/WeatherService.java:211 | a known description, ignoring case, gets its Korean name, any other "알 수 없음" |
| WeatherService.TranslateIgnoresCase | src/main/java/com/yk/chatbot/service/WeatherService.java:211 | the translation ignores letter case |
| WeatherService.UnknownMeansUntranslated | src/main/java/com/yk/chatbot/service/WeatherService.java:211 | "알 수 없음" is answered exactly for unknown descriptions |
| WeatherService.WeatherForLocation | src/main/java/com/yk/chatbot/service/WeatherService.java:168-219 | without a real key the test weather; with one the translated answer, or the error text on failure |
| WeatherService.WeatherErrorIsDistinct | src/main/java/com/yk/chatbot/service/WeatherService.java:168-219 | the error text is answered exactly when a real lookup fails |
| WeatherService.TruncateToInt32 | src/main/java/com/yk/chatbot/service/WeatherService.java:267 | the conversion `asInt` applies to a number drops the fraction toward zero and saturates at the 32-bit bounds |
| WeatherService.TruncationIsSymmetric | src/main/java/com/yk/chatbot/service/WeatherService.java:267 | within the 32-bit range truncation commutes with negation, so 22.7 gives 22 and -22.7 gives -22 |
| WeatherService.TemperatureForLocation | src/main/java/com/yk/chatbot/service/WeatherService.java:227-275 | without a real key the result is exactly the test-mode temperature of the month and hour; with one it is 0 when the call fails and otherwise the fetched reading truncated toward zero to a 32-bit int. |
| WeatherService.TemperatureFailureLooksLikeZero | src/main/java/com/yk/chatbot/service/WeatherService.java:271-274 | a failed lookup cannot be told apart from a real reading of 0 °C |
| WeatherService.NormalizeLocation | src/main/java/com/yk/chatbot/service/WeatherService.java:286-293 | the name is trimmed, and the "here" words become 서울 |
| WeatherService.NormalizeIgnoresPadding | src/main/java/com/yk/chatbot/service/WeatherService.java:286-293 | surrounding whitespace does not change where a name points |
| WeatherService.FirstExtension | src/main/java/com/yk/chatbot/service/WeatherService.java:296-307 | the first table key, in iteration order, that starts with the name |
| WeatherService.ExpandPrefix | src/main/java/com/yk/chatbot/service/WeatherService.java:296-307 | a name ending in 시, 도, 군 or 구 stays as it is; otherwise it may become a table key that extends it, and does whenever one exists |
| WeatherService.EmptyNameTakesFirstKey | src/main/java/com/yk/chatbot/service/WeatherService.java:296-307 | an empty name expands to the first key in iteration order |
| WeatherService.KnownNameCanBeRedirected | src/main/java/com/yk/chatbot/service/WeatherService.java:296-313 | the prefix search runs before the table lookup, so a known name can be redirected to a longer key |
| WeatherService.CoordinatesForLocation | src/main/java/com/yk/chatbot/service/WeatherService.java:284-355 | the table only grows, and only by the looked-up name; a known name gets its coordinates, every other name Seoul's; without a real key the table is unchanged |
| WeatherService.ExpandedToItself | src/main/java/com/yk/chatbot/service/WeatherService.java:296-307 | a name that expands to itself without being a key extends no key |
| WeatherService.ExpandToInserted | src/main/java/com/yk/chatbot/service/WeatherService.java:296-345 | once a name is cached and no key extends it, it expands to itself |
| WeatherService.LookupIsMemoised | src/main/java/com/yk/chatbot/service/WeatherService.java:310-345 | a geocoded name is remembered, so asking again gives the same coordinates without geocoding |
| WeatherService.LookupKeepsSeoul | src/main/java/com/yk/chatbot/service/WeatherService.java:284-355 | Seoul's entry survives every lookup, so the fallback stays defined |
| WeatherService.JejuDoName | src/main/java/com/yk/chatbot/service/WeatherService.java:286-307 | 제주도 ends in 도 and is looked up as itself |
| WeatherService.JejuDoIsNotJeju | src/main/java/com/yk/chatbot/service/WeatherService.java:284-322 | without a real key, 제주도 gets Seoul's coordinates and not 제주's |
| WeatherService.InitialTableShape | src/main/java/com/yk/chatbot/service/WeatherService.java:107-132 | the initial table knows 서울 and 제주 but not 제주도 |
| ChatbotService.AnalyzeWith | src/main/java/com/yk/chatbot/service/LasaChatbotService.java:33-34 | the selected analyzer records the listened message; KOMORAN answers only weather, greeting, fallback or error |
| ChatbotService.Process | src/main/java/com/yk/chatbot/service/LasaChatbotService.java:27-46 | every request gets a response naming an intent that has a template, at 0.5 for "error" and 1 otherwise, stamped with the clock |
| ChatbotService.IdentifiersIgnored | src/main/java/com/yk/chatbot/service/LasaChatbotService.java:30-39 | the user and session identifiers do not influence the response |
| ChatbotService.OnlyTheListenedTextMatters | src/main/java/com/yk/chatbot/service/LasaChatbotService.java:30-39 | two requests the listener reduces to the same text get the same response |
| ChatbotService.NullRequestReachesFallback | src/main/java/com/yk/chatbot/service/LasaChatbotService.java:30-39 | a missing request is not short-circuited: with KOMORAN and no tokens it ends in the fallback answer "%s" at 1 |

## Left out

- Network and I/O: Rasa HTTP calls (`RasaClientService`), OpenWeatherMap and geocoding requests, JSON parsing, OpenAI calls with their five-second timeout, logging, the REST controller. Each answer the code gets from outside is a parameter (`RasaReply`, `fetched`, `geocode`, `generated`); a failure or timeout is `None`.
- KOMORAN itself: the morphological analysis and the user-dictionary file are replaced by a token list. The tokenizer failing is `None`.
- Clocks and randomness: the hour, the month, the formatted date and time, `System.currentTimeMillis` and `Random.nextInt` are inputs.
- Unicode classes: `\p{L}` and `\p{N}` of the listener's filter are a predicate parameter. `toLowerCase` is modelled on ASCII letters only; all keywords are Korean and the configuration values are ASCII.
- `double` is modelled as exact `real`: the fused and KOMORAN confidences are not rounded.
- `String.format` is modelled for `%s` and `%d` only, the directives the templates use.
- HashMap iteration orders are parameters: KOMORAN's tie-break between equal scores, SimpleAnalyzer's pattern order, the order of the coordinate table in the prefix search, and the entity-map orders. The lemmas show which results do not depend on them.
- HybridAnalyzer.Analyze: the catch block at lines 57-63 is not modelled. Both sub-analyzers contain their own failures and return non-null fields, so nothing in the fusion can throw.
- SimpleSolver.Solve: the catch at lines 228-231 is not modelled. Every case is total in the model; the intent is never null.
- ChatbotService.Process: the catch at `LasaChatbotService.java:40-45` is not modelled. Every stage contains its own failures, and `SimpleAnswerer.SolutionsAlwaysRender` shows rendering never fails. That block calls a `reply` builder method `ChatResponse` does not declare; its text is kept as `ProcessingErrorText`.
- `KoalaNLPAnalyzer` reads its cities from `weatherService.getCityCoordinates()`, which `WeatherService` does not declare. The model takes the keys of the initial coordinate table (`InitialCoordinates`), as the constructor copies them once; `ChatbotService.AnalyzerCityNames` is that set with 제주도 added, and both the KOMORAN and the hybrid analyzer of the pipeline use it.
- `RasaAnalyzer` calls `result.hasEntity("location")`, which `AnalysisResult` does not declare. It is modelled as key membership in the entity map.
- WeatherService.CoordinatesForLocation: the geocoding reply is a parameter. It does not model how the JSON is parsed or the coordinates are formatted.
- SimpleAnswerer.FormatResponseMessage: the temperature text is parsed with ASCII digits `0`-`9` only. `Integer.parseInt` at `SimpleAnswerer.java:79` also accepts the other Unicode decimal digits (`３`, `٣`, …), which the model rejects as unparsable. The solver stores the temperature as an Integer, and `String.valueOf` prints it in ASCII, so no solution the pipeline builds reaches the difference.
- SimpleAnswerer.UnparsableTemperatureFails: its premise `ParseInt(text).None?` also holds for texts of non-ASCII decimal digits, which Java parses. On those texts the stated render error is the model's, not the source's; the lemma is faithful for every text made of ASCII characters.
- WeatherService.TemperatureForLocation: the fetched reading is the numeric value of `main.temp`, truncated toward zero by `asInt`; a failed call and a missing node are both `None`, and both give 0 in the code. A `main.temp` node that is text or a boolean, which `asInt` would coerce, is not modelled; OpenWeatherMap sends a number there.
- A blank message is not short-circuited anywhere in the code: it runs through every stage like any other.
- The hybrid analyzer runs both analyzers and fuses their results under a single try block. It does not substitute one analyzer's result for the other's failure.
- `SimpleAnalyzer` is modelled, but `AnalyzerConfig` never selects it.
- `OpenAIService` and `ChatbotController` are not part of this model beyond the generated text parameter.

=== FILE: analyzer_config.dfy ===
/** AnalyzerConfig: which analyzer the pipeline uses, chosen once from the
    `chatbot.analyzer.type` setting. */
module AnalyzerConfig {
  import opened Wrappers
  import opened Text

  datatype AnalyzerKind = RasaKind | KoalaKind | HybridKind

  /** The value the setting takes when it is absent. */
  const DefaultAnalyzerType: string := "hybrid"

  /** `primaryAnalyzer`: "rasa" and "koala" in any letter case pick those analyzers;
      "hybrid" and every other value pick the hybrid one. */
  function PrimaryAnalyzer(analyzerType: Option<string>): (k: AnalyzerKind)
    ensures k == RasaKind <==> ToLower(analyzerType.GetOr(DefaultAnalyzerType)) == "rasa"
    ensures k == KoalaKind <==> ToLower(analyzerType.GetOr(DefaultAnalyzerType)) == "koala"
  {
    var t := ToLower(analyzerType.GetOr(DefaultAnalyzerType));
    if t == "rasa" then RasaKind
    else if t == "koala" then KoalaKind
    else HybridKind
  }

  /** Without a setting the hybrid analyzer is used. */
  lemma MissingSettingSelectsHybrid()
    ensures PrimaryAnalyzer(None) == HybridKind
  {
    assert ToLower(DefaultAnalyzerType) == DefaultAnalyzerType;
  }

  /** The choice depends on the setting only up to letter case. */
  lemma SelectionIgnoresCase(t: string)
    ensures PrimaryAnalyzer(Some(t)) == PrimaryAnalyzer(Some(ToLower(t)))
  {
    ToLowerIdempotent(t);
  }

  /** Any spelling of "RASA" selects the Rasa analyzer. */
  lemma UpperCaseRasa()
    ensures PrimaryAnalyzer(Some("RASA")) == RasaKind
    ensures PrimaryAnalyzer(Some("Koala")) == KoalaKind
  {
    assert ToLower("RASA") == "rasa";
    assert ToLower("Koala") == "koala";
  }
}

=== FILE: chatbot_service.dfy ===
/** The Listen-Analyze-Solve-Answer pipeline (LasaChatbotService) with the
    analyzer AnalyzerConfig selects. What the stages consult outside the model —
    the Rasa server, the KOMORAN tokenizer, the Unicode character classes, the
    weather service, the clocks and the random choice — is one record of inputs. */
module ChatbotService {
  import opened Wrappers
  import opened Text
  import opened Lasa
  import AnalyzerConfig
  import RasaAnalyzer
  import KoalaNLPAnalyzer
  import HybridAnalyzer
  import SimpleListener
  import SimpleSolver
  import SimpleAnswerer
  import WeatherService

  /** The pipeline's surroundings: the Rasa server's reply and KOMORAN's tokens
      for each message, the analyzer's keyword order, the letter and digit
      classes, the resolver's world and the clock readings. */
  datatype Surroundings = Surroundings(
    rasaParse: string -> RasaAnalyzer.RasaReply,
    tokenize: string -> Option<seq<KoalaNLPAnalyzer.Token>>,
    weatherFirst: bool,
    isLetterOrNumber: char -> bool,
    world: SimpleSolver.World,
    now: int,
    isoNow: string)

  /** The text of the catch block; the source hands it to a `reply` builder
      method ChatResponse does not declare, so it is modelled as the message. */
  const ProcessingErrorText: string := "처리 중 오류가 발생했습니다. 잠시 후 다시 시도해주세요."

  /** The KOMORAN analyzer's city names: copied once, when the analyzer is built,
      from the weather service's coordinate table, which then holds its initial
      entries. */
  const AnalyzerCityNames: set<string> := KoalaNLPAnalyzer.AnalyzerCities(WeatherService.InitialCoordinates.Keys)

  /** A random index the resolver can use. */
  predicate ValidPick(w: SimpleSolver.World) {
    w.pick < |SimpleSolver.GreetingResponses| && w.pick < |SimpleSolver.ByeResponses|
  }

  /** `analyzer.analyze(message)` for the selected analyzer. */
  function AnalyzeWith(kind: AnalyzerConfig.AnalyzerKind, message: string, env: Surroundings): (a: AnalysisResult)
    ensures a.originalMessage == Some(message)
    ensures kind == AnalyzerConfig.KoalaKind ==> a.intent in {"weather", "greeting", "fallback", "error"}
  {
    match kind
    case RasaKind => RasaAnalyzer.Analyze(message, env.rasaParse(message))
    case KoalaKind => KoalaNLPAnalyzer.Analyze(message, env.tokenize(message), AnalyzerCityNames, env.weatherFirst)
    case HybridKind =>
      HybridAnalyzer.Analyze(message, env.rasaParse(message), env.tokenize(message), AnalyzerCityNames, env.weatherFirst)
  }

  /** `process(request)`: listen, analyze the listened text with the configured
      analyzer, solve, answer. Every stage handles its own failures, so the
      pipeline's response always names an intent, and the rendering never fails:
      the confidence is 1 except for the "error" intent, which gets 0.5. */
  function Process(request: Option<ChatRequest>, analyzerType: Option<string>, env: Surroundings): (r: ChatResponse)
    requires ValidPick(env.world)
    ensures r.intent.Some? && r.intent.value in SimpleSolver.ResponseTemplates
    ensures r.confidence == (if r.intent == Some("error") then 0.5 else 1.0)
    ensures r.timestamp == env.now
  {
    var message := SimpleListener.Listen(request, env.isLetterOrNumber);
    var analysis := AnalyzeWith(AnalyzerConfig.PrimaryAnalyzer(analyzerType), message, env);
    var solution := SimpleSolver.Solve(Some(analysis), env.world);
    SimpleAnswerer.SolutionsAlwaysRender(analysis, env.world, env.isoNow);
    SimpleAnswerer.Answer(Some(solution), env.now, env.isoNow)
  }

  /** The user and session identifiers do not influence the response. */
  lemma IdentifiersIgnored(request: ChatRequest, userId: Option<string>, sessionId: Option<string>,
                           analyzerType: Option<string>, env: Surroundings)
    requires ValidPick(env.world)
    ensures Process(Some(request), analyzerType, env)
         == Process(Some(request.(userId := userId, sessionId := sessionId)), analyzerType, env)
  {
    OnlyTheListenedTextMatters(Some(request), Some(request.(userId := userId, sessionId := sessionId)), analyzerType, env);
  }

  /** The analyzer sees only the listener's output: two requests that listen to
      the same text get the same response. */
  lemma OnlyTheListenedTextMatters(r1: Option<ChatRequest>, r2: Option<ChatRequest>,
                                   analyzerType: Option<string>, env: Surroundings)
    requires ValidPick(env.world)
    requires SimpleListener.Listen(r1, env.isLetterOrNumber) == SimpleListener.Listen(r2, env.isLetterOrNumber)
    ensures Process(r1, analyzerType, env) == Process(r2, analyzerType, env)
  {
  }

  /** KOMORAN with no tokens for the empty text falls back. */
  lemma EmptyTokensGiveFallback(env: Surroundings)
    requires env.tokenize("") == Some([])
    ensures AnalyzeWith(AnalyzerConfig.KoalaKind, "", env).intent == "fallback"
  {
    assert KoalaNLPAnalyzer.DetermineIntent([], env.weatherFirst) == "fallback";
  }

  /** The solver turns a fallback analysis into the enriched fallback result. */
  lemma FallbackSolved(a: AnalysisResult, w: SimpleSolver.World)
    requires a.intent == "fallback" && ValidPick(w)
    ensures SimpleSolver.Solve(Some(a), w) == SimpleSolver.Enrich(SimpleSolver.FallbackResult(), w.generated)
  {
  }

  /** There is no shortcut for blank input: a missing request flows through the
      whole pipeline, and with the KOMORAN analyzer and no tokens it ends in the
      fallback answer, whose template is shown as is. */
  lemma NullRequestReachesFallback(env: Surroundings)
    requires ValidPick(env.world)
    requires env.tokenize("") == Some([])
    ensures Process(None, Some("koala"), env).intent == Some("fallback")
    ensures Process(None, Some("koala"), env).message == "%s"
    ensures Process(None, Some("koala"), env).confidence == 1.0
  {
    assert ToLower("koala") == "koala";
    assert SimpleListener.Listen(None, env.isLetterOrNumber) == "";
    var a := AnalyzeWith(AnalyzerConfig.KoalaKind, "", env);
    EmptyTokensGiveFallback(env);
    FallbackSolved(a, env.world);
    SimpleAnswerer.FallbackRendersPlaceholder(env.world.generated, env.now, env.isoNow);
  }
}

=== FILE: formatter.dfy ===
/** The part of `String.format` the response templates use. */
module Formatter {
  import opened Wrappers
  import opened Text
  import opened Lasa

  /** `p` in front of a formatted result; a failed format stays failed. */
  function Prepend(p: string, r: Option<string>): Option<string> {
    match r
    case Some(s) => Some(p + s)
    case None => None
  }

  /** `String.format(t, args)` for the `%s` and `%d` conversions: `%s` prints any
      value with `String.valueOf`, `%d` prints an Integer. Running out of arguments
      or `%d` applied to a String is an exception (None); any other `%` sequence
      (`%%`, `%n`, widths, other conversions) is not modelled and also gives None.
      Surplus arguments are ignored, as in Java. */
  function Format(t: string, args: seq<Value>): (r: Option<string>)
    decreases |t|
  {
    if t == [] then Some("")
    else if t[0] != '%' then Prepend([t[0]], Format(t[1..], args))
    else if |t| >= 2 && t[1] == 's' && args != [] then
      Prepend(ValueToString(args[0]), Format(t[2..], args[1..]))
    else if |t| >= 2 && t[1] == 'd' && args != [] && args[0].Int? then
      Prepend(IntToString(args[0].i), Format(t[2..], args[1..]))
    else None
  }

  /** Text without `%` passes through unchanged and consumes no argument. */
  lemma {:induction false} FormatLiteralPrefix(a: string, b: string, args: seq<Value>)
    requires '%' !in a
    ensures Format(a + b, args) == Prepend(a, Format(b, args))
    decreases |a|
  {
    if a != [] {
      var t := a + b;
      assert t[0] == a[0] && t[1..] == a[1..] + b;
      assert a[0] in a;
      FormatLiteralPrefix(a[1..], b, args);
      match Format(b, args)
      case Some(r) =>
        assert [a[0]] + (a[1..] + r) == a + r;
      case None =>
    } else {
      assert a + b == b;
      match Format(b, args)
      case Some(r) =>
        assert a + r == r;
      case None =>
    }
  }

  /** A template without conversions formats to itself, whatever the arguments. */
  lemma FormatLiteral(t: string, args: seq<Value>)
    requires '%' !in t
    ensures Format(t, args) == Some(t)
  {
    FormatLiteralPrefix(t, "", args);
    assert t + "" == t;
  }

  /** `%s` followed by `rest` prints the first argument, then formats `rest` with the others. */
  lemma FormatString(rest: string, v: Value, args: seq<Value>)
    ensures Format("%s" + rest, [v] + args) == Prepend(ValueToString(v), Format(rest, args))
  {
    var t := "%s" + rest;
    assert t[0] == '%' && t[1] == 's' && t[2..] == rest;
    assert ([v] + args)[1..] == args;
  }

  /** `%d` followed by `rest` prints the first argument when it is an Integer. */
  lemma FormatDecimal(rest: string, i: int, args: seq<Value>)
    ensures Format("%d" + rest, [Int(i)] + args) == Prepend(IntToString(i), Format(rest, args))
  {
    var t := "%d" + rest;
    assert t[0] == '%' && t[1] == 'd' && t[2..] == rest;
    assert ([Int(i)] + args)[1..] == args;
  }

  /** `%d` applied to a String is an IllegalFormatConversionException. */
  lemma FormatDecimalOfString(rest: string, s: string, args: seq<Value>)
    ensures Format("%d" + rest, [Str(s)] + args) == None
  {
    var t := "%d" + rest;
    assert t[0] == '%' && t[1] == 'd';
  }

  /** A conversion with no argument left is a MissingFormatArgumentException. */
  lemma FormatMissingArgument(rest: string)
    ensures Format("%s" + rest, []) == None
  {
    var t := "%s" + rest;
    assert t[0] == '%' && t[1] == 's';
  }

  /** Literal text, then `%s`: the text and the first argument are printed, then
      `rest` is formatted with the others. */
  lemma LiteralThenString(a: string, rest: string, v: Value, args: seq<Value>)
    requires '%' !in a
    ensures Format(a + "%s" + rest, [v] + args) == Prepend(a + ValueToString(v), Format(rest, args))
  {
    assert a + "%s" + rest == a + ("%s" + rest);
    FormatLiteralPrefix(a, "%s" + rest, [v] + args);
    FormatString(rest, v, args);
    match Format(rest, args)
    case Some(r) =>
      assert a + (ValueToString(v) + r) == a + ValueToString(v) + r;
    case None =>
  }

  /** Literal text, then `%d` with an Integer argument. */
  lemma LiteralThenDecimal(a: string, rest: string, i: int, args: seq<Value>)
    requires '%' !in a
    ensures Format(a + "%d" + rest, [Int(i)] + args) == Prepend(a + IntToString(i), Format(rest, args))
  {
    assert a + "%d" + rest == a + ("%d" + rest);
    FormatLiteralPrefix(a, "%d" + rest, [Int(i)] + args);
    FormatDecimal(rest, i, args);
    match Format(rest, args)
    case Some(r) =>
      assert a + (IntToString(i) + r) == a + IntToString(i) + r;
    case None =>
  }

  /** A template ending in its only `%s`. */
  lemma LiteralThenLastString(a: string, v: Value)
    requires '%' !in a
    ensures Format(a + "%s", [v]) == Some(a + ValueToString(v))
  {
    LiteralThenString(a, "", v, []);
    FormatLiteral("", []);
    assert a + "%s" + "" == a + "%s";
    assert [v] + [] == [v];
    assert a + ValueToString(v) + "" == a + ValueToString(v);
  }

  /** A template "%s a %d b %s" with literal pieces a and b prints its three
      arguments between the pieces. */
  lemma FormatStringDecimalString(a: string, b: string, x: string, t: int, y: string)
    requires '%' !in a && '%' !in b
    ensures Format("%s" + a + "%d" + b + "%s", [Str(x), Int(t), Str(y)]) == Some(x + a + IntToString(t) + b + y)
  {
    var tail := b + "%s";
    var mid := a + "%d" + tail;
    LiteralThenLastString(b, Str(y));
    LiteralThenDecimal(a, tail, t, [Str(y)]);
    assert [Int(t)] + [Str(y)] == [Int(t), Str(y)];
    FormatString(mid, Str(x), [Int(t), Str(y)]);
    assert [Str(x)] + [Int(t), Str(y)] == [Str(x), Int(t), Str(y)];
    ConcatFive("%s", a, "%d", b, "%s");
    ConcatFive(x, a, IntToString(t), b, y);
  }

  lemma ConcatFive(p: string, q: string, r: string, s: string, t: string)
    ensures p + (q + r + (s + t)) == p + q + r + s + t
  {
  }

  /** A template "a %s b" with literal pieces prints its one argument between them. */
  lemma FormatOne(a: string, b: string, v: Value)
    requires '%' !in a && '%' !in b
    ensures Format(a + "%s" + b, [v]) == Some(a + ValueToString(v) + b)
  {
    FormatLiteral(b, []);
    LiteralThenString(a, b, v, []);
    assert [v] + [] == [v];
  }

  /** A template "%s a %s b %s" with literal pieces prints its three String
      arguments between the pieces. */
  lemma FormatThreeStrings(a: string, b: string, x: string, y: string, z: string)
    requires '%' !in a && '%' !in b
    ensures Format("%s" + a + "%s" + b + "%s", [Str(x), Str(y), Str(z)]) == Some(x + a + y + b + z)
  {
    var tail := b + "%s";
    var mid := a + "%s" + tail;
    LiteralThenLastString(b, Str(z));
    LiteralThenString(a, tail, Str(y), [Str(z)]);
    assert [Str(y)] + [Str(z)] == [Str(y), Str(z)];
    FormatString(mid, Str(x), [Str(y), Str(z)]);
    assert [Str(x)] + [Str(y), Str(z)] == [Str(x), Str(y), Str(z)];
    ConcatFive("%s", a, "%s", b, "%s");
    ConcatFive(x, a, y, b, z);
  }
}

=== FILE: hybrid_analyzer.dfy ===
/** The hybrid analyzer (HybridAnalyzer): runs the Rasa and the KOMORAN
    analyzers on the same message, decides the intent from the two answers in four
    ordered rules, and merges the two entity maps. */
module HybridAnalyzer {
  import opened Wrappers
  import opened Text
  import opened Lasa
  import RasaAnalyzer
  import KoalaNLPAnalyzer

  /** `HIGH_CONFIDENCE_THRESHOLD`: from here on an analyzer counts as confident. */
  const HighConfidenceThreshold: real := 0.7

  /** The entity types for which the KOMORAN value wins a conflict. */
  const KoalaPreferredKeys: set<string> := {"location", "datetime", "person"}

  /** The intent and confidence `determineIntent` settles on. */
  datatype Verdict = Verdict(intent: string, confidence: real)

  function Min(a: real, b: real): real {
    if a <= b then a else b
  }

  // ---------------------------------------------------------------------------
  // Intent

  /** `determineIntent`, rule by rule: agreement averages the confidences and adds
      a 0.1 bonus capped at 1; otherwise a confident Rasa that beats KOMORAN wins,
      then a confident KOMORAN that beats Rasa; otherwise Rasa wins at 90 %. */
  function DetermineIntent(rasa: AnalysisResult, koala: AnalysisResult): (v: Verdict)
    ensures rasa.intent == koala.intent ==>
      v == Verdict(rasa.intent, Min(1.0, (rasa.confidence + koala.confidence) / 2.0 + 0.1))
    ensures rasa.intent != koala.intent && rasa.confidence >= HighConfidenceThreshold && rasa.confidence > koala.confidence ==>
      v == Verdict(rasa.intent, rasa.confidence)
    ensures rasa.intent != koala.intent && koala.confidence >= HighConfidenceThreshold && koala.confidence > rasa.confidence ==>
      v == Verdict(koala.intent, koala.confidence)
    ensures (rasa.intent != koala.intent
             && !(rasa.confidence >= HighConfidenceThreshold && rasa.confidence > koala.confidence)
             && !(koala.confidence >= HighConfidenceThreshold && koala.confidence > rasa.confidence)) ==>
      v == Verdict(rasa.intent, rasa.confidence * 0.9)
  {
    if rasa.intent == koala.intent then
      Verdict(rasa.intent, Min(1.0, (rasa.confidence + koala.confidence) / 2.0 + 0.1))
    else if rasa.confidence >= HighConfidenceThreshold && rasa.confidence > koala.confidence then
      Verdict(rasa.intent, rasa.confidence)
    else if koala.confidence >= HighConfidenceThreshold && koala.confidence > rasa.confidence then
      Verdict(koala.intent, koala.confidence)
    else
      Verdict(rasa.intent, rasa.confidence * 0.9)
  }

  /** The fused intent is always one of the two proposals. */
  lemma IntentFromOneSide(rasa: AnalysisResult, koala: AnalysisResult)
    ensures DetermineIntent(rasa, koala).intent in {rasa.intent, koala.intent}
  {
  }

  /** Confidences in [0, 1] fuse to a confidence in [0, 1]. */
  lemma ConfidenceStaysInUnitInterval(rasa: AnalysisResult, koala: AnalysisResult)
    requires 0.0 <= rasa.confidence <= 1.0 && 0.0 <= koala.confidence <= 1.0
    ensures 0.0 <= DetermineIntent(rasa, koala).confidence <= 1.0
  {
  }

  /** KOMORAN's intent prevails over a different Rasa intent exactly when KOMORAN is
      confident and strictly more confident than Rasa. */
  lemma KoalaWinsIff(rasa: AnalysisResult, koala: AnalysisResult)
    requires rasa.intent != koala.intent
    ensures DetermineIntent(rasa, koala).intent == koala.intent
        <==> koala.confidence >= HighConfidenceThreshold && koala.confidence > rasa.confidence
  {
  }

  /** Without agreement there is no bonus: the fused confidence never exceeds the
      larger of the two, provided neither is negative. */
  lemma DisagreementNeverBoosts(rasa: AnalysisResult, koala: AnalysisResult)
    requires rasa.intent != koala.intent && rasa.confidence >= 0.0
    ensures DetermineIntent(rasa, koala).confidence <= rasa.confidence || DetermineIntent(rasa, koala).confidence <= koala.confidence
  {
  }

  /** Agreement never lowers confidence below the weaker analyzer's, and the order
      of the two analyzers does not matter for it. */
  lemma AgreementIsSymmetric(rasa: AnalysisResult, koala: AnalysisResult)
    requires rasa.intent == koala.intent && rasa.confidence <= 1.0 && koala.confidence <= 1.0
    ensures DetermineIntent(rasa, koala) == DetermineIntent(koala, rasa)
    ensures DetermineIntent(rasa, koala).confidence >= Min(rasa.confidence, koala.confidence)
  {
  }

  /** A tie between two confident but different analyzers goes to Rasa, with the
      90 % penalty of the low-confidence rule. */
  lemma ConfidentTieGoesToRasa(rasa: AnalysisResult, koala: AnalysisResult)
    requires rasa.intent != koala.intent && rasa.confidence == koala.confidence >= HighConfidenceThreshold
    ensures DetermineIntent(rasa, koala) == Verdict(rasa.intent, rasa.confidence * 0.9)
  {
  }

  // ---------------------------------------------------------------------------
  // Entities

  /** The value a KOMORAN entity `key` leaves in `merged`: the Rasa value stays
      only for a key outside the preferred types (when the values are equal, both
      readings agree anyway). */
  function Resolve(merged: map<string, string>, koala: map<string, string>, key: string): string
    requires key in koala
  {
    if key in merged && key !in KoalaPreferredKeys then merged[key] else koala[key]
  }

  /** `mergeEntities`: Rasa's entities, then each KOMORAN entity added when new,
      ignored when equal, and written over Rasa's for the preferred types. */
  function MergeEntities(rasa: map<string, string>, koala: map<string, string>): (m: map<string, string>)
    ensures m.Keys == rasa.Keys + koala.Keys
    ensures forall k | k in rasa && k !in koala :: m[k] == rasa[k]
    ensures forall k | k in koala && k !in rasa :: m[k] == koala[k]
    ensures forall k | k in rasa && k in koala && rasa[k] == koala[k] :: m[k] == rasa[k]
    ensures forall k | k in rasa && k in koala && rasa[k] != koala[k] ::
      m[k] == (if k in KoalaPreferredKeys then koala[k] else rasa[k])
  {
    map k | k in rasa.Keys + koala.Keys :: if k in koala then Resolve(rasa, koala, k) else rasa[k]
  }

  /** The loop over the KOMORAN entities, visiting the keys in iteration order. */
  function MergeLoop(merged: map<string, string>, koala: map<string, string>, keys: seq<string>): map<string, string>
    requires forall i | 0 <= i < |keys| :: keys[i] in koala
    decreases |keys|
  {
    if keys == [] then merged
    else
      var key := keys[0];
      var value := koala[key];
      var merged' :=
        if key in merged then
          if value == merged[key] then merged
          else if key in KoalaPreferredKeys then merged[key := value]
          else merged
        else merged[key := value];
      MergeLoop(merged', koala, keys[1..])
  }

  /** What the loop has made of `merged` after visiting `keys`. */
  function Visited(merged: map<string, string>, koala: map<string, string>, keys: seq<string>): map<string, string>
    requires forall i | 0 <= i < |keys| :: keys[i] in koala
  {
    map k | k in merged.Keys + koala.Keys && (k in merged || k in keys) ::
      if k in keys then Resolve(merged, koala, k) else merged[k]
  }

  /** Every step of the loop writes the resolved value of its key. */
  lemma StepResolves(merged: map<string, string>, koala: map<string, string>, key: string)
    requires key in koala
    ensures var value := koala[key];
      (if key in merged then
         if value == merged[key] then merged
         else if key in KoalaPreferredKeys then merged[key := value]
         else merged
       else merged[key := value]) == merged[key := Resolve(merged, koala, key)]
  {
  }

  /** Resolving against the map after a step gives what resolving before it gave. */
  lemma ResolveStable(merged: map<string, string>, koala: map<string, string>, key: string, k: string)
    requires key in koala && k in koala
    ensures Resolve(merged[key := Resolve(merged, koala, key)], koala, k) == Resolve(merged, koala, k)
  {
  }

  /** Visiting `key` first and then `rest` resolves what visiting `[key] + rest` resolves. */
  lemma VisitedStep(merged: map<string, string>, koala: map<string, string>, key: string, rest: seq<string>)
    requires key in koala && forall i | 0 <= i < |rest| :: rest[i] in koala
    ensures Visited(merged[key := Resolve(merged, koala, key)], koala, rest) == Visited(merged, koala, [key] + rest)
  {
    var keys := [key] + rest;
    var lhs := Visited(merged[key := Resolve(merged, koala, key)], koala, rest);
    var rhs := Visited(merged, koala, keys);
    assert forall x :: x in keys <==> x == key || x in rest;
    assert lhs.Keys == rhs.Keys;
    forall x | x in lhs.Keys
      ensures lhs[x] == rhs[x]
    {
      if x in rest {
        ResolveStable(merged, koala, key, x);
      }
    }
  }

  /** The loop resolves every key it visits and leaves the others alone. */
  lemma {:induction false} MergeLoopVisits(merged: map<string, string>, koala: map<string, string>, keys: seq<string>)
    requires forall i | 0 <= i < |keys| :: keys[i] in koala
    ensures MergeLoop(merged, koala, keys) == Visited(merged, koala, keys)
    decreases |keys|
  {
    if keys == [] {
      assert Visited(merged, koala, keys) == merged;
    } else {
      var key := keys[0];
      var rest := keys[1..];
      StepResolves(merged, koala, key);
      MergeLoopVisits(merged[key := Resolve(merged, koala, key)], koala, rest);
      VisitedStep(merged, koala, key, rest);
      assert keys == [key] + rest;
    }
  }

  /** Whatever order the KOMORAN entities are visited in, the loop computes the
      merge: Rasa's entities with the conflicts resolved per key type. */
  lemma MergeLoopIsMerge(rasa: map<string, string>, koala: map<string, string>, keys: seq<string>)
    requires forall i | 0 <= i < |keys| :: keys[i] in koala
    requires forall k | k in koala :: k in keys
    ensures MergeLoop(rasa, koala, keys) == MergeEntities(rasa, koala)
  {
    MergeLoopVisits(rasa, koala, keys);
  }

  // ---------------------------------------------------------------------------
  // analyze

  /** The fused result of two analyses of `message`: the verdict of
      `determineIntent` and the merged entities, both maps read as empty when null. */
  function Fuse(message: string, rasa: AnalysisResult, koala: AnalysisResult): (r: AnalysisResult)
    ensures r.originalMessage == Some(message)
    ensures r.intent == DetermineIntent(rasa, koala).intent && r.confidence == DetermineIntent(rasa, koala).confidence
    ensures r.entities == Some(MergeEntities(EntitiesOf(rasa), EntitiesOf(koala)))
  {
    var v := DetermineIntent(rasa, koala);
    AnalysisResult(v.intent, Some(MergeEntities(EntitiesOf(rasa), EntitiesOf(koala))), v.confidence, Some(message))
  }

  /** `analyze(message, userId)`: both analyzers on the same message, then the
      fusion. The inputs of the two analyzers (the Rasa reply, KOMORAN's tokens, the
      city set and the keyword map's order) are parameters. */
  function Analyze(message: string, reply: RasaAnalyzer.RasaReply, tokens: Option<seq<KoalaNLPAnalyzer.Token>>,
                   cities: set<string>, weatherFirst: bool): (r: AnalysisResult)
    ensures r.originalMessage == Some(message)
    ensures var rasa := RasaAnalyzer.Analyze(message, reply);
      var koala := KoalaNLPAnalyzer.Analyze(message, tokens, cities, weatherFirst);
      && r.intent in {rasa.intent, koala.intent}
      && r.entities.Some?
      && r.entities.value.Keys == EntitiesOf(rasa).Keys + EntitiesOf(koala).Keys
      && (forall k | k in EntitiesOf(koala) && k in KoalaPreferredKeys :: r.entities.value[k] == EntitiesOf(koala)[k])
      && (forall k | k in EntitiesOf(rasa) && k !in KoalaPreferredKeys :: r.entities.value[k] == EntitiesOf(rasa)[k])
    ensures (reply.confidence.Some? ==> 0.0 <= reply.confidence.value <= 1.0) ==> 0.0 <= r.confidence <= 1.0
    ensures var rasa := RasaAnalyzer.Analyze(message, reply);
      var koala := KoalaNLPAnalyzer.Analyze(message, tokens, cities, weatherFirst);
      && r.intent == DetermineIntent(rasa, koala).intent
      && r.confidence == DetermineIntent(rasa, koala).confidence
      && r.entities == Some(MergeEntities(EntitiesOf(rasa), EntitiesOf(koala)))
  {
    var rasa := RasaAnalyzer.Analyze(message, reply);
    var koala := KoalaNLPAnalyzer.Analyze(message, tokens, cities, weatherFirst);
    IntentFromOneSide(rasa, koala);
    if reply.confidence.Some? ==> 0.0 <= reply.confidence.value <= 1.0 then
      ConfidenceStaysInUnitInterval(rasa, koala);
      Fuse(message, rasa, koala)
    else
      Fuse(message, rasa, koala)
  }

  /** When both analyzers fail, the hybrid analyzer reports "error" with the
      agreement bonus: confidence 0.1, not 0. */
  lemma BothFailingGivesBoostedError(message: string, cities: set<string>, weatherFirst: bool)
    ensures Analyze(message, RasaAnalyzer.ClientErrorReply, None, cities, weatherFirst).intent == "error"
    ensures Analyze(message, RasaAnalyzer.ClientErrorReply, None, cities, weatherFirst).confidence == 0.1
  {
    RasaAnalyzer.ClientErrorIsErrorAnalysis(message);
  }

  /** A location KOMORAN found wins over a different one from Rasa. */
  lemma KoalaLocationWins(message: string, reply: RasaAnalyzer.RasaReply, tokens: seq<KoalaNLPAnalyzer.Token>,
                          cities: set<string>, weatherFirst: bool)
    requires KoalaNLPAnalyzer.DetermineIntent(tokens, weatherFirst) == "weather"
    ensures var r := Analyze(message, reply, Some(tokens), cities, weatherFirst);
      "location" in r.entities.value && r.entities.value["location"] == KoalaNLPAnalyzer.LocationEntity(tokens, cities)
  {
    var koala := KoalaNLPAnalyzer.Analyze(message, Some(tokens), cities, weatherFirst);
    assert EntitiesOf(koala) == map["location" := KoalaNLPAnalyzer.LocationEntity(tokens, cities)];
  }
}

=== FILE: koala_analyzer.dfy ===
/** The KOMORAN rule analyzer (KoalaNLPAnalyzer): keyword scoring over the
    morphemes of a message, a confidence that grows with the number of matches,
    and the location entity for weather questions. The morphological analysis
    itself is a parameter: the token list KOMORAN produced, or None when it threw. */
module KoalaNLPAnalyzer {
  import opened Wrappers
  import opened Text
  import opened Lasa
  import WeatherService

  /** A KOMORAN token: the morpheme and its part-of-speech tag. */
  datatype Token = Token(morph: string, pos: string)

  const WeatherKeywords: set<string> := {"날씨", "기온", "비", "눈", "맑음", "흐림", "습도", "미세먼지", "예보"}
  const GreetingKeywords: set<string> := {"안녕", "반가워", "안녕하세요", "하이", "헬로"}

  /** `intentKeywords.getOrDefault(intent, Set.of())`. */
  function KeywordsOf(intent: string): set<string> {
    if intent == "weather" then WeatherKeywords
    else if intent == "greeting" then GreetingKeywords
    else {}
  }

  /** Nouns (NN*), verbs (VV*) and adjectives (VA*): the tags that score. */
  predicate IsContentPos(pos: string) {
    StartsWith(pos, "NN") || StartsWith(pos, "VV") || StartsWith(pos, "VA")
  }

  /** A token that adds one to the score of the intent with keywords `kw`. */
  predicate Scores(t: Token, kw: set<string>) {
    IsContentPos(t.pos) && ToLower(t.morph) in kw
  }

  // ---------------------------------------------------------------------------
  // Scoring

  /** The score `determineIntent` accumulates for one intent. */
  function Score(tokens: seq<Token>, kw: set<string>): (n: nat)
    ensures n <= |tokens|
  {
    if tokens == [] then 0
    else (if Scores(tokens[0], kw) then 1 else 0) + Score(tokens[1..], kw)
  }

  /** The count `calcConfidence` uses: matching tokens of any tag. */
  function MatchCount(tokens: seq<Token>, kw: set<string>): (n: nat)
    ensures n <= |tokens|
  {
    if tokens == [] then 0
    else (if ToLower(tokens[0].morph) in kw then 1 else 0) + MatchCount(tokens[1..], kw)
  }

  /** A score is zero exactly when no token scores. */
  lemma {:induction false} ScoreZero(tokens: seq<Token>, kw: set<string>)
    ensures Score(tokens, kw) == 0 <==> forall i | 0 <= i < |tokens| :: !Scores(tokens[i], kw)
  {
    if tokens != [] {
      ScoreZero(tokens[1..], kw);
      assert forall i | 1 <= i < |tokens| :: tokens[i] == tokens[1..][i - 1];
    }
  }

  /** Every scoring token is also counted for the confidence. */
  lemma {:induction false} ScoreAtMostMatchCount(tokens: seq<Token>, kw: set<string>)
    ensures Score(tokens, kw) <= MatchCount(tokens, kw)
  {
    if tokens != [] {
      ScoreAtMostMatchCount(tokens[1..], kw);
    }
  }

  // ---------------------------------------------------------------------------
  // Intent

  /** `determineIntent`: the intent with the highest score among those that scored
      at all, or "fallback" when none did. Only "weather" and "greeting" have
      keywords; `weatherFirst` is the iteration order of the `intentScores` map,
      which decides a tie because `Stream.max` keeps the earlier of two equal entries. */
  function DetermineIntent(tokens: seq<Token>, weatherFirst: bool): (intent: string)
    ensures intent == "weather" || intent == "greeting" || intent == "fallback"
    ensures intent == "fallback" <==> Score(tokens, WeatherKeywords) == 0 && Score(tokens, GreetingKeywords) == 0
    ensures intent == "weather" ==> Score(tokens, WeatherKeywords) > 0 && Score(tokens, WeatherKeywords) >= Score(tokens, GreetingKeywords)
    ensures intent == "greeting" ==> Score(tokens, GreetingKeywords) > 0 && Score(tokens, GreetingKeywords) >= Score(tokens, WeatherKeywords)
  {
    var w := Score(tokens, WeatherKeywords);
    var g := Score(tokens, GreetingKeywords);
    if w == 0 && g == 0 then "fallback"
    else if g == 0 then "weather"
    else if w == 0 then "greeting"
    else if w > g || (w == g && weatherFirst) then "weather"
    else "greeting"
  }

  /** "fallback" exactly when no noun, verb or adjective is a keyword of either intent. */
  lemma FallbackIffNoKeyword(tokens: seq<Token>, weatherFirst: bool)
    ensures DetermineIntent(tokens, weatherFirst) == "fallback"
        <==> forall i | 0 <= i < |tokens| :: !Scores(tokens[i], WeatherKeywords + GreetingKeywords)
  {
    ScoreZero(tokens, WeatherKeywords);
    ScoreZero(tokens, GreetingKeywords);
  }

  /** The iteration order matters only when both intents scored equally. */
  lemma TieBreakOnlyOnTies(tokens: seq<Token>)
    requires Score(tokens, WeatherKeywords) != Score(tokens, GreetingKeywords)
    ensures DetermineIntent(tokens, true) == DetermineIntent(tokens, false)
  {
  }

  // ---------------------------------------------------------------------------
  // Confidence

  /** `calcConfidence`: 0 for "fallback" and "error", otherwise 0.5 plus 0.15 for
      every token whose morpheme is one of the intent's keywords, capped at 1. */
  function CalcConfidence(tokens: seq<Token>, intent: string): (c: real)
    ensures 0.0 <= c <= 1.0
    ensures intent == "fallback" || intent == "error" ==> c == 0.0
  {
    if intent == "fallback" || intent == "error" then 0.0
    else
      var m := MatchCount(tokens, KeywordsOf(intent));
      var raw := 0.5 + 0.15 * (m as real);
      if raw < 1.0 then raw else 1.0
  }

  /** More matches never lower the confidence, and four matches reach the cap. */
  lemma ConfidenceGrowsWithMatches(tokens: seq<Token>, more: seq<Token>, intent: string)
    requires intent != "fallback" && intent != "error"
    requires MatchCount(tokens, KeywordsOf(intent)) <= MatchCount(more, KeywordsOf(intent))
    ensures CalcConfidence(tokens, intent) <= CalcConfidence(more, intent)
    ensures MatchCount(more, KeywordsOf(intent)) >= 4 ==> CalcConfidence(more, intent) == 1.0
  {
  }

  /** A determined intent always has at least one counted token, so its
      confidence is at least 0.65. */
  lemma IntentConfidenceBounds(tokens: seq<Token>, weatherFirst: bool)
    requires DetermineIntent(tokens, weatherFirst) != "fallback"
    ensures 0.65 <= CalcConfidence(tokens, DetermineIntent(tokens, weatherFirst)) <= 1.0
  {
    var intent := DetermineIntent(tokens, weatherFirst);
    ScoreAtMostMatchCount(tokens, KeywordsOf(intent));
  }

  // ---------------------------------------------------------------------------
  // Locations

  /** The analyzer's city set: the weather service's cities, plus "제주도" when
      "제주" is one of them (`initDictionaries` adds it to the same set). */
  function AnalyzerCities(base: set<string>): (cities: set<string>)
    ensures base <= cities && cities - base <= {"제주도"}
    ensures "제주도" in cities <==> "제주도" in base || "제주" in base
  {
    if "제주" in base then base + {"제주도"} else base
  }

  /** `isLocationName`: a city, or "제주도" when "제주" is a city. */
  predicate IsLocationName(cities: set<string>, text: string) {
    text in cities || (text == "제주도" && "제주" in cities)
  }

  /** With the analyzer's own city set the 제주도 special case adds nothing, and a
      name is a location exactly when it is a service city or the 제주 alias. */
  lemma LocationNameOfAnalyzerCities(base: set<string>, text: string)
    ensures IsLocationName(AnalyzerCities(base), text) <==> text in AnalyzerCities(base)
    ensures IsLocationName(AnalyzerCities(base), text) <==> text in base || (text == "제주도" && "제주" in base)
  {
  }

  /** The proper-noun (NNP) morphemes that are location names, in token order. */
  function Locations(tokens: seq<Token>, cities: set<string>): (locs: seq<string>)
    ensures |locs| <= |tokens|
    ensures forall i | 0 <= i < |locs| :: IsLocationName(cities, locs[i]) && Token(locs[i], "NNP") in tokens
    ensures forall i | 0 <= i < |tokens| && tokens[i].pos == "NNP" && IsLocationName(cities, tokens[i].morph) ::
      tokens[i].morph in locs
  {
    if tokens == [] then []
    else
      var t := tokens[0];
      var rest := Locations(tokens[1..], cities);
      assert forall i | 1 <= i < |tokens| :: tokens[i] == tokens[1..][i - 1];
      (if t.pos == "NNP" && IsLocationName(cities, t.morph) then [t.morph] else []) + rest
  }

  /** The locations of two token runs are those of the first, then those of the
      second: the list keeps token order. */
  lemma {:induction false} LocationsAppend(a: seq<Token>, b: seq<Token>, cities: set<string>)
    ensures Locations(a + b, cities) == Locations(a, cities) + Locations(b, cities)
    decreases |a|
  {
    if a == [] {
      assert a + b == b;
    } else {
      assert (a + b)[0] == a[0];
      assert (a + b)[1..] == a[1..] + b;
      LocationsAppend(a[1..], b, cities);
    }
  }

  /** The `location` entity: the locations joined with commas, or "서울". */
  function LocationEntity(tokens: seq<Token>, cities: set<string>): string {
    var locs := Locations(tokens, cities);
    if locs == [] then WeatherService.Seoul else Join(locs, ",")
  }

  /** When no city name holds a comma, splitting the entity on commas gives the
      location list back. */
  lemma LocationEntitySplits(tokens: seq<Token>, cities: set<string>)
    requires forall c | c in cities :: ',' !in c
    requires Locations(tokens, cities) != []
    ensures Split(LocationEntity(tokens, cities), ',') == Locations(tokens, cities)
  {
    var locs := Locations(tokens, cities);
    assert forall i | 0 <= i < |locs| :: ',' !in locs[i] by {
      forall i | 0 <= i < |locs|
        ensures ',' !in locs[i]
      {
        assert IsLocationName(cities, locs[i]);
      }
    }
    SplitJoin(locs, ',');
  }

  /** No city of the weather service holds a comma. */
  lemma ServiceCitiesHaveNoComma()
    ensures forall c | c in AnalyzerCities(WeatherService.InitialCoordinates.Keys) :: ',' !in c
  {
  }

  // ---------------------------------------------------------------------------
  // analyze

  /** `analyze(message, userId)`: the determined intent with its confidence, and
      for "weather" the `location` entity. `tokens` is KOMORAN's analysis, None
      when it threw; the catch block answers the error result. */
  function Analyze(message: string, tokens: Option<seq<Token>>, cities: set<string>, weatherFirst: bool): (r: AnalysisResult)
    ensures r.originalMessage == Some(message)
    ensures tokens.None? ==> r == ErrorAnalysis(message)
    ensures r.intent in {"weather", "greeting", "fallback", "error"}
    ensures r.intent == "error" <==> tokens.None?
    ensures r.intent == "fallback" || r.intent == "error" ==> r.confidence == 0.0
    ensures r.intent == "weather" || r.intent == "greeting" ==> 0.65 <= r.confidence <= 1.0
    ensures r.intent != "weather" ==> r.entities == Some(map[])
    ensures r.intent == "weather" ==> r.entities == Some(map["location" := LocationEntity(tokens.value, cities)])
  {
    match tokens
    case None => ErrorAnalysis(message)
    case Some(ts) =>
      var intent := DetermineIntent(ts, weatherFirst);
      var confidence := CalcConfidence(ts, intent);
      assert intent != "fallback" ==> 0.65 <= confidence by {
        if intent != "fallback" {
          IntentConfidenceBounds(ts, weatherFirst);
        }
      }
      var result := NewAnalysis(intent, confidence, Some(message));
      if intent == "weather" then
        var r := AddEntity(result, "location", LocationEntity(ts, cities));
        assert r.entities.value == map["location" := LocationEntity(ts, cities)];
        r
      else result
  }

  /** On a successful analysis the intent is "fallback" exactly when no noun, verb
      or adjective of the message is a keyword. */
  lemma AnalyzeFallback(message: string, tokens: seq<Token>, cities: set<string>, weatherFirst: bool)
    ensures Analyze(message, Some(tokens), cities, weatherFirst).intent == "fallback"
        <==> forall i | 0 <= i < |tokens| :: !Scores(tokens[i], WeatherKeywords + GreetingKeywords)
  {
    FallbackIffNoKeyword(tokens, weatherFirst);
  }
}

=== FILE: lasa.dfy ===
/** The records handed between the Listen, Analyze, Solve and Answer stages:
    AnalysisResult, SolutionResult and the ChatRequest/ChatResponse transfer objects.
    Java fields that the code tests for `null` are `Option`s. */
module Lasa {
  import opened Wrappers
  import opened Text

  /** What the Java code stores in a `Map<String, Object>`: Strings and one Integer. */
  datatype Value = Str(s: string) | Int(i: int)

  /** `String.valueOf(Object)` for the values above. */
  function ValueToString(v: Value): string {
    match v
    case Str(s) => s
    case Int(i) => IntToString(i)
  }

  // ---------------------------------------------------------------------------
  // AnalysisResult

  datatype AnalysisResult = AnalysisResult(
    intent: string,
    entities: Option<map<string, string>>,
    confidence: real,
    originalMessage: Option<string>)

  /** The entity map, reading a null map as empty. */
  function EntitiesOf(a: AnalysisResult): map<string, string> {
    a.entities.GetOr(map[])
  }

  /** `AnalysisResult.builder().intent(..).confidence(..).originalMessage(..).build()`:
      the entity map takes its declared default, a fresh empty map. */
  function NewAnalysis(intent: string, confidence: real, message: Option<string>): (a: AnalysisResult)
    ensures a.entities == Some(map[])
    ensures a.intent == intent && a.confidence == confidence && a.originalMessage == message
  {
    AnalysisResult(intent, Some(map[]), confidence, message)
  }

  /** The result every analyzer returns from its catch block. */
  function ErrorAnalysis(message: string): (a: AnalysisResult) {
    NewAnalysis("error", 0.0, Some(message))
  }

  /** `addEntity(name, value)`: creates the map if it is null, then puts the pair. */
  function AddEntity(a: AnalysisResult, name: string, value: string): (a': AnalysisResult)
    ensures a'.entities.Some? && name in a'.entities.value && a'.entities.value[name] == value
    ensures forall k | k != name :: k in a'.entities.value <==> k in EntitiesOf(a)
    ensures forall k | k != name && k in EntitiesOf(a) :: a'.entities.value[k] == EntitiesOf(a)[k]
    ensures a'.intent == a.intent && a'.confidence == a.confidence
    ensures a'.originalMessage == a.originalMessage
  {
    a.(entities := Some(EntitiesOf(a)[name := value]))
  }

  /** A second `addEntity` under the same name replaces the first. */
  lemma AddEntityOverwrites(a: AnalysisResult, name: string, v1: string, v2: string)
    ensures AddEntity(AddEntity(a, name, v1), name, v2) == AddEntity(a, name, v2)
  {
    var m := EntitiesOf(a);
    assert EntitiesOf(AddEntity(a, name, v1)) == m[name := v1];
    assert m[name := v1][name := v2] == m[name := v2];
  }

  /** `addEntity` calls under different names commute. */
  lemma AddEntityCommutes(a: AnalysisResult, n1: string, v1: string, n2: string, v2: string)
    requires n1 != n2
    ensures AddEntity(AddEntity(a, n1, v1), n2, v2) == AddEntity(AddEntity(a, n2, v2), n1, v1)
  {
    var m := EntitiesOf(a);
    assert EntitiesOf(AddEntity(a, n1, v1)) == m[n1 := v1];
    assert EntitiesOf(AddEntity(a, n2, v2)) == m[n2 := v2];
    assert m[n1 := v1][n2 := v2] == m[n2 := v2][n1 := v1];
  }

  // ---------------------------------------------------------------------------
  // SolutionResult

  datatype SolutionResult = SolutionResult(
    status: Option<string>,
    data: Option<map<string, Value>>,
    responseTemplate: Option<string>,
    originalIntent: Option<string>)

  function DataOf(s: SolutionResult): map<string, Value> {
    s.data.GetOr(map[])
  }

  /** `SolutionResult.builder().status(..).originalIntent(..).responseTemplate(..).build()`
      with the data map at its declared default, a fresh empty map. */
  function NewSolution(status: string, intent: string, template: string): (s: SolutionResult)
    ensures s.data == Some(map[])
  {
    SolutionResult(Some(status), Some(map[]), Some(template), Some(intent))
  }

  /** `isSuccess()`: `"success".equals(status)`, so a null status is not a success. */
  predicate IsSuccess(s: SolutionResult) {
    s.status == Some("success")
  }

  /** `addData(key, value)`: creates the map if it is null, then puts the pair. */
  function AddData(s: SolutionResult, key: string, value: Value): (s': SolutionResult)
    ensures s'.data.Some? && key in s'.data.value && s'.data.value[key] == value
    ensures forall k | k != key :: k in s'.data.value <==> k in DataOf(s)
    ensures forall k | k != key && k in DataOf(s) :: s'.data.value[k] == DataOf(s)[k]
    ensures s'.status == s.status && s'.responseTemplate == s.responseTemplate
    ensures s'.originalIntent == s.originalIntent
    ensures IsSuccess(s') == IsSuccess(s)
  {
    s.(data := Some(DataOf(s)[key := value]))
  }

  /** A second `addData` under the same key replaces the first. */
  lemma AddDataOverwrites(s: SolutionResult, key: string, v1: Value, v2: Value)
    ensures AddData(AddData(s, key, v1), key, v2) == AddData(s, key, v2)
  {
    var m := DataOf(s);
    assert DataOf(AddData(s, key, v1)) == m[key := v1];
    assert m[key := v1][key := v2] == m[key := v2];
  }

  /** `addData` calls under different keys commute, so a chain of them builds
      the same map whatever order it is written in. */
  lemma AddDataCommutes(s: SolutionResult, k1: string, v1: Value, k2: string, v2: Value)
    requires k1 != k2
    ensures AddData(AddData(s, k1, v1), k2, v2) == AddData(AddData(s, k2, v2), k1, v1)
  {
    var m := DataOf(s);
    assert DataOf(AddData(s, k1, v1)) == m[k1 := v1];
    assert DataOf(AddData(s, k2, v2)) == m[k2 := v2];
    assert m[k1 := v1][k2 := v2] == m[k2 := v2][k1 := v1];
  }

  // ---------------------------------------------------------------------------
  // Transfer objects

  datatype ChatRequest = ChatRequest(
    message: Option<string>,
    userId: Option<string>,
    sessionId: Option<string>)

  /** `entities` carries the solver's data map; `timestamp` is the caller's clock. */
  datatype ChatResponse = ChatResponse(
    message: string,
    intent: Option<string>,
    entities: Option<map<string, Value>>,
    timestamp: int,
    confidence: real)
}

=== FILE: rasa_analyzer.dfy ===
/** The Rasa analyzer (RasaAnalyzer): copies the intent and confidence of the
    Rasa NLU reply, keeps the entities with a usable value, and runs a keyword
    backstop for the location. The HTTP exchange with the Rasa server is a
    parameter: the reply the client service handed back. */
module RasaAnalyzer {
  import opened Wrappers
  import opened Text
  import opened Lasa

  /** The map `RasaClientService.parseMessage` returns: the intent name, the
      confidence (None when the entry is missing, which makes the unboxing cast
      throw), and the entity map (None when missing; a value None is a Java null). */
  datatype RasaReply = RasaReply(
    intent: string,
    confidence: Option<real>,
    entities: Option<map<string, Option<string>>>)

  /** The reply the client service builds from its own catch block. */
  const ClientErrorReply: RasaReply := RasaReply("error", Some(0.0), Some(map[]))

  /** The backstop's city and province keywords, in the order they are tried. */
  const LocationKeywords: seq<string> := [
    "서울", "부산", "인천", "대구", "광주", "대전", "울산", "세종",
    "경기", "강원", "충북", "충남", "전북", "전남", "경북", "경남", "제주",
    "수원", "성남", "안양", "안산", "고양", "용인", "청주", "천안", "전주", "포항", "창원"
  ]

  /** The keywords as the backstop compares them, lower-cased. */
  function LowerKeywords(): (ks: seq<string>)
    ensures |ks| == |LocationKeywords|
    ensures forall i | 0 <= i < |ks| :: ks[i] == ToLower(LocationKeywords[i])
  {
    seq(|LocationKeywords|, i requires 0 <= i < |LocationKeywords| => ToLower(LocationKeywords[i]))
  }

  // ---------------------------------------------------------------------------
  // Entity filtering

  /** An entity survives when its value is not null and not blank. */
  predicate Usable(value: Option<string>) {
    value.Some? && !IsBlank(value.value)
  }

  /** The entities `analyze` adds, by key: the usable ones, with trimmed values. */
  function KeptEntities(raw: map<string, Option<string>>): (m: map<string, string>)
    ensures forall k :: k in m <==> k in raw && Usable(raw[k])
    ensures forall k | k in m :: k in raw && Usable(raw[k]) && m[k] == Trim(raw[k].value) && m[k] != []
  {
    map k | k in raw && Usable(raw[k]) :: Trim(raw[k].value)
  }

  /** The `entities.forEach(..)` loop over the keys in iteration order `keys`: one
      `addEntity` per usable value. */
  function AddUsable(a: AnalysisResult, raw: map<string, Option<string>>, keys: seq<string>): AnalysisResult
    requires forall i | 0 <= i < |keys| :: keys[i] in raw
    decreases |keys|
  {
    if keys == [] then a
    else
      var k := keys[0];
      var a' := if Usable(raw[k]) then AddEntity(a, k, Trim(raw[k].value)) else a;
      AddUsable(a', raw, keys[1..])
  }

  /** The entities the loop has added after visiting `keys`. */
  function KeptAmong(raw: map<string, Option<string>>, keys: seq<string>): map<string, string> {
    map k | k in raw && k in keys && Usable(raw[k]) :: Trim(raw[k].value)
  }

  lemma KeptAmongCons(raw: map<string, Option<string>>, keys: seq<string>)
    requires keys != [] && keys[0] in raw
    ensures Usable(raw[keys[0]]) ==>
      KeptAmong(raw, keys) == KeptAmong(raw, keys[1..])[keys[0] := Trim(raw[keys[0]].value)]
    ensures !Usable(raw[keys[0]]) ==> KeptAmong(raw, keys) == KeptAmong(raw, keys[1..])
  {
    assert forall x :: x in keys <==> x == keys[0] || x in keys[1..];
  }

  lemma UpdateThenMerge(e: map<string, string>, kr: map<string, string>, k: string, v: string)
    requires k in kr ==> kr[k] == v
    ensures e[k := v] + kr == e + kr[k := v]
  {
  }

  /** The loop adds exactly the usable entities it visits, on top of what the
      result held, and changes no other field. */
  lemma {:induction false} AddUsableAdds(a: AnalysisResult, raw: map<string, Option<string>>, keys: seq<string>)
    requires a.entities.Some?
    requires forall i | 0 <= i < |keys| :: keys[i] in raw
    ensures AddUsable(a, raw, keys) == a.(entities := Some(EntitiesOf(a) + KeptAmong(raw, keys)))
    decreases |keys|
  {
    var e := EntitiesOf(a);
    if keys == [] {
      assert KeptAmong(raw, keys) == map[];
      assert e + map[] == e;
    } else {
      var k := keys[0];
      var rest := keys[1..];
      KeptAmongCons(raw, keys);
      var kr := KeptAmong(raw, rest);
      if Usable(raw[k]) {
        var v := Trim(raw[k].value);
        var a' := AddEntity(a, k, v);
        assert AddUsable(a, raw, keys) == AddUsable(a', raw, rest);
        AddUsableAdds(a', raw, rest);
        assert EntitiesOf(a') == e[k := v];
        UpdateThenMerge(e, kr, k, v);
        assert a'.(entities := Some(e[k := v] + kr)) == a.(entities := Some(e + kr[k := v]));
      } else {
        assert AddUsable(a, raw, keys) == AddUsable(a, raw, rest);
        AddUsableAdds(a, raw, rest);
      }
    }
  }

  /** Whatever order the entity map is iterated in, the loop yields the usable
      entities with trimmed values. */
  lemma ForEachOrderIrrelevant(a: AnalysisResult, raw: map<string, Option<string>>, keys: seq<string>)
    requires a.entities == Some(map[])
    requires forall i | 0 <= i < |keys| :: keys[i] in raw
    requires forall k | k in raw :: k in keys
    ensures AddUsable(a, raw, keys) == a.(entities := Some(KeptEntities(raw)))
  {
    AddUsableAdds(a, raw, keys);
    assert KeptAmong(raw, keys) == KeptEntities(raw);
    assert map[] + KeptEntities(raw) == KeptEntities(raw);
  }

  // ---------------------------------------------------------------------------
  // Location backstop

  /** The backstop condition as written: `!hasLocation && weather || temperature`,
      where `&&` binds tighter, so a temperature intent always qualifies. */
  predicate BackstopApplies(intent: string, hasLocation: bool) {
    (!hasLocation && intent == "weather") || intent == "temperature"
  }

  /** No keyword is empty, so a backstop location is never blank. */
  lemma KeywordsNonEmpty()
    ensures forall i | 0 <= i < |LocationKeywords| :: LocationKeywords[i] != []
  {
  }

  /** The first keyword, in list order, that the lower-cased message contains. */
  function BackstopKeyword(message: string): (r: Option<string>)
    ensures r.Some? ==> r.value in LocationKeywords && r.value != []
  {
    KeywordsNonEmpty();
    match FirstContained(LowerKeywords(), ToLower(message))
    case None => None
    case Some(i) => Some(LocationKeywords[i])
  }

  /** The backstop finds the earliest listed keyword the message mentions, and
      finds nothing only when the message mentions none. */
  lemma BackstopKeywordFirst(message: string)
    ensures BackstopKeyword(message).None? <==>
      forall i | 0 <= i < |LocationKeywords| :: !Contains(ToLower(message), ToLower(LocationKeywords[i]))
    ensures BackstopKeyword(message).Some? ==> exists i | 0 <= i < |LocationKeywords| ::
      && LocationKeywords[i] == BackstopKeyword(message).value
      && Contains(ToLower(message), ToLower(LocationKeywords[i]))
      && forall j | 0 <= j < i :: !Contains(ToLower(message), ToLower(LocationKeywords[j]))
  {
    var ks := LowerKeywords();
    var r := FirstContained(ks, ToLower(message));
    if r.Some? {
      var i := r.value;
      assert LocationKeywords[i] == BackstopKeyword(message).value;
      assert forall j | 0 <= j < i :: ks[j] == ToLower(LocationKeywords[j]);
    }
  }

  /** The keyword loop of the backstop: the first keyword the message mentions
      becomes the location; when none is mentioned nothing changes. */
  function Backstop(a: AnalysisResult, message: string): (r: AnalysisResult)
    ensures BackstopKeyword(message).None? ==> r == a
    ensures BackstopKeyword(message).Some? ==>
      r.entities.Some? && "location" in r.entities.value && r.entities.value["location"] == BackstopKeyword(message).value
    ensures forall k | k != "location" :: k in EntitiesOf(r) <==> k in EntitiesOf(a)
    ensures forall k | k != "location" && k in EntitiesOf(a) :: EntitiesOf(r)[k] == EntitiesOf(a)[k]
    ensures r.intent == a.intent && r.confidence == a.confidence && r.originalMessage == a.originalMessage
  {
    match BackstopKeyword(message)
    case None => a
    case Some(loc) => AddEntity(a, "location", loc)
  }

  /** `result` after the entity loop and, when it applies, the backstop. */
  function WithEntities(result: AnalysisResult, message: string, raw: map<string, Option<string>>): (r: AnalysisResult)
    requires result.entities == Some(map[])
    ensures r.intent == result.intent && r.confidence == result.confidence
    ensures r.originalMessage == result.originalMessage && r.entities.Some?
    ensures forall k | k != "location" :: k in r.entities.value <==> k in KeptEntities(raw)
    ensures forall k | k in r.entities.value && k in KeptEntities(raw) && k != "location" ::
      r.entities.value[k] == KeptEntities(raw)[k]
    ensures forall k | k in r.entities.value :: r.entities.value[k] != []
    ensures "location" in r.entities.value && "location" !in KeptEntities(raw) ==>
      r.entities.value["location"] in LocationKeywords
    ensures !BackstopApplies(result.intent, "location" in KeptEntities(raw)) ==> r.entities == Some(KeptEntities(raw))
    ensures BackstopApplies(result.intent, "location" in KeptEntities(raw)) && BackstopKeyword(message).None? ==>
      r.entities == Some(KeptEntities(raw))
    ensures BackstopApplies(result.intent, "location" in KeptEntities(raw)) && BackstopKeyword(message).Some? ==>
      "location" in r.entities.value && r.entities.value["location"] == BackstopKeyword(message).value
  {
    var kept := KeptEntities(raw);
    var withKept := result.(entities := Some(kept));
    if BackstopApplies(result.intent, "location" in kept) then Backstop(withKept, message) else withKept
  }

  // ---------------------------------------------------------------------------
  // analyze

  /** `analyze(message, userId)`: the reply's intent and confidence with the
      message; entity handling only when the reply's entity map is present and
      not empty; the error result when the confidence is missing. */
  function Analyze(message: string, reply: RasaReply): (r: AnalysisResult)
    ensures r.originalMessage == Some(message)
    ensures reply.confidence.None? ==> r == ErrorAnalysis(message)
    ensures reply.confidence.Some? ==> r.intent == reply.intent && r.confidence == reply.confidence.value
    ensures r.entities.Some?
    ensures reply.entities.None? || reply.entities == Some(map[]) ==> r.entities == Some(map[])
    ensures forall k | k in r.entities.value :: r.entities.value[k] != []
    ensures forall k | k != "location" ::
      k in r.entities.value <==> reply.confidence.Some? && reply.entities.Some? && k in KeptEntities(reply.entities.value)
    ensures forall k | k != "location" && k in r.entities.value ::
      && reply.entities.Some? && k in reply.entities.value && reply.entities.value[k].Some?
      && r.entities.value[k] == Trim(reply.entities.value[k].value)
  {
    match reply.confidence
    case None => ErrorAnalysis(message)
    case Some(confidence) =>
      var result := NewAnalysis(reply.intent, confidence, Some(message));
      match reply.entities
      case None => result
      case Some(raw) =>
        if raw == map[] then
          assert KeptEntities(raw) == map[];
          result
        else WithEntities(result, message, raw)
  }

  /** With a confidence and a non-empty entity map, `analyze` is the entity loop
      and the backstop applied to the plain result. */
  lemma AnalyzeUnfolds(message: string, reply: RasaReply)
    requires reply.confidence.Some? && reply.entities.Some? && reply.entities.value != map[]
    ensures Analyze(message, reply)
         == WithEntities(NewAnalysis(reply.intent, reply.confidence.value, Some(message)), message, reply.entities.value)
  {
  }

  /** A `location` the reply did not carry comes from the keyword list. */
  lemma BackstopLocationIsKeyword(message: string, reply: RasaReply)
    requires "location" in EntitiesOf(Analyze(message, reply))
    requires reply.entities.Some? ==> "location" !in KeptEntities(reply.entities.value)
    ensures EntitiesOf(Analyze(message, reply))["location"] in LocationKeywords
  {
  }

  /** A weather reply without entities gets no location: the backstop is skipped
      together with the entity loop. */
  lemma EmptyEntitiesSkipBackstop(message: string, intent: string, confidence: real)
    ensures "location" !in EntitiesOf(Analyze(message, RasaReply(intent, Some(confidence), Some(map[]))))
  {
  }

  /** With entities present, a temperature reply always takes its location from
      the message when a keyword is found, replacing the one Rasa extracted. */
  lemma TemperatureOverridesLocation(message: string, confidence: real, raw: map<string, Option<string>>)
    requires raw != map[] && BackstopKeyword(message).Some?
    ensures EntitiesOf(Analyze(message, RasaReply("temperature", Some(confidence), Some(raw))))["location"]
         == BackstopKeyword(message).value
  {
  }

  /** A weather reply whose entities hold a location keeps exactly the usable
      entities: the backstop does not run. */
  lemma WeatherKeepsExtractedLocation(message: string, confidence: real, raw: map<string, Option<string>>)
    requires "location" in KeptEntities(raw)
    ensures Analyze(message, RasaReply("weather", Some(confidence), Some(raw))).entities
         == Some(KeptEntities(raw))
  {
    assert raw != map[] by {
      assert "location" in raw;
    }
    var result := NewAnalysis("weather", confidence, Some(message));
    assert result.intent == "weather";
    assert !BackstopApplies(result.intent, "location" in KeptEntities(raw));
    var r := WithEntities(result, message, raw);
    assert r.entities == Some(KeptEntities(raw));
    AnalyzeUnfolds(message, RasaReply("weather", Some(confidence), Some(raw)));
  }

  /** A failed exchange with the Rasa server and a failure inside the analyzer
      give the same result. */
  lemma ClientErrorIsErrorAnalysis(message: string)
    ensures Analyze(message, ClientErrorReply) == ErrorAnalysis(message)
  {
  }
}

=== FILE: simple_analyzer.dfy ===
/** The regular-expression analyzer (SimpleAnalyzer). Its four intent patterns
    are an alternation of words, or an alternation of words followed later on the
    same line by a second alternation; they are modelled as those substring tests.
    The patterns are compiled case-insensitively without Unicode case folding, so
    matching the ASCII-lowercased message against lowercase words is exact. */
module SimpleAnalyzer {
  import opened Wrappers
  import opened Text
  import opened Lasa

  /** An intent pattern: `(w1|w2|…)`, or `(f1|f2|…).*(s1|s2|…)`. */
  datatype Pattern =
    | AnyOf(words: seq<string>)
    | Then(firsts: seq<string>, seconds: seq<string>)

  /** The `intentPatterns` table. */
  const IntentPatterns: map<string, Pattern> := map[
    "greeting" := AnyOf(["안녕", "반가워", "헬로", "하이", "hi", "hello"]),
    "weather" := Then(["날씨"], ["어때", "어떤가", "어떄", "알려", "궁금", "조회", "확인"]),
    "time_query" := Then(["시간", "몇시"], ["알려", "궁금", "지금", "현재"]),
    "help" := Then(["도움", "도와", "명령어", "기능", "할수있", "할 수 있", "가능한"], ["뭐", "무엇", "알려", "뭘", "모두", "전부"])
  ]

  const Cities: seq<string> := ["서울", "부산", "대구", "인천", "광주", "대전", "울산", "제주"]
  const TimePeriods: seq<string> := ["오전", "오후", "저녁", "아침"]

  /** The characters `.` does not match: the line terminators. */
  predicate IsLineTerminator(c: char) {
    c == '\n' || c == '\r' || c == '\U{0085}' || c == '\U{2028}' || c == '\U{2029}'
  }

  predicate OnOneLine(s: string) {
    forall i | 0 <= i < |s| :: !IsLineTerminator(s[i])
  }

  /** `pattern.matcher(message).find()`. */
  predicate Matches(p: Pattern, message: string) {
    var t := ToLower(message);
    match p
    case AnyOf(ws) => exists k | 0 <= k < |ws| :: Contains(t, ws[k])
    case Then(fs, ss) =>
      exists i, j, a, b | 0 <= i <= j <= |t| && 0 <= a < |fs| && 0 <= b < |ss| ::
        OccursAt(t, fs[a], i) && i + |fs[a]| <= j && OccursAt(t, ss[b], j) && OnOneLine(t[i + |fs[a]|..j])
  }

  /** The patterns, visited in the table's iteration order `order`. */
  predicate EnumeratesPatterns(order: seq<string>) {
    (forall k | 0 <= k < |order| :: order[k] in IntentPatterns) && (forall n | n in IntentPatterns :: n in order)
  }

  /** The index of the first true entry. */
  function FirstTrue(bs: seq<bool>): (r: Option<nat>)
    ensures r.Some? ==> r.value < |bs| && bs[r.value] && forall j | 0 <= j < r.value :: !bs[j]
    ensures r.None? <==> forall k | 0 <= k < |bs| :: !bs[k]
  {
    if bs == [] then None
    else if bs[0] then Some(0)
    else match FirstTrue(bs[1..])
      case None => None
      case Some(i) => Some(i + 1)
  }

  /** The loop of `analyze`: the first intent in `order` whose pattern finds a match. */
  function FirstMatch(order: seq<string>, message: string): (r: Option<string>)
    requires forall k | 0 <= k < |order| :: order[k] in IntentPatterns
    ensures r.Some? ==> r.value in order && Matches(IntentPatterns[r.value], message)
    ensures r.None? <==> forall k | 0 <= k < |order| :: !Matches(IntentPatterns[order[k]], message)
    ensures r.Some? ==> exists i | 0 <= i < |order| ::
      && order[i] == r.value
      && forall j | 0 <= j < i :: !Matches(IntentPatterns[order[j]], message)
  {
    var hits := seq(|order|, k requires 0 <= k < |order| => Matches(IntentPatterns[order[k]], message));
    assert forall k | 0 <= k < |order| :: hits[k] == Matches(IntentPatterns[order[k]], message);
    match FirstTrue(hits)
    case None => None
    case Some(i) =>
      assert forall j | 0 <= j < i :: !hits[j];
      Some(order[i])
  }

  // ---------------------------------------------------------------------------
  // Entities

  /** A regular-expression hit: the alternative that matched and where. */
  datatype Hit = Hit(word: string, at: nat)

  /** The first alternative of `ws` that matches at position `p`. */
  function AlternativeAt(s: string, ws: seq<string>, p: nat): (r: Option<string>)
    ensures r.Some? ==> r.value in ws && OccursAt(s, r.value, p)
    ensures r.None? <==> forall k | 0 <= k < |ws| :: !OccursAt(s, ws[k], p)
  {
    if ws == [] then None
    else if OccursAt(s, ws[0], p) then Some(ws[0])
    else
      var r := AlternativeAt(s, ws[1..], p);
      assert forall k | 1 <= k < |ws| :: ws[k] == ws[1..][k - 1];
      r
  }

  /** `Pattern.compile("(w1|w2|…)").matcher(s).find()` from position `p`: the
      leftmost position where some alternative matches. */
  function LeftmostFrom(s: string, ws: seq<string>, p: nat): (r: Option<Hit>)
    ensures r.Some? ==> r.value.word in ws && p <= r.value.at && OccursAt(s, r.value.word, r.value.at)
    ensures r.Some? ==> forall q, k | p <= q < r.value.at && 0 <= k < |ws| :: !OccursAt(s, ws[k], q)
    ensures r.None? ==> forall q, k | p <= q && 0 <= k < |ws| :: !OccursAt(s, ws[k], q)
    decreases |s| + 1 - p
  {
    if p > |s| then None
    else match AlternativeAt(s, ws, p)
      case Some(w) => Some(Hit(w, p))
      case None => LeftmostFrom(s, ws, p + 1)
  }

  function Leftmost(s: string, ws: seq<string>): Option<Hit> {
    LeftmostFrom(s, ws, 0)
  }

  /** The leftmost search finds nothing exactly when no alternative occurs. */
  lemma LeftmostNoneIffAbsent(s: string, ws: seq<string>)
    ensures Leftmost(s, ws).None? <==> forall k | 0 <= k < |ws| :: !Contains(s, ws[k])
  {
    if Leftmost(s, ws).Some? {
      var h := Leftmost(s, ws).value;
      var k :| 0 <= k < |ws| && ws[k] == h.word;
      assert OccursAt(s, ws[k], h.at);
    }
  }

  /** `extractEntities`: for "weather" the leftmost city, for "time_query" the
      leftmost part of the day, nothing otherwise. */
  function ExtractEntities(message: string, intent: string): (m: map<string, string>)
    ensures intent != "weather" && intent != "time_query" ==> m == map[]
    ensures intent == "weather" ==> m.Keys <= {"location"}
    ensures intent == "weather" && "location" in m ==> m["location"] in Cities && Contains(message, m["location"])
    ensures intent == "weather" && "location" in m ==> exists p ::
      && OccursAt(message, m["location"], p)
      && forall q, k | 0 <= q < p && 0 <= k < |Cities| :: !OccursAt(message, Cities[k], q)
    ensures intent == "time_query" ==> m.Keys <= {"time_period"}
    ensures intent == "time_query" && "time_period" in m ==> m["time_period"] in TimePeriods && Contains(message, m["time_period"])
    ensures intent == "time_query" && "time_period" in m ==> exists p ::
      && OccursAt(message, m["time_period"], p)
      && forall q, k | 0 <= q < p && 0 <= k < |TimePeriods| :: !OccursAt(message, TimePeriods[k], q)
  {
    if intent == "weather" then
      match Leftmost(message, Cities)
      case Some(h) => map["location" := h.word]
      case None => map[]
    else if intent == "time_query" then
      match Leftmost(message, TimePeriods)
      case Some(h) => map["time_period" := h.word]
      case None => map[]
    else map[]
  }

  /** A weather message gets a location exactly when it names one of the cities. */
  lemma WeatherLocationIffCity(message: string)
    ensures "location" in ExtractEntities(message, "weather")
        <==> exists k | 0 <= k < |Cities| :: Contains(message, Cities[k])
  {
    LeftmostNoneIffAbsent(message, Cities);
  }

  // ---------------------------------------------------------------------------
  // analyze

  /** `analyze(message)`: "unknown" at confidence 0 for a null or empty message or
      when no pattern matches; otherwise the first matching intent in the table's
      iteration order `order`, at confidence 1, with its entities. The original
      message is never recorded. */
  function Analyze(message: Option<string>, order: seq<string>): (r: AnalysisResult)
    requires EnumeratesPatterns(order)
    ensures r.originalMessage == None
    ensures r.confidence == 1.0 <==> r.intent != "unknown"
    ensures r.confidence == 0.0 <==> r.intent == "unknown"
    ensures message.None? || message.value == [] ==> r.intent == "unknown" && r.entities == Some(map[])
    ensures r.intent != "unknown" ==>
      r.intent in IntentPatterns && Matches(IntentPatterns[r.intent], message.value)
    ensures message.Some? && message.value != [] ==>
      (r.intent == "unknown" <==> forall n | n in IntentPatterns :: !Matches(IntentPatterns[n], message.value))
    ensures message.Some? && message.value != [] ==> r.entities == Some(ExtractEntities(message.value, r.intent))
  {
    if message.None? || message.value == [] then
      NewAnalysis("unknown", 0.0, None)
    else
      var m := message.value;
      var found := FirstMatch(order, m);
      var intent := if found.Some? then found.value else "unknown";
      assert "unknown" !in IntentPatterns;
      AnalysisResult(intent, Some(ExtractEntities(m, intent)), if found.Some? then 1.0 else 0.0, None)
  }

  /** When only one pattern matches, the iteration order does not matter. */
  lemma OrderIrrelevantForOneMatch(message: string, order1: seq<string>, order2: seq<string>, intent: string)
    requires EnumeratesPatterns(order1) && EnumeratesPatterns(order2)
    requires message != [] && intent in IntentPatterns && Matches(IntentPatterns[intent], message)
    requires forall n | n in IntentPatterns && n != intent :: !Matches(IntentPatterns[n], message)
    ensures Analyze(Some(message), order1) == Analyze(Some(message), order2)
    ensures Analyze(Some(message), order1).intent == intent
  {
  }

  predicate IsAscii(s: string) {
    forall i | 0 <= i < |s| :: s[i] < 128 as char
  }

  /** Every word a two-part pattern starts with begins with a Hangul syllable. */
  lemma FirstWordsAreHangul(n: string)
    requires n in IntentPatterns && n != "greeting"
    ensures IntentPatterns[n].Then?
    ensures forall a | 0 <= a < |IntentPatterns[n].firsts| ::
      IntentPatterns[n].firsts[a] != [] && !(IntentPatterns[n].firsts[a][0] < 128 as char)
  {
  }

  /** Only the greeting pattern can match a message written in ASCII. */
  lemma AsciiMatchesOnlyGreeting(message: string, n: string)
    requires IsAscii(message)
    requires n in IntentPatterns && n != "greeting"
    ensures !Matches(IntentPatterns[n], message)
  {
    FirstWordsAreHangul(n);
  }

  /** "Hello" is a greeting, whatever the iteration order. */
  lemma HelloIsGreeting(order: seq<string>)
    requires EnumeratesPatterns(order)
    ensures Analyze(Some("Hello"), order).intent == "greeting"
    ensures Analyze(Some("Hello"), order).confidence == 1.0
  {
    assert ToLower("Hello") == "hello";
    assert OccursAt("hello", "hello", 0);
    assert IntentPatterns["greeting"].words[5] == "hello";
    assert Contains(ToLower("Hello"), IntentPatterns["greeting"].words[5]);
    assert Matches(IntentPatterns["greeting"], "Hello");
    forall n | n in IntentPatterns && n != "greeting"
      ensures !Matches(IntentPatterns[n], "Hello")
    {
      AsciiMatchesOnlyGreeting("Hello", n);
    }
    OrderIrrelevantForOneMatch("Hello", order, order, "greeting");
  }
}

=== FILE: simple_answerer.dfy ===
/** The renderer (SimpleAnswerer): fills the solution's template with its data and
    wraps the text in a ChatResponse. The clock readings are inputs: `now` for the
    timestamp and `isoNow` for the `LocalDateTime.toString()` default of "time". */
module SimpleAnswerer {
  import opened Wrappers
  import opened Text
  import opened Lasa
  import opened Formatter
  import SimpleSolver
  import WeatherService

  const NullResultText: string := "시스템 오류가 발생했습니다."
  const RenderErrorText: string := "응답을 생성하는 중 오류가 발생했습니다."
  const NoTemplateText: string := "죄송합니다. 응답을 생성할 수 없습니다."
  const DefaultGreeting: string := "안녕하세요! 무엇을 도와드릴까요?"
  const DefaultBye: string := "안녕히 가세요! 좋은 하루 되세요!"

  /** The intents whose template is filled; every other one is shown verbatim. */
  const FilledIntents: set<string> := {"greeting", "weather", "temperature", "time", "bye"}

  /** `data.getOrDefault(key, default)`. */
  function Lookup(data: map<string, Value>, key: string, default: Value): (v: Value)
    ensures key in data ==> v == data[key]
    ensures key !in data ==> v == default
  {
    if key in data then data[key] else default
  }

  /** The weather suffix: " (" + dateTime + " 기준)" for a non-empty date, else nothing. */
  function DateTimeSuffix(dateTime: string): (s: string)
    ensures dateTime == [] <==> s == []
    ensures dateTime != [] ==> StartsWith(s, " (") && EndsWith(s, " 기준)") && Contains(s, dateTime)
  {
    if dateTime == [] then []
    else
      var s := " (" + dateTime + " 기준)";
      assert OccursAt(s, dateTime, 2);
      s
  }

  /** `formatResponseMessage(result)`; None stands for the exceptions it can raise:
      a null intent or data map, an unparsable temperature, or a template that does
      not fit its arguments. */
  function FormatResponseMessage(s: SolutionResult, isoNow: string): (r: Option<string>)
    ensures s.responseTemplate.None? ==> r == Some(NoTemplateText)
    ensures s.responseTemplate.Some? && s.originalIntent.None? ==> r == None
    ensures s.responseTemplate.Some? && s.originalIntent.Some? && s.originalIntent.value !in FilledIntents ==>
      r == Some(s.responseTemplate.value)
    ensures s.responseTemplate.Some? && s.originalIntent.Some? && s.originalIntent.value in FilledIntents && s.data.None? ==>
      r == None
  {
    match s.responseTemplate
    case None => Some(NoTemplateText)
    case Some(template) =>
      match s.originalIntent
      case None => None
      case Some(intent) =>
        if intent !in FilledIntents then Some(template)
        else match s.data
          case None => None
          case Some(data) =>
            if intent == "greeting" then
              Format(template, [Lookup(data, "greeting", Str(DefaultGreeting))])
            else if intent == "weather" then
              var location := ValueToString(Lookup(data, "location", Str(WeatherService.Seoul)));
              var weather := ValueToString(Lookup(data, "weather", Str(WeatherService.UnknownWeather)));
              var detail := ValueToString(Lookup(data, "weatherDetail", Str("")));
              var dateTime := ValueToString(Lookup(data, "dateTime", Str("")));
              match Format(template, [Str(location), Str(weather), Str(detail)])
              case Some(m) => Some(m + DateTimeSuffix(dateTime))
              case None => None
            else if intent == "temperature" then
              var location := ValueToString(Lookup(data, "location", Str(WeatherService.Seoul)));
              var tempValue := ValueToString(Lookup(data, "temperature", Str("0")));
              var description := ValueToString(Lookup(data, "tempDescription", Str("")));
              match ParseInt(tempValue)
              case Some(t) => Format(template, [Str(location), Int(t), Str(description)])
              case None => None
            else if intent == "time" then
              Format(template, [Lookup(data, "time", Str(isoNow))])
            else
              Format(template, [Lookup(data, "bye", Str(DefaultBye))])
  }

  /** `createErrorResponse(text)`. */
  function ErrorResponse(text: string, now: int): (r: ChatResponse)
    ensures r.message == text && r.intent == Some("error") && r.confidence == 0.0 && r.entities == None
  {
    ChatResponse(text, Some("error"), None, now, 0.0)
  }

  /** `answer(result)`: the error response for a null solution; otherwise the
      rendered text with the solution's intent and data, at confidence 1 for a
      success and 0.5 for anything else; the error response if rendering throws. */
  function Answer(result: Option<SolutionResult>, now: int, isoNow: string): (r: ChatResponse)
    ensures result.None? ==> r == ErrorResponse(NullResultText, now)
    ensures result.Some? && FormatResponseMessage(result.value, isoNow).None? ==> r == ErrorResponse(RenderErrorText, now)
    ensures result.Some? && FormatResponseMessage(result.value, isoNow).Some? ==>
      r.message == FormatResponseMessage(result.value, isoNow).value
      && r.intent == result.value.originalIntent && r.entities == result.value.data
      && r.confidence == (if IsSuccess(result.value) then 1.0 else 0.5)
    ensures r.timestamp == now
    ensures r.confidence in {0.0, 0.5, 1.0}
  {
    match result
    case None => ErrorResponse(NullResultText, now)
    case Some(s) =>
      match FormatResponseMessage(s, isoNow)
      case None => ErrorResponse(RenderErrorText, now)
      case Some(m) => ChatResponse(m, s.originalIntent, s.data, now, if IsSuccess(s) then 1.0 else 0.5)
  }

  /** A confidence of 0 marks exactly the two error responses. */
  lemma ZeroConfidenceIsErrorResponse(result: Option<SolutionResult>, now: int, isoNow: string)
    ensures Answer(result, now, isoNow).confidence == 0.0
        <==> (Answer(result, now, isoNow) == ErrorResponse(NullResultText, now)
              || Answer(result, now, isoNow) == ErrorResponse(RenderErrorText, now))
  {
  }

  // ---------------------------------------------------------------------------
  // Rendering the solver's results

  /** The fallback and error solutions render their "%s" template verbatim: the
      `fallbackResponse` they carry (generated or default) is never shown. */
  lemma FallbackRendersPlaceholder(generated: Option<string>, now: int, isoNow: string)
    ensures Answer(Some(SimpleSolver.Enrich(SimpleSolver.FallbackResult(), generated)), now, isoNow).message == "%s"
    ensures Answer(Some(SimpleSolver.Enrich(SimpleSolver.ErrorResult(), generated)), now, isoNow).message == "%s"
    ensures Answer(Some(SimpleSolver.Enrich(SimpleSolver.ErrorResult(), generated)), now, isoNow).confidence == 0.5
  {
  }

  /** A greeting solution shows the phrase the solver picked. */
  lemma GreetingShowsPhrase(a: AnalysisResult, w: SimpleSolver.World, now: int, isoNow: string)
    requires a.intent == "greeting" && w.pick < |SimpleSolver.GreetingResponses|
    ensures Answer(Some(SimpleSolver.Solve(Some(a), w)), now, isoNow).message == SimpleSolver.GreetingResponses[w.pick]
  {
    var phrase := SimpleSolver.GreetingResponses[w.pick];
    var s := SimpleSolver.Solve(Some(a), w);
    assert s.data.value["greeting"] == Str(phrase);
    assert s.responseTemplate == Some("%s");
    PlaceholderRenders(s, isoNow);
  }

  /** The temperature template with its three arguments. */
  lemma TemperatureTemplate(location: string, t: int, description: string)
    ensures Format("%s의 현재 기온은 %d°C입니다. %s", [Str(location), Int(t), Str(description)]) ==
      Some(location + "의 현재 기온은 " + IntToString(t) + "°C입니다. " + description)
  {
    var a := "의 현재 기온은 ";
    var b := "°C입니다. ";
    assert "%s의 현재 기온은 %d°C입니다. %s" == "%s" + a + "%d" + b + "%s";
    FormatStringDecimalString(a, b, location, t, description);
  }

  /** The temperature a solution carries survives the round trip through
      `String.valueOf` and `Integer.parseInt`: the response prints it in decimal. */
  lemma TemperatureRoundTrip(location: string, t: Int32, description: string, isoNow: string)
    ensures var s := SimpleSolver.SuccessResult("temperature").(data := Some(map[
        "location" := Str(location), "temperature" := Int(t), "tempDescription" := Str(description)]));
      FormatResponseMessage(s, isoNow) ==
        Some(location + "의 현재 기온은 " + IntToString(t) + "°C입니다. " + description)
  {
    var s := SimpleSolver.SuccessResult("temperature").(data := Some(map[
        "location" := Str(location), "temperature" := Int(t), "tempDescription" := Str(description)]));
    ParseIntToString(t);
    assert ValueToString(Int(t)) == IntToString(t);
    assert s.responseTemplate == Some("%s의 현재 기온은 %d°C입니다. %s");
    TemperatureTemplate(location, t, description);
  }

  /** A temperature stored as text that is not an ASCII-digit integer makes
      rendering fail. */
  lemma UnparsableTemperatureFails(s: SolutionResult, text: string, isoNow: string)
    requires s.responseTemplate.Some? && s.originalIntent == Some("temperature") && s.data.Some?
    requires "temperature" in s.data.value && s.data.value["temperature"] == Str(text) && ParseInt(text).None?
    ensures Answer(Some(s), 0, isoNow) == ErrorResponse(RenderErrorText, 0)
  {
  }

  /** The weather text is the three-argument template followed by the date
      suffix: a non-empty date is quoted at the end, an empty one adds nothing. */
  lemma WeatherDateSuffix(s: SolutionResult, isoNow: string)
    requires s.responseTemplate.Some? && s.originalIntent == Some("weather") && s.data.Some?
    requires "dateTime" in s.data.value && s.data.value["dateTime"].Str?
    requires FormatResponseMessage(s, isoNow).Some?
    ensures var d := s.data.value["dateTime"].s;
      d != [] ==> EndsWith(FormatResponseMessage(s, isoNow).value, " (" + d + " 기준)")
    ensures var data := s.data.value;
      var location := ValueToString(Lookup(data, "location", Str(WeatherService.Seoul)));
      var weather := ValueToString(Lookup(data, "weather", Str(WeatherService.UnknownWeather)));
      var detail := ValueToString(Lookup(data, "weatherDetail", Str("")));
      data["dateTime"].s == [] ==>
        FormatResponseMessage(s, isoNow) == Format(s.responseTemplate.value, [Str(location), Str(weather), Str(detail)])
  {
    var d := s.data.value["dateTime"].s;
    var data := s.data.value;
    var location := ValueToString(Lookup(data, "location", Str(WeatherService.Seoul)));
    var weather := ValueToString(Lookup(data, "weather", Str(WeatherService.UnknownWeather)));
    var detail := ValueToString(Lookup(data, "weatherDetail", Str("")));
    assert ValueToString(Lookup(data, "dateTime", Str(""))) == d;
    var m := Format(s.responseTemplate.value, [Str(location), Str(weather), Str(detail)]).value;
    assert FormatResponseMessage(s, isoNow).value == m + DateTimeSuffix(d);
    if d == [] {
      assert m + DateTimeSuffix(d) == m;
    }
  }

  /** The greeting and bye templates show the stored phrase, and the default
      phrase when none is stored. */
  lemma PlaceholderRenders(s: SolutionResult, isoNow: string)
    requires s.responseTemplate == Some("%s") && s.data.Some?
    requires s.originalIntent == Some("greeting") || s.originalIntent == Some("bye")
    ensures var key := s.originalIntent.value;
      var default := if key == "greeting" then DefaultGreeting else DefaultBye;
      FormatResponseMessage(s, isoNow) == Some(ValueToString(Lookup(s.data.value, key, Str(default))))
    ensures s.originalIntent == Some("greeting") && "greeting" !in s.data.value ==>
      FormatResponseMessage(s, isoNow) == Some(DefaultGreeting)
    ensures s.originalIntent == Some("bye") && "bye" !in s.data.value ==>
      FormatResponseMessage(s, isoNow) == Some(DefaultBye)
  {
    var data := s.data.value;
    var key := s.originalIntent.value;
    var default := if key == "greeting" then DefaultGreeting else DefaultBye;
    var v := Lookup(data, key, Str(default));
    assert "%s" == "" + "%s" + "";
    FormatOne("", "", v);
    assert "" + ValueToString(v) + "" == ValueToString(v);
  }

  /** The time template shows the stored time, and the current time when none is stored. */
  lemma TimeRenders(s: SolutionResult, isoNow: string)
    requires s.responseTemplate == Some("현재 시간은 %s입니다.") && s.data.Some? && s.originalIntent == Some("time")
    ensures FormatResponseMessage(s, isoNow)
         == Some("현재 시간은 " + ValueToString(Lookup(s.data.value, "time", Str(isoNow))) + "입니다.")
    ensures "time" !in s.data.value ==> FormatResponseMessage(s, isoNow) == Some("현재 시간은 " + isoNow + "입니다.")
  {
    assert "현재 시간은 %s입니다." == "현재 시간은 " + "%s" + "입니다.";
    FormatOne("현재 시간은 ", "입니다.", Lookup(s.data.value, "time", Str(isoNow)));
  }

  /** The weather template shows location, weather and detail in place, then the
      date suffix; a missing location is 서울, a missing weather 알 수 없음, a
      missing detail or date nothing. */
  lemma WeatherRenders(s: SolutionResult, isoNow: string)
    requires s.responseTemplate == Some("%s의 현재 날씨는 %s입니다. %s") && s.data.Some? && s.originalIntent == Some("weather")
    ensures var data := s.data.value;
      var location := ValueToString(Lookup(data, "location", Str(WeatherService.Seoul)));
      var weather := ValueToString(Lookup(data, "weather", Str(WeatherService.UnknownWeather)));
      var detail := ValueToString(Lookup(data, "weatherDetail", Str("")));
      var dateTime := ValueToString(Lookup(data, "dateTime", Str("")));
      FormatResponseMessage(s, isoNow)
        == Some(location + "의 현재 날씨는 " + weather + "입니다. " + detail + DateTimeSuffix(dateTime))
  {
    var data := s.data.value;
    var location := ValueToString(Lookup(data, "location", Str(WeatherService.Seoul)));
    var weather := ValueToString(Lookup(data, "weather", Str(WeatherService.UnknownWeather)));
    var detail := ValueToString(Lookup(data, "weatherDetail", Str("")));
    assert "%s의 현재 날씨는 %s입니다. %s" == "%s" + "의 현재 날씨는 " + "%s" + "입니다. " + "%s";
    FormatThreeStrings("의 현재 날씨는 ", "입니다. ", location, weather, detail);
  }

  /** A weather solution without data shows the defaults. */
  lemma WeatherDefaults(s: SolutionResult, isoNow: string)
    requires s.responseTemplate == Some("%s의 현재 날씨는 %s입니다. %s") && s.data == Some(map[]) && s.originalIntent == Some("weather")
    ensures FormatResponseMessage(s, isoNow) == Some(WeatherService.Seoul + "의 현재 날씨는 " + WeatherService.UnknownWeather + "입니다. ")
  {
    WeatherRenders(s, isoNow);
    assert DateTimeSuffix("") == "";
    var t := WeatherService.Seoul + "의 현재 날씨는 " + WeatherService.UnknownWeather + "입니다. ";
    assert t + "" + "" == t;
  }

  /** The temperature template shows a stored 32-bit integer in decimal, and 0
      when no temperature is stored. */
  lemma TemperatureRenders(s: SolutionResult, isoNow: string)
    requires s.responseTemplate == Some("%s의 현재 기온은 %d°C입니다. %s") && s.data.Some? && s.originalIntent == Some("temperature")
    requires "temperature" in s.data.value ==>
      s.data.value["temperature"].Int? && IntMin <= s.data.value["temperature"].i <= IntMax
    ensures var data := s.data.value;
      var t := if "temperature" in data then data["temperature"].i else 0;
      FormatResponseMessage(s, isoNow) == Some(
        ValueToString(Lookup(data, "location", Str(WeatherService.Seoul))) + "의 현재 기온은 " + IntToString(t)
        + "°C입니다. " + ValueToString(Lookup(data, "tempDescription", Str(""))))
  {
    var data := s.data.value;
    var t := if "temperature" in data then data["temperature"].i else 0;
    var location := ValueToString(Lookup(data, "location", Str(WeatherService.Seoul)));
    var description := ValueToString(Lookup(data, "tempDescription", Str("")));
    ParseIntToString(t);
    if "temperature" !in data {
      ZeroText();
    }
    assert ValueToString(Lookup(data, "temperature", Str("0"))) == IntToString(t);
    TemperatureTemplate(location, t, description);
  }

  lemma ZeroText()
    ensures IntToString(0) == "0"
  {
  }

  /** A temperature solution without a temperature shows 0°C. */
  lemma TemperatureDefaultsToZero(s: SolutionResult, isoNow: string)
    requires s.responseTemplate == Some("%s의 현재 기온은 %d°C입니다. %s") && s.data.Some? && s.originalIntent == Some("temperature")
    requires "temperature" !in s.data.value
    ensures var data := s.data.value;
      FormatResponseMessage(s, isoNow) == Some(
        ValueToString(Lookup(data, "location", Str(WeatherService.Seoul))) + "의 현재 기온은 0°C입니다. "
        + ValueToString(Lookup(data, "tempDescription", Str(""))))
  {
    var data := s.data.value;
    TemperatureRenders(s, isoNow);
    ZeroPiece();
    Regroup(ValueToString(Lookup(data, "location", Str(WeatherService.Seoul))), "의 현재 기온은 ", IntToString(0),
            "°C입니다. ", ValueToString(Lookup(data, "tempDescription", Str(""))));
  }

  lemma ZeroPiece()
    ensures "의 현재 기온은 " + IntToString(0) + "°C입니다. " == "의 현재 기온은 0°C입니다. "
  {
    ZeroText();
  }

  lemma Regroup(x: string, a: string, b: string, c: string, y: string)
    ensures x + a + b + c + y == x + (a + b + c) + y
  {
  }

  /** A solution whose template is the one configured for its intent renders,
      provided a temperature solution stores a 32-bit integer. */
  lemma ConfiguredTemplatesRender(s: SolutionResult, isoNow: string)
    requires s.originalIntent.Some? && s.originalIntent.value in SimpleSolver.ResponseTemplates
    requires s.responseTemplate == Some(SimpleSolver.ResponseTemplates[s.originalIntent.value]) && s.data.Some?
    requires s.originalIntent == Some("temperature") && "temperature" in s.data.value ==>
      s.data.value["temperature"].Int? && IntMin <= s.data.value["temperature"].i <= IntMax
    ensures FormatResponseMessage(s, isoNow).Some?
  {
    var intent := s.originalIntent.value;
    if intent == "greeting" || intent == "bye" {
      PlaceholderRenders(s, isoNow);
    } else if intent == "time" {
      TimeRenders(s, isoNow);
    } else if intent == "weather" {
      WeatherRenders(s, isoNow);
    } else if intent == "temperature" {
      TemperatureRenders(s, isoNow);
    }
  }

  /** Every template the solver uses renders with the data the solver stores
      under it: the pipeline never reaches the rendering error. */
  lemma SolutionsAlwaysRender(a: AnalysisResult, w: SimpleSolver.World, isoNow: string)
    requires w.pick < |SimpleSolver.GreetingResponses| && w.pick < |SimpleSolver.ByeResponses|
    ensures FormatResponseMessage(SimpleSolver.Solve(Some(a), w), isoNow).Some?
  {
    if a.intent == "temperature" {
      SimpleSolver.TemperatureData(a, w);
    }
    ConfiguredTemplatesRender(SimpleSolver.Solve(Some(a), w), isoNow);
  }
}

=== FILE: simple_listener.dfy ===
/** The Listen stage (SimpleListener): trims the request message, collapses
    whitespace runs and deletes characters outside the allowed classes. The
    Unicode letter/number categories (`\p{L}`, `\p{N}`) are a parameter. */
module SimpleListener {
  import opened Wrappers
  import opened Text
  import opened Lasa

  /** `\s` of a Java regex without UNICODE_CHARACTER_CLASS: space, \t, \n, \x0B, \f, \r. */
  predicate IsRegexSpace(c: char) {
    c == ' ' || c == '\t' || c == '\n' || c == '\r' || c as int == 0x0B || c as int == 0x0C
  }

  /** `\p{Punct}` without UNICODE_CHARACTER_CLASS: the 32 ASCII punctuation marks. */
  predicate IsAsciiPunct(c: char) {
    ('!' <= c <= '/') || (':' <= c <= '@') || ('[' <= c <= '`') || ('{' <= c <= '~')
  }

  /** Characters the filter `[^\p{L}\p{N}\s\p{Punct}]` leaves alone. */
  predicate Kept(c: char, isLetterOrNumber: char -> bool) {
    isLetterOrNumber(c) || IsRegexSpace(c) || IsAsciiPunct(c)
  }

  function DropSpaces(s: string): (r: string)
    ensures |r| <= |s| && r == s[|s| - |r|..]
    ensures r == [] || !IsRegexSpace(r[0])
  {
    if s == [] || !IsRegexSpace(s[0]) then s else DropSpaces(s[1..])
  }

  /** Only whitespace is dropped. */
  lemma {:induction false} DropSpacesDropsSpaces(s: string)
    ensures var r := DropSpaces(s); forall i | 0 <= i < |s| - |r| :: IsRegexSpace(s[i])
    decreases |s|
  {
    if s != [] && IsRegexSpace(s[0]) {
      DropSpacesDropsSpaces(s[1..]);
      var r := DropSpaces(s);
      forall i | 1 <= i < |s| - |r|
        ensures IsRegexSpace(s[i])
      {
        assert s[i] == s[1..][i - 1];
      }
    }
  }

  lemma RegexSpaceIsTrimmable(c: char)
    ensures IsRegexSpace(c) ==> IsTrimmable(c)
  {
  }

  /** The shape `replaceAll("\\s+", " ")` produces: no whitespace but the plain
      space, and never two spaces in a row. */
  predicate Collapsed(s: string) {
    && (forall i | 0 <= i < |s| :: IsRegexSpace(s[i]) ==> s[i] == ' ')
    && (forall i | 0 <= i < |s| - 1 :: s[i] == ' ' ==> s[i + 1] != ' ')
  }

  /** The characters of `s` that are not whitespace, in order. */
  function NonSpaces(s: string): string {
    if s == [] then []
    else (if IsRegexSpace(s[0]) then [] else [s[0]]) + NonSpaces(s[1..])
  }

  lemma {:induction false} NonSpacesOfSpaces(s: string)
    requires forall i | 0 <= i < |s| :: IsRegexSpace(s[i])
    ensures NonSpaces(s) == []
  {
    if s != [] {
      NonSpacesOfSpaces(s[1..]);
    }
  }

  lemma {:induction false} NonSpacesAppend(a: string, b: string)
    ensures NonSpaces(a + b) == NonSpaces(a) + NonSpaces(b)
  {
    if a != [] {
      assert (a + b)[1..] == a[1..] + b;
      NonSpacesAppend(a[1..], b);
    } else {
      assert a + b == b;
    }
  }

  /** `replaceAll("\\s+", " ")`: every maximal whitespace run becomes one space. */
  function CollapseSpaces(s: string): (r: string)
    ensures |r| <= |s|
    ensures r == [] <==> s == []
    ensures s != [] && !IsRegexSpace(s[0]) ==> r[0] == s[0]
    decreases |s|
  {
    if s == [] then []
    else if IsRegexSpace(s[0]) then " " + CollapseSpaces(DropSpaces(s[1..]))
    else [s[0]] + CollapseSpaces(s[1..])
  }

  lemma CollapsedCons(c: char, rest: string)
    requires Collapsed(rest)
    requires IsRegexSpace(c) ==> c == ' '
    requires c == ' ' && rest != [] ==> rest[0] != ' '
    ensures Collapsed([c] + rest)
  {
    var s := [c] + rest;
    forall i | 1 <= i < |s|
      ensures s[i] == rest[i - 1]
    {
    }
  }

  /** The result has no whitespace but the plain space and no two spaces in a row. */
  lemma {:induction false} CollapseIsCollapsed(s: string)
    ensures Collapsed(CollapseSpaces(s))
    decreases |s|
  {
    if s != [] {
      if IsRegexSpace(s[0]) {
        var t := DropSpaces(s[1..]);
        CollapseIsCollapsed(t);
        CollapsedCons(' ', CollapseSpaces(t));
      } else {
        CollapseIsCollapsed(s[1..]);
        var rest := CollapseSpaces(s[1..]);
        CollapsedCons(s[0], rest);
      }
    }
  }

  /** A last character that is not whitespace survives collapsing. */
  lemma {:induction false} CollapseKeepsLast(s: string)
    requires s != [] && !IsRegexSpace(s[|s| - 1])
    ensures var r := CollapseSpaces(s); r != [] && r[|r| - 1] == s[|s| - 1]
    decreases |s|
  {
    if IsRegexSpace(s[0]) {
      var t := DropSpaces(s[1..]);
      assert s[1..][|s| - 2] == s[|s| - 1];
      DropSpacesKeepsLast(s[1..]);
      CollapseKeepsLast(t);
    } else if |s| > 1 {
      assert s[1..][|s| - 2] == s[|s| - 1];
      CollapseKeepsLast(s[1..]);
    }
  }

  /** Collapsing changes nothing but whitespace: the other characters are kept in order. */
  lemma {:induction false} CollapseKeepsNonSpaces(s: string)
    ensures NonSpaces(CollapseSpaces(s)) == NonSpaces(s)
    decreases |s|, 1
  {
    if s != [] {
      if IsRegexSpace(s[0]) {
        KeepsNonSpacesAfterSpace(s);
      } else {
        KeepsNonSpacesAfterNonSpace(s);
      }
    }
  }

  lemma {:induction false} KeepsNonSpacesAfterSpace(s: string)
    requires s != [] && IsRegexSpace(s[0])
    ensures NonSpaces(CollapseSpaces(s)) == NonSpaces(s)
    decreases |s|, 0
  {
    var t := DropSpaces(s[1..]);
    DropSpacesNonSpaces(s[1..]);
    CollapseKeepsNonSpaces(t);
    CollapseStepSpace(s);
    NonSpacesAfterSpace(' ', CollapseSpaces(t));
    NonSpacesAfterSpace(s[0], s[1..]);
    assert [s[0]] + s[1..] == s;
  }

  /** One step of the collapse at a leading whitespace character. */
  lemma CollapseStepSpace(s: string)
    requires s != [] && IsRegexSpace(s[0])
    ensures CollapseSpaces(s) == " " + CollapseSpaces(DropSpaces(s[1..]))
  {
  }

  lemma NonSpacesAfterSpace(c: char, r: string)
    requires IsRegexSpace(c)
    ensures NonSpaces([c] + r) == NonSpaces(r)
  {
    assert ([c] + r)[0] == c;
    assert ([c] + r)[1..] == r;
  }

  /** Leading whitespace holds no other character. */
  lemma {:induction false} DropSpacesNonSpaces(x: string)
    ensures NonSpaces(DropSpaces(x)) == NonSpaces(x)
    decreases |x|
  {
    if x != [] && IsRegexSpace(x[0]) {
      DropSpacesNonSpaces(x[1..]);
      NonSpacesAfterSpace(x[0], x[1..]);
      assert [x[0]] + x[1..] == x;
    }
  }

  lemma {:induction false} KeepsNonSpacesAfterNonSpace(s: string)
    requires s != [] && !IsRegexSpace(s[0])
    ensures NonSpaces(CollapseSpaces(s)) == NonSpaces(s)
    decreases |s|, 0
  {
    CollapseKeepsNonSpaces(s[1..]);
    var rest := CollapseSpaces(s[1..]);
    assert ([s[0]] + rest)[0] == s[0];
    assert ([s[0]] + rest)[1..] == rest;
  }

  /** Collapsing is idempotent: already-collapsed text is left as it is. */
  lemma {:induction false} CollapseFixpoint(s: string)
    requires Collapsed(s)
    ensures CollapseSpaces(s) == s
    decreases |s|
  {
    if s != [] {
      var t := s[1..];
      assert Collapsed(t) by {
        forall i | 0 <= i < |t|
          ensures t[i] == s[i + 1]
        {
        }
      }
      CollapseFixpoint(t);
      if IsRegexSpace(s[0]) {
        assert s[0] == ' ';
        if t != [] {
          assert t[0] == s[1] && s[1] != ' ';
          assert !IsRegexSpace(t[0]);
        }
        assert DropSpaces(t) == t;
        CollapseStepSpace(s);
        assert [s[0]] + t == s;
      } else {
        assert CollapseSpaces(s) == [s[0]] + CollapseSpaces(t);
        assert [s[0]] + t == s;
      }
    }
  }

  /** Whitespace in front of a non-space start is dropped entirely. */
  lemma {:induction false} DropSpacesBefore(w: string, b: string)
    requires forall i | 0 <= i < |w| :: IsRegexSpace(w[i])
    requires b == [] || !IsRegexSpace(b[0])
    ensures DropSpaces(w + b) == b
    decreases |w|
  {
    if w == [] {
      assert w + b == b;
    } else {
      assert (w + b)[0] == w[0];
      assert (w + b)[1..] == w[1..] + b;
      DropSpacesBefore(w[1..], b);
    }
  }

  /** Dropping leading whitespace stops inside `x` when `x` holds a non-space. */
  lemma {:induction false} DropSpacesAppend(x: string, t: string)
    requires x != [] && !IsRegexSpace(x[|x| - 1])
    ensures DropSpaces(x + t) == DropSpaces(x) + t
    decreases |x|
  {
    assert (x + t)[0] == x[0];
    if IsRegexSpace(x[0]) {
      assert |x| > 1;
      assert (x + t)[1..] == x[1..] + t;
      DropSpacesAppend(x[1..], t);
    }
  }

  lemma DropSpacesKeepsLast(x: string)
    requires x != [] && !IsRegexSpace(x[|x| - 1])
    ensures var d := DropSpaces(x); d != [] && d[|d| - 1] == x[|x| - 1]
  {
    DropSpacesDropsSpaces(x);
  }

  /** Text ending in a non-space collapses independently of what follows it. */
  lemma {:induction false} CollapseAppend(a: string, t: string)
    requires a == [] || !IsRegexSpace(a[|a| - 1])
    ensures CollapseSpaces(a + t) == CollapseSpaces(a) + CollapseSpaces(t)
    decreases |a|, 1
  {
    if a == [] {
      assert a + t == t;
    } else if IsRegexSpace(a[0]) {
      CollapseAppendAfterSpace(a, t);
    } else {
      CollapseAppendAfterNonSpace(a, t);
    }
  }

  lemma {:induction false} CollapseAppendAfterSpace(a: string, t: string)
    requires a != [] && IsRegexSpace(a[0]) && !IsRegexSpace(a[|a| - 1])
    ensures CollapseSpaces(a + t) == CollapseSpaces(a) + CollapseSpaces(t)
    decreases |a|, 0
  {
    var at := a + t;
    assert at[0] == a[0];
    assert at[1..] == a[1..] + t;
    var d := DropSpaces(a[1..]);
    DropSpacesAppend(a[1..], t);
    DropSpacesKeepsLast(a[1..]);
    CollapseAppend(d, t);
    assert CollapseSpaces(at) == " " + CollapseSpaces(d + t);
    Assoc(" ", CollapseSpaces(d), CollapseSpaces(t));
  }

  lemma {:induction false} CollapseAppendAfterNonSpace(a: string, t: string)
    requires a != [] && !IsRegexSpace(a[0]) && !IsRegexSpace(a[|a| - 1])
    ensures CollapseSpaces(a + t) == CollapseSpaces(a) + CollapseSpaces(t)
    decreases |a|, 0
  {
    var at := a + t;
    assert at[0] == a[0];
    assert at[1..] == a[1..] + t;
    if |a| > 1 {
      assert a[1..][|a| - 2] == a[|a| - 1];
    }
    CollapseAppend(a[1..], t);
    assert CollapseSpaces(at) == [a[0]] + CollapseSpaces(a[1..] + t);
    Assoc([a[0]], CollapseSpaces(a[1..]), CollapseSpaces(t));
  }

  lemma Assoc(x: string, y: string, z: string)
    ensures x + (y + z) == x + y + z
  {
  }

  /** A whitespace run in front of a non-space start becomes one space. */
  lemma CollapseLeadingRun(w: string, b: string)
    requires w != [] && forall i | 0 <= i < |w| :: IsRegexSpace(w[i])
    requires b == [] || !IsRegexSpace(b[0])
    ensures CollapseSpaces(w + b) == " " + CollapseSpaces(b)
  {
    var wb := w + b;
    assert wb[0] == w[0];
    assert wb[1..] == w[1..] + b;
    CollapseStepSpace(wb);
    var w' := w[1..];
    forall i | 0 <= i < |w'|
      ensures IsRegexSpace(w'[i])
    {
      assert w'[i] == w[i + 1];
    }
    DropSpacesBefore(w', b);
  }

  /** A whitespace run between two non-spaces becomes exactly one space, and the
      text on either side collapses on its own. */
  lemma CollapseRun(a: string, w: string, b: string)
    requires a == [] || !IsRegexSpace(a[|a| - 1])
    requires w != [] && forall i | 0 <= i < |w| :: IsRegexSpace(w[i])
    requires b == [] || !IsRegexSpace(b[0])
    ensures CollapseSpaces(a + w + b) == CollapseSpaces(a) + " " + CollapseSpaces(b)
  {
    Assoc(a, w, b);
    CollapseAppend(a, w + b);
    CollapseLeadingRun(w, b);
    Assoc(CollapseSpaces(a), " ", CollapseSpaces(b));
  }

  lemma CollapseIdempotent(s: string)
    ensures CollapseSpaces(CollapseSpaces(s)) == CollapseSpaces(s)
  {
    CollapseIsCollapsed(s);
    CollapseFixpoint(CollapseSpaces(s));
  }

  /** `replaceAll("[^\\p{L}\\p{N}\\s\\p{Punct}]", "")`. */
  function FilterKept(s: string, isLetterOrNumber: char -> bool): (r: string)
    ensures |r| <= |s|
    ensures forall i | 0 <= i < |r| :: Kept(r[i], isLetterOrNumber)
  {
    if s == [] then []
    else if Kept(s[0], isLetterOrNumber) then [s[0]] + FilterKept(s[1..], isLetterOrNumber)
    else FilterKept(s[1..], isLetterOrNumber)
  }

  /** The filter works character by character: filtering two pieces of text one
      after the other is filtering their concatenation, so the kept characters
      stay in their input order. */
  lemma {:induction false} FilterKeptAppend(a: string, b: string, isLetterOrNumber: char -> bool)
    ensures FilterKept(a + b, isLetterOrNumber) == FilterKept(a, isLetterOrNumber) + FilterKept(b, isLetterOrNumber)
    decreases |a|
  {
    if a == [] {
      assert a + b == b;
    } else {
      assert (a + b)[0] == a[0];
      assert (a + b)[1..] == a[1..] + b;
      FilterKeptAppend(a[1..], b, isLetterOrNumber);
    }
  }

  /** The filter keeps exactly the allowed characters, each as often as it occurred. */
  lemma {:induction false} FilterKeptCounts(s: string, isLetterOrNumber: char -> bool)
    ensures var r := FilterKept(s, isLetterOrNumber);
      forall c :: multiset(r)[c] == if Kept(c, isLetterOrNumber) then multiset(s)[c] else 0
  {
    if s != [] {
      FilterKeptCounts(s[1..], isLetterOrNumber);
      assert s == [s[0]] + s[1..];
    }
  }

  /** The message after line 21 of the listener: trimmed, then collapsed. */
  function Normalize(m: string): string {
    CollapseSpaces(Trim(m))
  }

  /** `listen(request)`. */
  function Listen(req: Option<ChatRequest>, isLetterOrNumber: char -> bool): (r: string)
    ensures req.None? || req.value.message.None? ==> r == ""
    ensures req.Some? && req.value.message.Some? ==> |r| <= |req.value.message.value|
    ensures forall i | 0 <= i < |r| :: Kept(r[i], isLetterOrNumber)
  {
    match req
    case None => ""
    case Some(q) =>
      match q.message
      case None => ""
      case Some(m) => FilterKept(Normalize(m), isLetterOrNumber)
  }

  /** Text that neither starts nor ends with a trimmable character neither starts
      nor ends with whitespace once collapsed. */
  lemma CollapseKeepsEnds(t: string)
    requires t == [] || (!IsTrimmable(t[0]) && !IsTrimmable(t[|t| - 1]))
    ensures var n := CollapseSpaces(t); n == [] || (!IsRegexSpace(n[0]) && !IsRegexSpace(n[|n| - 1]))
  {
    if t != [] {
      RegexSpaceIsTrimmable(t[0]);
      RegexSpaceIsTrimmable(t[|t| - 1]);
      CollapseKeepsLast(t);
    }
  }

  /** Whitespace runs are collapsed before the trimmed ends can reappear: the
      normalised text has no whitespace at either end and is collapsed. */
  lemma NormalizeShape(m: string)
    ensures Collapsed(Normalize(m))
    ensures var n := Normalize(m); n == [] || (!IsRegexSpace(n[0]) && !IsRegexSpace(n[|n| - 1]))
  {
    CollapseIsCollapsed(Trim(m));
    CollapseKeepsEnds(Trim(m));
  }

  /** The only whitespace character a listened message can contain is U+0020. */
  lemma ListenOnlyPlainSpaces(req: Option<ChatRequest>, isLetterOrNumber: char -> bool)
    ensures var r := Listen(req, isLetterOrNumber);
      forall i | 0 <= i < |r| :: IsRegexSpace(r[i]) ==> r[i] == ' '
  {
    if req.Some? && req.value.message.Some? {
      var n := Normalize(req.value.message.value);
      var r := FilterKept(n, isLetterOrNumber);
      FilterKeptCounts(n, isLetterOrNumber);
      forall i | 0 <= i < |r| && IsRegexSpace(r[i])
        ensures r[i] == ' '
      {
        assert r[i] in multiset(r);
        assert r[i] in multiset(n);
        var j :| 0 <= j < |n| && n[j] == r[i];
        NormalizeShape(req.value.message.value);
      }
    }
  }

  /** The deletions of line 24 can bring two spaces together again. */
  lemma ListenCanExposeDoubleSpace(isLetterOrNumber: char -> bool)
    requires isLetterOrNumber('a') && isLetterOrNumber('b') && !isLetterOrNumber(1 as char)
    ensures Listen(Some(ChatRequest(Some(['a', ' ', 1 as char, ' ', 'b']), None, None)), isLetterOrNumber) == "a  b"
  {
    var m := ['a', ' ', 1 as char, ' ', 'b'];
    var request := ChatRequest(Some(m), None, None);
    assert Listen(Some(request), isLetterOrNumber) == FilterKept(Normalize(m), isLetterOrNumber);
    ExampleIsNormal(m);
    ExampleFiltered(m, isLetterOrNumber);
  }

  lemma ExampleIsNormal(m: string)
    requires m == ['a', ' ', 1 as char, ' ', 'b']
    ensures Normalize(m) == m
  {
    ExampleTrimmed(m);
    ExampleCollapsed(m);
    CollapseFixpoint(m);
  }

  lemma ExampleTrimmed(m: string)
    requires m == ['a', ' ', 1 as char, ' ', 'b']
    ensures Trim(m) == m
  {
    assert TrimStart(m) == m;
    assert TrimEnd(m) == m;
  }

  lemma ExampleCollapsed(m: string)
    requires m == ['a', ' ', 1 as char, ' ', 'b']
    ensures Collapsed(m)
  {
  }

  lemma ExampleFiltered(m: string, p: char -> bool)
    requires m == ['a', ' ', 1 as char, ' ', 'b']
    requires p('a') && p('b') && !p(1 as char)
    ensures FilterKept(m, p) == "a  b"
  {
    var s4 := ['b'];
    var s3 := [' '] + s4;
    var s2 := [1 as char] + s3;
    var s1 := [' '] + s2;
    assert m == ['a'] + s1;
    assert FilterKept(s4, p) == "b" by {
      assert s4[1..] == [];
    }
    assert FilterKept(s3, p) == " b" by {
      assert s3[1..] == s4;
    }
    assert FilterKept(s2, p) == " b" by {
      assert s2[1..] == s3;
    }
    assert FilterKept(s1, p) == "  b" by {
      assert s1[1..] == s2;
    }
    assert FilterKept(m, p) == "a  b" by {
      assert m[1..] == s1;
    }
  }
}

=== FILE: simple_solver.dfy ===
/** The resolver (SimpleSolver): turns an analysis into a solution, dispatching on
    the intent. The weather service, the clock, the random phrase choice and the
    generated fallback text are inputs of the model (`World`). */
module SimpleSolver {
  import opened Wrappers
  import opened Text
  import opened Lasa
  import WeatherService

  const GreetingResponses: seq<string> := [
    "안녕하세요! 무엇을 도와드릴까요?",
    "반갑습니다! 오늘은 어떤 도움이 필요하신가요?",
    "안녕하세요! 좋은 하루 되고 계신가요?",
    "어서오세요! 무엇을 알려드릴까요?",
    "반가워요! 무엇이든 물어보세요."
  ]

  const ByeResponses: seq<string> := [
    "안녕히 가세요! 좋은 하루 되세요!",
    "다음에 또 봐요! 좋은 시간 되세요.",
    "이용해 주셔서 감사합니다. 또 필요하시면 언제든 불러주세요!",
    "좋은 하루 보내세요! 다음에 또 만나요.",
    "안녕히 계세요! 또 뵙겠습니다."
  ]

  const WeatherDescriptions: map<string, string> := map[
    "맑음" := "화창한 날씨입니다! 야외 활동하기 좋은 날이에요.",
    "구름많음" := "구름이 조금 있지만 나쁘지 않은 날씨입니다.",
    "흐림" := "하늘이 흐리네요. 우산을 챙기는 것이 좋을 수 있어요.",
    "비" := "비가 내리고 있어요. 외출 시 우산을 꼭 챙기세요!",
    "소나기" := "소나기가 내리고 있어요. 잠시 실내에서 대기하는 것이 좋겠습니다.",
    "눈" := "눈이 내리고 있어요. 미끄러울 수 있으니 조심하세요!",
    "안개" := "안개가 끼었네요. 운전 시 특히 주의하세요.",
    "천둥번개" := "천둥번개가 치고 있어요. 야외 활동은 위험할 수 있습니다."
  ]

  const ResponseTemplates: map<string, string> := map[
    "greeting" := "%s",
    "weather" := "%s의 현재 날씨는 %s입니다. %s",
    "temperature" := "%s의 현재 기온은 %d°C입니다. %s",
    "time" := "현재 시간은 %s입니다.",
    "bye" := "%s",
    "thanks" := "천만에요! 더 필요한 것이 있으면 말씀해주세요.",
    "help" := "저는 날씨, 시간 정보를 알려드리거나 간단한 대화가 가능해요. '서울 날씨 어때?'나 '지금 몇시야?' 같은 질문을 해보세요.",
    "error" := "%s",
    "fallback" := "%s"
  ]

  /** The groups of `LOCATION_KEYWORDS`: metropolitan cities, their long forms,
      provinces, their long forms, and other cities (광주 and 파주 appear twice). */
  const MetroKeywords: seq<string> := ["서울", "부산", "인천", "대구", "광주", "대전", "울산", "세종"]
  const MetroLongForms: seq<string> := ["서울특별시", "부산광역시", "인천광역시", "대구광역시", "광주광역시", "대전광역시", "울산광역시", "세종특별자치시"]
  const ProvinceKeywords: seq<string> := ["경기", "강원", "충북", "충남", "전북", "전남", "경북", "경남", "제주"]
  const ProvinceLongForms: seq<string> := ["경기도", "강원도", "충청북도", "충청남도", "전라북도", "전라남도", "경상북도", "경상남도", "제주도", "제주특별자치도"]
  const CityKeywords: seq<string> := [
    "수원", "성남", "안양", "안산", "고양", "용인", "청주", "천안", "전주", "포항", "창원",
    "김해", "평택", "강릉", "원주", "춘천", "속초", "여수", "순천", "목포", "경주", "구미",
    "거제", "양산", "진주", "파주", "의정부", "남양주", "화성", "시흥", "광명", "하남", "군포",
    "오산", "이천", "안성", "광주", "파주", "김포", "구리", "여주", "양주", "동두천", "과천",
    "의왕", "포천", "양평", "동해", "태백", "삼척", "정선", "홍천", "횡성", "영월", "평창",
    "정읍", "남원", "김제", "익산", "완주", "진안", "무주", "장수", "임실", "순창", "고창", "부안",
    "나주", "광양", "담양", "곡성", "구례", "고흥", "보성", "화순", "장흥", "강진", "해남",
    "영암", "무안", "함평", "영광", "장성", "완도", "진도", "신안",
    "영덕", "울진", "문경", "예천", "안동", "영양", "영주", "봉화", "울릉", "의성", "청송", "영천",
    "경산", "청도", "고령", "성주", "칠곡", "김천", "군위", "사천", "밀양", "의령", "함안",
    "창녕", "고성", "남해", "하동", "산청", "함양", "거창", "합천", "통영"
  ]
  /** `LOCATION_KEYWORDS`, in declaration order. */
  const LocationKeywords: seq<string> := MetroKeywords + MetroLongForms + ProvinceKeywords + ProvinceLongForms + CityKeywords

  /** Where the entries the lemmas below rely on sit in the list. */
  lemma KeywordPositions()
    ensures LocationKeywords[0] == WeatherService.Seoul && LocationKeywords[1] == "부산" && LocationKeywords[24] == "제주"
    ensures forall k | 0 <= k <= 24 :: LocationKeywords[k] != "제주도" && LocationKeywords[k] != "제주특별자치도"
  {
    assert |MetroKeywords| == 8 && |MetroLongForms| == 8 && |ProvinceKeywords| == 9;
  }

  const SystemErrorText: string := "시스템 오류가 발생했습니다. 잠시 후 다시 시도해주세요."
  const DefaultFallbackText: string := "잘 이해하지 못했습니다. 도움이 필요하시면 '도움말'이라고 입력해주세요."

  /** What the resolver consults outside the analysis: the weather service's
      answers per location, the formatted clock (for "weather" and for "time"),
      the random index into the phrase lists, and the text the generative service
      produced within its five seconds (None for null, timeout or failure). */
  datatype World = World(
    weatherOf: string -> string,
    temperatureOf: string -> Int32,
    dateTime: string,
    clock: string,
    pick: nat,
    generated: Option<string>)

  // ---------------------------------------------------------------------------
  // Locations

  /** `extractLocationFromMessage`: the first keyword, in declaration order, that
      the message contains; "서울" for a null or empty message or when none is. */
  function ExtractLocationFromMessage(message: Option<string>): (loc: string)
    ensures loc in LocationKeywords
    ensures message.None? || message.value == [] ==> loc == WeatherService.Seoul
    ensures message.Some? && loc != WeatherService.Seoul ==> Contains(message.value, loc)
  {
    KeywordPositions();
    if message.None? || message.value == [] then WeatherService.Seoul
    else match FirstContained(LocationKeywords, message.value)
      case Some(i) => LocationKeywords[i]
      case None => WeatherService.Seoul
  }

  /** A message that names a keyword gets the earliest named keyword in the list. */
  lemma ExtractFindsEarliestKeyword(message: string, i: nat)
    requires message != [] && i < |LocationKeywords| && Contains(message, LocationKeywords[i])
    requires forall j | 0 <= j < i :: !Contains(message, LocationKeywords[j])
    ensures ExtractLocationFromMessage(Some(message)) == LocationKeywords[i]
  {
    var r := FirstContained(LocationKeywords, message);
    if r.Some? && r.value > i {
      assert false;
    }
  }

  /** A keyword that contains an earlier keyword is never the answer: the
      earlier one is found first. */
  lemma ShadowedKeyword(message: Option<string>, j: nat, long: string)
    requires j < |LocationKeywords| && Contains(long, LocationKeywords[j]) && long != WeatherService.Seoul
    requires forall k | 0 <= k <= j :: LocationKeywords[k] != long
    ensures ExtractLocationFromMessage(message) != long
  {
    if message.Some? && message.value != [] {
      var m := message.value;
      match FirstContained(LocationKeywords, m)
      case Some(i) =>
        if LocationKeywords[i] == long {
          ContainsTransitive(m, long, LocationKeywords[j]);
          assert false;
        }
      case None =>
    }
  }

  /** "서울특별시" is never the answer: "서울" comes first in the list and is
      contained in it. */
  lemma SeoulLongFormIsShadowed(message: Option<string>)
    ensures ExtractLocationFromMessage(message) != "서울특별시"
  {
    KeywordPositions();
    assert OccursAt("서울특별시", LocationKeywords[0], 0);
    ShadowedKeyword(message, 0, "서울특별시");
  }

  /** "부산광역시" is never the answer: "부산" comes second in the list and is
      contained in it. */
  lemma BusanLongFormIsShadowed(message: Option<string>)
    ensures ExtractLocationFromMessage(message) != "부산광역시"
  {
    KeywordPositions();
    assert OccursAt("부산광역시", LocationKeywords[1], 0);
    ShadowedKeyword(message, 1, "부산광역시");
  }

  /** "제주도" and "제주특별자치도" are never the answer: "제주" comes earlier in
      the list and is contained in both. */
  lemma JejuLongFormsAreShadowed(message: Option<string>)
    ensures ExtractLocationFromMessage(message) != "제주도"
    ensures ExtractLocationFromMessage(message) != "제주특별자치도"
  {
    KeywordPositions();
    assert OccursAt("제주도", LocationKeywords[24], 0);
    ShadowedKeyword(message, 24, "제주도");
    assert OccursAt("제주특별자치도", LocationKeywords[24], 0);
    ShadowedKeyword(message, 24, "제주특별자치도");
  }

  /** The location for "weather" and "temperature": a non-empty `location`
      entity as it is, "서울" for an empty one, and otherwise the keyword scan of
      the original message. */
  function ResolveLocation(entities: Option<map<string, string>>, message: Option<string>): (loc: string)
    ensures entities.Some? && "location" in entities.value && entities.value["location"] != [] ==>
      loc == entities.value["location"]
    ensures entities.Some? && "location" in entities.value && entities.value["location"] == [] ==>
      loc == WeatherService.Seoul
    ensures entities.None? || "location" !in entities.value ==> loc == ExtractLocationFromMessage(message)
    ensures entities.None? || "location" !in entities.value ==> loc in LocationKeywords
  {
    if entities.Some? && "location" in entities.value then
      var extracted := entities.value["location"];
      if extracted != [] then extracted else WeatherService.Seoul
    else ExtractLocationFromMessage(message)
  }

  /** A present but empty entity never falls back on the message. */
  lemma EmptyEntityIgnoresMessage(entities: map<string, string>, m1: Option<string>, m2: Option<string>)
    requires "location" in entities
    ensures ResolveLocation(Some(entities), m1) == ResolveLocation(Some(entities), m2)
  {
  }

  // ---------------------------------------------------------------------------
  // Descriptions

  /** `WEATHER_DESCRIPTIONS.getOrDefault(weather, "오늘은 " + weather + " 상태입니다.")`. */
  function WeatherDetail(weather: string): (d: string)
    ensures weather in WeatherDescriptions ==> d == WeatherDescriptions[weather]
    ensures weather !in WeatherDescriptions ==> StartsWith(d, "오늘은 ") && EndsWith(d, " 상태입니다.")
  {
    if weather in WeatherDescriptions then WeatherDescriptions[weather]
    else "오늘은 " + weather + " 상태입니다."
  }

  /** The generic detail quotes the weather it was given. */
  lemma GenericDetailQuotesWeather(weather: string)
    requires weather !in WeatherDescriptions
    ensures Contains(WeatherDetail(weather), weather)
  {
    assert OccursAt(WeatherDetail(weather), weather, |"오늘은 "|);
  }

  /** The failure text of the weather service gets the generic detail. */
  lemma ErrorWeatherGetsGenericDetail()
    ensures WeatherDetail(WeatherService.WeatherErrorText) == "오늘은 " + WeatherService.WeatherErrorText + " 상태입니다."
  {
  }

  /** The temperature bands: ≤ 0, 1–10, 11–20, 21–28 and above 28. */
  function TemperatureBand(t: int): (b: nat)
    ensures b < 5
  {
    if t <= 0 then 0 else if t <= 10 then 1 else if t <= 20 then 2 else if t <= 28 then 3 else 4
  }

  const BandDescriptions: seq<string> := [
    "매우 춥습니다. 따뜻하게 입으세요!",
    "쌀쌀합니다. 겉옷을 챙기세요.",
    "선선한 날씨입니다.",
    "따뜻한 날씨입니다.",
    "더운 날씨입니다. 시원하게 지내세요!"
  ]

  /** The description of a temperature: the text of its band. */
  function TempDescription(t: int): (d: string)
    ensures d in BandDescriptions
  {
    BandDescriptions[TemperatureBand(t)]
  }

  /** The bands are ordered: a warmer temperature is never in a colder band. */
  lemma BandsAreMonotone(t1: int, t2: int)
    requires t1 <= t2
    ensures TemperatureBand(t1) <= TemperatureBand(t2)
  {
  }

  /** Two temperatures share a description exactly when they share a band, and
      the bands are the integer ranges the resolver tests. */
  lemma DescriptionsPartitionTemperatures(t1: int, t2: int)
    ensures TempDescription(t1) == TempDescription(t2) <==> TemperatureBand(t1) == TemperatureBand(t2)
    ensures TemperatureBand(t1) == 0 <==> t1 <= 0
    ensures TemperatureBand(t1) == 1 <==> 1 <= t1 <= 10
    ensures TemperatureBand(t1) == 2 <==> 11 <= t1 <= 20
    ensures TemperatureBand(t1) == 3 <==> 21 <= t1 <= 28
    ensures TemperatureBand(t1) == 4 <==> 29 <= t1
  {
  }

  // ---------------------------------------------------------------------------
  // Results

  /** `RESPONSE_TEMPLATES.getOrDefault(intent, RESPONSE_TEMPLATES.get("fallback"))`. */
  function Template(intent: string): (t: string)
    ensures intent in ResponseTemplates ==> t == ResponseTemplates[intent]
    ensures intent !in ResponseTemplates ==> t == "%s"
  {
    if intent in ResponseTemplates then ResponseTemplates[intent] else ResponseTemplates["fallback"]
  }

  /** `createSuccessResult(intent)`. */
  function SuccessResult(intent: string): (s: SolutionResult)
    ensures IsSuccess(s) && s.originalIntent == Some(intent) && s.responseTemplate == Some(Template(intent))
    ensures s.data == Some(map[])
  {
    NewSolution("success", intent, Template(intent))
  }

  /** `createErrorResult()`. */
  function ErrorResult(): (s: SolutionResult)
    ensures !IsSuccess(s) && s.status == Some("error") && s.originalIntent == Some("error")
    ensures s.responseTemplate == Some("%s")
    ensures s.data == Some(map["fallbackResponse" := Str(SystemErrorText)])
  {
    var s := AddData(NewSolution("error", "error", "%s"), "fallbackResponse", Str(SystemErrorText));
    assert s.data.value == map["fallbackResponse" := Str(SystemErrorText)];
    s
  }

  /** `createFallbackResult()`. */
  function FallbackResult(): (s: SolutionResult)
    ensures IsSuccess(s) && s.originalIntent == Some("fallback")
    ensures s.responseTemplate == Some("%s")
    ensures s.data == Some(map["fallbackResponse" := Str(DefaultFallbackText)])
  {
    var s := AddData(NewSolution("success", "fallback", "%s"), "fallbackResponse", Str(DefaultFallbackText));
    assert s.data.value == map["fallbackResponse" := Str(DefaultFallbackText)];
    s
  }

  /** `enrichWithOpenAIResponse`: a non-empty generated text replaces the
      `fallbackResponse`; an empty, missing or late one changes nothing. */
  function Enrich(s: SolutionResult, generated: Option<string>): (s': SolutionResult)
    ensures generated.None? || generated.value == [] ==> s' == s
    ensures generated.Some? && generated.value != [] ==>
      s'.data.Some? && s'.data.value == DataOf(s)["fallbackResponse" := Str(generated.value)]
    ensures s'.status == s.status && s'.originalIntent == s.originalIntent && s'.responseTemplate == s.responseTemplate
  {
    if generated.Some? && generated.value != [] then
      var s' := AddData(s, "fallbackResponse", Str(generated.value));
      assert s'.data.value == DataOf(s)["fallbackResponse" := Str(generated.value)];
      s'
    else s
  }

  /** Enriching twice with the same text is enriching once. */
  lemma EnrichIdempotent(s: SolutionResult, generated: Option<string>)
    ensures Enrich(Enrich(s, generated), generated) == Enrich(s, generated)
  {
    if generated.Some? && generated.value != [] {
      AddDataOverwrites(s, "fallbackResponse", Str(generated.value), Str(generated.value));
    }
  }

  // ---------------------------------------------------------------------------
  // solve

  /** The intents `solve` has a case for. */
  const HandledIntents: set<string> := {"greeting", "weather", "temperature", "time", "bye", "thanks", "help", "error"}

  /** The intent a solution reports: the analysed one when handled, "fallback" otherwise. */
  function ReportedIntent(intent: string): (i: string)
    ensures i in ResponseTemplates
  {
    if intent in HandledIntents then intent else "fallback"
  }

  /** The data keys each reported intent's solution carries. */
  function DataKeys(intent: string): set<string> {
    if intent == "greeting" then {"greeting"}
    else if intent == "weather" then {"location", "weather", "weatherDetail", "dateTime"}
    else if intent == "temperature" then {"location", "temperature", "tempDescription"}
    else if intent == "time" then {"time"}
    else if intent == "bye" then {"bye"}
    else if intent == "thanks" || intent == "help" then {}
    else {"fallbackResponse"}
  }

  /** A successful solution that stores one phrase under `key`. */
  function WithPhrase(intent: string, key: string, text: string): (s: SolutionResult)
    ensures IsSuccess(s) && s.originalIntent == Some(intent) && s.responseTemplate == Some(Template(intent))
    ensures s.data == Some(map[key := Str(text)])
  {
    var s := AddData(SuccessResult(intent), key, Str(text));
    assert s.data.value == map[key := Str(text)];
    s
  }

  /** The "weather" case: the resolved location, the service's weather for it,
      the weather's detail and the clock. */
  function WeatherSolution(a: AnalysisResult, w: World): (s: SolutionResult)
    ensures IsSuccess(s) && s.originalIntent == Some("weather") && s.responseTemplate == Some(Template("weather"))
    ensures s.data.Some? && s.data.value.Keys == DataKeys("weather")
  {
    var location := ResolveLocation(a.entities, a.originalMessage);
    var weather := w.weatherOf(location);
    SuccessResult("weather").(data := Some(map[
      "location" := Str(location), "weather" := Str(weather),
      "weatherDetail" := Str(WeatherDetail(weather)), "dateTime" := Str(w.dateTime)]))
  }

  /** The "temperature" case: the resolved location, the service's temperature
      for it and the description of its band. */
  function TemperatureSolution(a: AnalysisResult, w: World): (s: SolutionResult)
    ensures IsSuccess(s) && s.originalIntent == Some("temperature") && s.responseTemplate == Some(Template("temperature"))
    ensures s.data.Some? && s.data.value.Keys == DataKeys("temperature")
  {
    var location := ResolveLocation(a.entities, a.originalMessage);
    var temp := w.temperatureOf(location);
    SuccessResult("temperature").(data := Some(map[
      "location" := Str(location), "temperature" := Int(temp), "tempDescription" := Str(TempDescription(temp))]))
  }

  /** The handled intents all have templates. */
  lemma HandledIntentsHaveTemplates(intent: string)
    requires intent in HandledIntents
    ensures intent in ResponseTemplates && Template(intent) == ResponseTemplates[intent]
  {
  }

  /** The cases of `solve` for the handled intents other than "error". */
  function SolveHandled(a: AnalysisResult, w: World): (s: SolutionResult)
    requires a.intent in HandledIntents && a.intent != "error"
    requires w.pick < |GreetingResponses| && w.pick < |ByeResponses|
    ensures IsSuccess(s) && s.originalIntent == Some(a.intent)
    ensures s.responseTemplate == Some(ResponseTemplates[a.intent])
    ensures s.data.Some? && s.data.value.Keys == DataKeys(a.intent)
  {
    var intent := a.intent;
    HandledIntentsHaveTemplates(intent);
    if intent == "greeting" then WithPhrase(intent, "greeting", GreetingResponses[w.pick])
    else if intent == "weather" then WeatherSolution(a, w)
    else if intent == "temperature" then TemperatureSolution(a, w)
    else if intent == "time" then WithPhrase(intent, "time", w.clock)
    else if intent == "bye" then WithPhrase(intent, "bye", ByeResponses[w.pick])
    else SuccessResult(intent)
  }

  /** The switch of `solve` on a present analysis. */
  function SolveAnalysis(a: AnalysisResult, w: World): (s: SolutionResult)
    requires w.pick < |GreetingResponses| && w.pick < |ByeResponses|
    ensures IsSuccess(s) <==> a.intent != "error"
    ensures !IsSuccess(s) ==> s.status == Some("error")
    ensures s.originalIntent == Some(ReportedIntent(a.intent))
    ensures s.responseTemplate == Some(ResponseTemplates[ReportedIntent(a.intent)])
    ensures s.data.Some? && s.data.value.Keys == DataKeys(ReportedIntent(a.intent))
  {
    if a.intent in HandledIntents && a.intent != "error" then SolveHandled(a, w)
    else if a.intent == "error" then Enrich(ErrorResult(), w.generated)
    else Enrich(FallbackResult(), w.generated)
  }

  /** `solve(result)`: the error result for a null analysis, otherwise one case
      per handled intent and the (enriched) fallback result for every other one. */
  function Solve(result: Option<AnalysisResult>, w: World): (s: SolutionResult)
    requires w.pick < |GreetingResponses| && w.pick < |ByeResponses|
    ensures result.None? ==> s == ErrorResult()
    ensures IsSuccess(s) <==> result.Some? && result.value.intent != "error"
    ensures !IsSuccess(s) ==> s.status == Some("error")
    ensures s.originalIntent == Some(if result.None? then "error" else ReportedIntent(result.value.intent))
    ensures s.responseTemplate == Some(ResponseTemplates[s.originalIntent.value])
    ensures s.data.Some? && s.data.value.Keys == DataKeys(s.originalIntent.value)
  {
    match result
    case None => ErrorResult()
    case Some(a) => SolveAnalysis(a, w)
  }

  /** The weather solution reports the resolved location, the service's weather
      for exactly that location, its detail and the clock. */
  lemma WeatherData(a: AnalysisResult, w: World)
    requires a.intent == "weather" && w.pick < |GreetingResponses|
    ensures var s := Solve(Some(a), w);
      var location := ResolveLocation(a.entities, a.originalMessage);
      s.data.value["location"] == Str(location)
      && s.data.value["weather"] == Str(w.weatherOf(location))
      && s.data.value["weatherDetail"] == Str(WeatherDetail(w.weatherOf(location)))
      && s.data.value["dateTime"] == Str(w.dateTime)
  {
  }

  /** The temperature solution reports the service's temperature as an integer
      and the description of its band. */
  lemma TemperatureData(a: AnalysisResult, w: World)
    requires a.intent == "temperature" && w.pick < |GreetingResponses|
    ensures var s := Solve(Some(a), w);
      var location := ResolveLocation(a.entities, a.originalMessage);
      s.data.value["location"] == Str(location)
      && s.data.value["temperature"] == Int(w.temperatureOf(location))
      && s.data.value["tempDescription"] == Str(TempDescription(w.temperatureOf(location)))
  {
  }

  /** Greetings and farewells carry one phrase of their list. */
  lemma PhraseData(a: AnalysisResult, w: World)
    requires w.pick < |GreetingResponses|
    ensures a.intent == "greeting" ==> Solve(Some(a), w).data.value["greeting"].Str? && Solve(Some(a), w).data.value["greeting"].s in GreetingResponses
    ensures a.intent == "bye" ==> Solve(Some(a), w).data.value["bye"].Str? && Solve(Some(a), w).data.value["bye"].s in ByeResponses
  {
  }

  /** An unrecognised intent answers the generated text when there is one, and
      the default fallback text otherwise; the "error" intent likewise with the
      system-error text. */
  lemma FallbackData(a: AnalysisResult, w: World)
    requires a.intent !in HandledIntents || a.intent == "error"
    requires w.pick < |GreetingResponses|
    ensures var s := Solve(Some(a), w);
      var default := if a.intent == "error" then SystemErrorText else DefaultFallbackText;
      s.data.value["fallbackResponse"] ==
        Str(if w.generated.Some? && w.generated.value != [] then w.generated.value else default)
  {
  }
}

=== FILE: text.dfy ===
/** The handful of `java.lang.String` operations the chatbot relies on, over
    `string` (a sequence of Unicode scalar values). */
module Text {
  import opened Wrappers

  // ---------------------------------------------------------------------------
  // trim / isBlank

  /** Characters removed at either end by `String.trim`: every code point up to U+0020. */
  predicate IsTrimmable(c: char) {
    c <= ' '
  }

  /** The suffix of `s` that starts at its first non-trimmable character. */
  function TrimStart(s: string): (r: string)
    ensures |r| <= |s| && r == s[|s| - |r|..]
    ensures r == [] || !IsTrimmable(r[0])
    ensures forall i | 0 <= i < |s| - |r| :: IsTrimmable(s[i])
  {
    if s == [] || !IsTrimmable(s[0]) then s else TrimStart(s[1..])
  }

  /** The prefix of `s` that ends at its last non-trimmable character. */
  function TrimEnd(s: string): (r: string)
    ensures |r| <= |s| && r == s[..|r|]
    ensures r == [] || !IsTrimmable(r[|r| - 1])
    ensures forall i | |r| <= i < |s| :: IsTrimmable(s[i])
  {
    if s == [] || !IsTrimmable(s[|s| - 1]) then s else TrimEnd(s[..|s| - 1])
  }

  /** `String.trim`: strips trimmable characters from both ends and nothing else. */
  function Trim(s: string): (r: string)
    ensures |r| <= |s|
    ensures r == [] || (!IsTrimmable(r[0]) && !IsTrimmable(r[|r| - 1]))
    ensures r == [] <==> forall i | 0 <= i < |s| :: IsTrimmable(s[i])
  {
    var t := TrimStart(s);
    var r := TrimEnd(t);
    assert r == [] ==> t == [];
    r
  }

  /** The trimmed string is a substring of the original one. */
  lemma TrimContained(s: string)
    ensures Contains(s, Trim(s))
  {
    var t := TrimStart(s);
    var r := TrimEnd(t);
    SliceOfSuffix(s, |s| - |t|, |r|);
    assert OccursAt(s, r, |s| - |t|);
  }

  /** A prefix of a suffix is a slice. */
  lemma SliceOfSuffix(s: string, k: nat, n: nat)
    requires k + n <= |s|
    ensures s[k..][..n] == s[k..k + n]
  {
  }

  /** `s.trim().isEmpty()`. */
  predicate IsBlank(s: string) {
    Trim(s) == []
  }

  lemma TrimIdempotent(s: string)
    ensures Trim(Trim(s)) == Trim(s)
  {
    var r := Trim(s);
    assert TrimStart(r) == r;
    assert TrimEnd(r) == r;
  }

  // ---------------------------------------------------------------------------
  // toLowerCase (ASCII letters only)

  function LowerChar(c: char): char {
    if 'A' <= c <= 'Z' then (c as int + 32) as char else c
  }

  /** `String.toLowerCase` restricted to the ASCII letters A-Z. */
  function ToLower(s: string): (r: string)
    ensures |r| == |s|
    ensures forall i | 0 <= i < |s| :: r[i] == LowerChar(s[i])
  {
    seq(|s|, i requires 0 <= i < |s| => LowerChar(s[i]))
  }

  lemma ToLowerIdempotent(s: string)
    ensures ToLower(ToLower(s)) == ToLower(s)
  {
  }

  /** A string without ASCII capitals is its own lower-case form. */
  lemma ToLowerNoCapitals(s: string)
    requires forall i | 0 <= i < |s| :: !('A' <= s[i] <= 'Z')
    ensures ToLower(s) == s
  {
  }

  // ---------------------------------------------------------------------------
  // contains / startsWith / endsWith

  predicate OccursAt(s: string, w: string, i: int) {
    0 <= i && i + |w| <= |s| && s[i..i + |w|] == w
  }

  /** `s.contains(w)`; every string contains the empty string. */
  predicate Contains(s: string, w: string) {
    exists i | 0 <= i <= |s| :: OccursAt(s, w, i)
  }

  predicate StartsWith(s: string, p: string) {
    |p| <= |s| && s[..|p|] == p
  }

  predicate EndsWith(s: string, p: string) {
    |p| <= |s| && s[|s| - |p|..] == p
  }

  /** A word that contains `w` is contained wherever it occurs. */
  lemma ContainsTransitive(s: string, v: string, w: string)
    requires Contains(s, v) && Contains(v, w)
    ensures Contains(s, w)
  {
    var i :| 0 <= i <= |s| && OccursAt(s, v, i);
    var j :| 0 <= j <= |v| && OccursAt(v, w, j);
    assert forall k | 0 <= k < |w| :: s[i + j + k] == v[j + k] == w[k] by {
      forall k | 0 <= k < |w|
        ensures s[i + j + k] == v[j + k] == w[k]
      {
        assert s[i..i + |v|][j + k] == v[j + k];
        assert v[j..j + |w|][k] == w[k];
      }
    }
    assert s[i + j..i + j + |w|] == w;
    assert OccursAt(s, w, i + j);
  }

  /** A prefix of a word is contained in it. */
  lemma PrefixContained(v: string, w: string)
    requires StartsWith(v, w)
    ensures Contains(v, w)
  {
    assert OccursAt(v, w, 0);
  }

  // ---------------------------------------------------------------------------
  // first keyword contained in a message

  function FirstContainedFrom(ws: seq<string>, s: string, i: nat): (r: Option<nat>)
    requires i <= |ws|
    ensures r.Some? ==> i <= r.value < |ws| && Contains(s, ws[r.value])
    ensures r.Some? ==> forall j | i <= j < r.value :: !Contains(s, ws[j])
    ensures r.None? ==> forall j | i <= j < |ws| :: !Contains(s, ws[j])
    decreases |ws| - i
  {
    if i == |ws| then None
    else if Contains(s, ws[i]) then Some(i)
    else FirstContainedFrom(ws, s, i + 1)
  }

  /** Index of the first word of `ws`, in sequence order, that `s` contains. */
  function FirstContained(ws: seq<string>, s: string): (r: Option<nat>)
    ensures r.Some? ==> r.value < |ws| && Contains(s, ws[r.value])
    ensures r.Some? ==> forall j | 0 <= j < r.value :: !Contains(s, ws[j])
    ensures r.None? ==> forall j | 0 <= j < |ws| :: !Contains(s, ws[j])
  {
    FirstContainedFrom(ws, s, 0)
  }

  /** A word that contains an earlier word of the list is never the first match. */
  lemma FirstContainedShadowed(ws: seq<string>, s: string, i: nat, j: nat)
    requires i < j < |ws| && Contains(ws[j], ws[i])
    ensures FirstContained(ws, s) != Some(j)
  {
    var r := FirstContained(ws, s);
    if r == Some(j) {
      ContainsTransitive(s, ws[j], ws[i]);
      assert false;
    }
  }

  // ---------------------------------------------------------------------------
  // String.join and its inverse

  function Join(xs: seq<string>, sep: string): string {
    if xs == [] then ""
    else if |xs| == 1 then xs[0]
    else xs[0] + sep + Join(xs[1..], sep)
  }

  function FirstIndex(s: string, c: char): (k: nat)
    requires c in s
    ensures k < |s| && s[k] == c && c !in s[..k]
  {
    if s[0] == c then 0 else 1 + FirstIndex(s[1..], c)
  }

  /** Splits on every occurrence of `c`, keeping empty pieces. */
  function Split(s: string, c: char): (r: seq<string>)
    ensures |r| >= 1
    decreases |s|
  {
    if c !in s then [s]
    else
      var k := FirstIndex(s, c);
      [s[..k]] + Split(s[k + 1..], c)
  }

  lemma FirstIndexAfter(a: string, c: char, b: string)
    requires c !in a
    ensures FirstIndex(a + [c] + b, c) == |a|
  {
    var s := a + [c] + b;
    assert s[..|a|] == a;
    assert s[|a|] == c;
  }

  /** Joining pieces that do not contain the separator and splitting again gives them back. */
  lemma {:induction false} SplitJoin(xs: seq<string>, c: char)
    requires xs != []
    requires forall i | 0 <= i < |xs| :: c !in xs[i]
    ensures Split(Join(xs, [c]), c) == xs
  {
    if |xs| == 1 {
    } else {
      var rest := Join(xs[1..], [c]);
      var s := xs[0] + [c] + rest;
      assert Join(xs, [c]) == s;
      FirstIndexAfter(xs[0], c, rest);
      assert c in s by { assert s[|xs[0]|] == c; }
      assert s[..|xs[0]|] == xs[0];
      assert s[|xs[0]| + 1..] == rest;
      SplitJoin(xs[1..], c);
      assert Split(s, c) == [xs[0]] + xs[1..];
    }
  }

  // ---------------------------------------------------------------------------
  // Integer.toString / Integer.parseInt

  const IntMin: int := -0x8000_0000
  const IntMax: int := 0x7fff_ffff

  /** Java's 32-bit `int`. */
  type Int32 = i: int | IntMin <= i <= IntMax

  predicate IsDigit(c: char) {
    '0' <= c <= '9'
  }

  predicate AllDigits(s: string) {
    forall i | 0 <= i < |s| :: IsDigit(s[i])
  }

  function DigitChar(d: nat): (c: char)
    requires d < 10
    ensures IsDigit(c) && c as int - '0' as int == d
  {
    ('0' as int + d) as char
  }

  /** Decimal digits of `n`, most significant first, without leading zeros. */
  function NatToString(n: nat): (r: string)
    ensures |r| >= 1 && AllDigits(r)
    decreases n
  {
    if n < 10 then [DigitChar(n)] else NatToString(n / 10) + [DigitChar(n % 10)]
  }

  function DigitsValue(s: string): nat
    requires AllDigits(s)
  {
    if s == [] then 0 else DigitsValue(s[..|s| - 1]) * 10 + (s[|s| - 1] as int - '0' as int)
  }

  /** `Integer.toString` / `String.valueOf(int)`. */
  function IntToString(i: int): (r: string)
    ensures |r| >= 1
  {
    if i < 0 then "-" + NatToString(-i) else NatToString(i)
  }

  /** `Integer.parseInt` in radix 10 over ASCII digits: an optional sign, at least
      one digit `0`-`9`, and a value that fits in 32 bits. Anything else is None,
      including the other Unicode decimal digits that `Character.digit` would
      accept; the text this is applied to is always printed by `String.valueOf`. */
  function ParseInt(s: string): (r: Option<int>)
    ensures r.Some? ==> IntMin <= r.value <= IntMax
    ensures r.Some? ==> s != [] && (AllDigits(s) || s[0] == '-' || s[0] == '+')
  {
    if s == [] then None
    else
      var digits := if s[0] == '-' || s[0] == '+' then s[1..] else s;
      if digits == [] || !AllDigits(digits) then None
      else
        var n: int := DigitsValue(digits);
        var v := if s[0] == '-' then -n else n;
        if IntMin <= v <= IntMax then Some(v) else None
  }

  lemma {:induction false} DigitsValueOfNatToString(n: nat)
    ensures DigitsValue(NatToString(n)) == n
    decreases n
  {
    if n >= 10 {
      var s := NatToString(n);
      var p := NatToString(n / 10);
      assert s == p + [DigitChar(n % 10)];
      assert s[..|s| - 1] == p;
      DigitsValueOfNatToString(n / 10);
    }
  }

  /** Every 32-bit integer survives printing and parsing. */
  lemma ParseIntToString(i: int)
    requires IntMin <= i <= IntMax
    ensures ParseInt(IntToString(i)) == Some(i)
  {
    var s := IntToString(i);
    if i < 0 {
      var d := NatToString(-i);
      assert s == "-" + d;
      assert s[0] == '-' && s[1..] == d;
      DigitsValueOfNatToString(-i);
      assert DigitsValue(d) == -i;
    } else {
      var d := NatToString(i);
      assert s == d;
      assert IsDigit(s[0]);
      DigitsValueOfNatToString(i);
    }
  }
}

=== FILE: weather_service.dfy ===
/** The pure part of WeatherService: API-key masking and validity, the test-mode
    weather and temperature, the translation of OpenWeatherMap descriptions, and
    the coordinate lookup up to the geocoding call. The clock (hour, month) and the
    answers of the HTTP calls are parameters. */
module WeatherService {
  import opened Wrappers
  import opened Text

  /** The placeholder key the test configuration uses. */
  const DummyApiKey: string := "dummy-api-key-for-tests"

  /** The city every unknown location falls back to. */
  const Seoul: string := "서울"

  /** What the translation answers for a description it does not know. */
  const UnknownWeather: string := "알 수 없음"

  /** What the weather lookup answers when the API call or its parsing fails. */
  const WeatherErrorText: string := "알 수 없음 (오류 발생)"

  // ---------------------------------------------------------------------------
  // API key

  /** `maskApiKey`: the first and the last four characters, or "***" for a
      missing or short key. */
  function MaskApiKey(key: Option<string>): (r: string)
    ensures key.None? || |key.value| < 8 ==> r == "***"
    ensures key.Some? && |key.value| >= 8 ==>
      |r| == 11 && r[..4] == key.value[..4] && r[4..7] == "..." && r[7..] == key.value[|key.value| - 4..]
  {
    if key.None? || |key.value| < 8 then "***"
    else key.value[..4] + "..." + key.value[|key.value| - 4..]
  }

  /** Keys that agree on their first and last four characters mask alike, so the
      mask reveals nothing of the middle. */
  lemma MaskShowsOnlyEnds(k1: string, k2: string)
    requires |k1| >= 8 && |k2| >= 8
    requires k1[..4] == k2[..4] && k1[|k1| - 4..] == k2[|k2| - 4..]
    ensures MaskApiKey(Some(k1)) == MaskApiKey(Some(k2))
  {
  }

  /** `hasValidApiKey` and the `isRealApiKey` tests: present, not blank, not the dummy. */
  predicate HasValidApiKey(key: Option<string>) {
    key.Some? && !IsBlank(key.value) && key.value != DummyApiKey
  }

  /** A key of whitespace alone is never valid. */
  lemma BlankKeyIsNotValid(k: string)
    requires forall i | 0 <= i < |k| :: IsTrimmable(k[i])
    ensures !HasValidApiKey(Some(k))
  {
  }

  /** The dummy key is compared untrimmed, so a padded dummy key counts as a real key. */
  lemma PaddedDummyKeyIsValid()
    ensures !HasValidApiKey(Some(DummyApiKey))
    ensures HasValidApiKey(Some(" " + DummyApiKey))
  {
    var k := " " + DummyApiKey;
    assert !IsTrimmable(k[1]);
  }

  // ---------------------------------------------------------------------------
  // Test mode

  /** Weather without a real key, by the hour of the local clock. */
  function TestModeWeather(hour: int): (r: string)
    ensures r == "맑음" || r == "구름많음" || r == "흐림"
  {
    if 6 <= hour < 12 then "맑음"
    else if 12 <= hour < 18 then "구름많음"
    else if 18 <= hour < 21 then "흐림"
    else "맑음"
  }

  /** Clear skies are reported exactly outside the afternoon and evening, 12:00-20:59. */
  lemma TestModeWeatherClear(hour: int)
    ensures TestModeWeather(hour) == "맑음" <==> hour < 12 || hour >= 21
  {
  }

  /** Temperature without a real key, by season (month) and by whether it is past noon. */
  function TestModeTemperature(month: int, hour: int): (r: int)
    ensures -3 <= r <= 30
  {
    if 3 <= month <= 5 then 15 + (if hour > 12 then 5 else 0)
    else if 6 <= month <= 8 then 25 + (if hour > 12 then 5 else 0)
    else if 9 <= month <= 11 then 15 + (if hour > 12 then 3 else -2)
    else 0 + (if hour > 12 then 5 else -3)
  }

  /** In every season the afternoon is warmer than the morning. */
  lemma AfternoonIsWarmer(month: int, morning: int, afternoon: int)
    requires morning <= 12 < afternoon
    ensures TestModeTemperature(month, afternoon) > TestModeTemperature(month, morning)
  {
  }

  /** Summer is the warmest season at every hour, winter the coldest. */
  lemma SummerWarmestWinterColdest(month: int, hour: int)
    ensures TestModeTemperature(1, hour) <= TestModeTemperature(month, hour) <= TestModeTemperature(7, hour)
  {
  }

  // ---------------------------------------------------------------------------
  // Description translation

  /** Clear sky and clouds. */
  const ClearAndCloudCodes: map<string, string> := map[
    "clear sky" := "맑음",
    "few clouds" := "구름 조금",
    "scattered clouds" := "구름 조금",
    "broken clouds" := "구름많음",
    "overcast clouds" := "흐림"
  ]

  /** Rain. */
  const RainCodes: map<string, string> := map[
    "light rain" := "약한 비",
    "moderate rain" := "비",
    "heavy intensity rain" := "강한 비",
    "very heavy rain" := "폭우",
    "extreme rain" := "폭우",
    "freezing rain" := "진눈깨비",
    "light intensity shower rain" := "소나기",
    "shower rain" := "소나기",
    "heavy intensity shower rain" := "강한 소나기",
    "ragged shower rain" := "소나기"
  ]

  /** Snow and sleet. */
  const SnowCodes: map<string, string> := map[
    "light snow" := "약한 눈",
    "snow" := "눈",
    "heavy snow" := "폭설",
    "sleet" := "진눈깨비",
    "light shower sleet" := "약한 진눈깨비",
    "shower sleet" := "진눈깨비",
    "light shower snow" := "약한 눈",
    "shower snow" := "눈",
    "heavy shower snow" := "폭설"
  ]

  /** Mist, haze, sand and dust. */
  const HazeCodes: map<string, string> := map[
    "mist" := "안개",
    "smoke" := "연무",
    "haze" := "연무",
    "sand/dust whirls" := "황사",
    "fog" := "안개",
    "sand" := "황사",
    "dust" := "황사"
  ]

  /** Thunderstorms. */
  const ThunderstormCodes: map<string, string> := map[
    "thunderstorm with light rain" := "약한 비를 동반한 천둥번개",
    "thunderstorm with rain" := "비를 동반한 천둥번개",
    "thunderstorm with heavy rain" := "폭우를 동반한 천둥번개",
    "light thunderstorm" := "약한 천둥번개",
    "thunderstorm" := "천둥번개",
    "heavy thunderstorm" := "강한 천둥번개",
    "ragged thunderstorm" := "천둥번개",
    "thunderstorm with light drizzle" := "약한 이슬비를 동반한 천둥번개",
    "thunderstorm with drizzle" := "이슬비를 동반한 천둥번개",
    "thunderstorm with heavy drizzle" := "강한 이슬비를 동반한 천둥번개"
  ]

  /** Drizzle. */
  const DrizzleCodes: map<string, string> := map[
    "light intensity drizzle" := "약한 이슬비",
    "drizzle" := "이슬비",
    "heavy intensity drizzle" := "강한 이슬비",
    "light intensity drizzle rain" := "약한 이슬비",
    "drizzle rain" := "이슬비",
    "heavy intensity drizzle rain" := "강한 이슬비",
    "shower rain and drizzle" := "소나기와 이슬비",
    "heavy shower rain and drizzle" := "강한 소나기와 이슬비",
    "shower drizzle" := "이슬비"
  ]

  /** `WEATHER_CODE_TO_KOREAN`: OpenWeatherMap descriptions (lower case) to Korean. */
  const WeatherCodeToKorean: map<string, string> :=
    ClearAndCloudCodes + RainCodes + SnowCodes + HazeCodes + ThunderstormCodes + DrizzleCodes

  /** No entry of `table` translates to the "unknown" text or to the error text. */
  predicate AvoidsReservedTexts(table: map<string, string>) {
    forall code | code in table :: table[code] != UnknownWeather && table[code] != WeatherErrorText
  }

  lemma ClearAndRainAvoidReservedTexts()
    ensures AvoidsReservedTexts(ClearAndCloudCodes) && AvoidsReservedTexts(RainCodes)
  {
  }

  lemma SnowAndHazeAvoidReservedTexts()
    ensures AvoidsReservedTexts(SnowCodes) && AvoidsReservedTexts(HazeCodes)
  {
  }

  lemma ThunderAndDrizzleAvoidReservedTexts()
    ensures AvoidsReservedTexts(ThunderstormCodes) && AvoidsReservedTexts(DrizzleCodes)
  {
  }

  /** Neither the "unknown" text nor the error text is the translation of any code. */
  lemma TranslationsAreKnown(code: string)
    requires code in WeatherCodeToKorean
    ensures WeatherCodeToKorean[code] != UnknownWeather && WeatherCodeToKorean[code] != WeatherErrorText
  {
    ClearAndRainAvoidReservedTexts();
    SnowAndHazeAvoidReservedTexts();
    ThunderAndDrizzleAvoidReservedTexts();
  }

  /** `getOrDefault(description.toLowerCase(), "알 수 없음")`. */
  function TranslateDescription(description: string): (r: string)
    ensures ToLower(description) in WeatherCodeToKorean ==> r == WeatherCodeToKorean[ToLower(description)]
    ensures ToLower(description) !in WeatherCodeToKorean ==> r == UnknownWeather
  {
    var key := ToLower(description);
    if key in WeatherCodeToKorean then WeatherCodeToKorean[key] else UnknownWeather
  }

  /** The translation ignores letter case. */
  lemma TranslateIgnoresCase(description: string)
    ensures TranslateDescription(description) == TranslateDescription(ToLower(description))
  {
    ToLowerIdempotent(description);
  }

  /** No known description translates to the "unknown" text, so that text means
      exactly that the description is missing from the table. */
  lemma UnknownMeansUntranslated(description: string)
    ensures TranslateDescription(description) == UnknownWeather <==> ToLower(description) !in WeatherCodeToKorean
  {
    var key := ToLower(description);
    if key in WeatherCodeToKorean {
      TranslationsAreKnown(key);
    }
  }

  // ---------------------------------------------------------------------------
  // Weather and temperature lookups

  /** `getWeatherForLocation`: test-mode weather without a real key; with one, the
      translated description the API returned (`fetched`), or the error text when
      the call, the coordinates or the parsing failed (`fetched` is None). */
  function WeatherForLocation(apiKey: Option<string>, hour: int, fetched: Option<string>): (r: string)
    ensures !HasValidApiKey(apiKey) ==> r == TestModeWeather(hour)
    ensures HasValidApiKey(apiKey) && fetched.None? ==> r == WeatherErrorText
    ensures HasValidApiKey(apiKey) && fetched.Some? ==> r == TranslateDescription(fetched.value)
  {
    if !HasValidApiKey(apiKey) then TestModeWeather(hour)
    else match fetched
      case None => WeatherErrorText
      case Some(d) => TranslateDescription(d)
  }

  /** The error text is told apart from every real answer: no translation and no
      test-mode value equals it. */
  lemma WeatherErrorIsDistinct(apiKey: Option<string>, hour: int, fetched: Option<string>)
    ensures WeatherForLocation(apiKey, hour, fetched) == WeatherErrorText <==> HasValidApiKey(apiKey) && fetched.None?
  {
    if HasValidApiKey(apiKey) && fetched.Some? {
      var key := ToLower(fetched.value);
      if key in WeatherCodeToKorean {
        TranslationsAreKnown(key);
      }
    }
  }

  /** Java's `(int)` conversion of a `double`, which Jackson's `asInt` applies to a
      number node: truncation toward zero, saturating at the 32-bit bounds. */
  function TruncateToInt32(x: real): (r: Int32)
    ensures 0.0 <= x < IntMax as real + 1.0 ==> r as real <= x < r as real + 1.0
    ensures IntMin as real - 1.0 < x < 0.0 ==> r as real - 1.0 < x <= r as real
    ensures x >= IntMax as real + 1.0 ==> r == IntMax
    ensures x <= IntMin as real - 1.0 ==> r == IntMin
  {
    if x >= 0.0 then (if x >= IntMax as real then IntMax else x.Floor)
    else if x <= IntMin as real then IntMin
    else -((-x).Floor)
  }

  /** Truncation is symmetric about zero inside the 32-bit range: 22.7 becomes 22
      and -22.7 becomes -22. */
  lemma TruncationIsSymmetric(x: real)
    requires -(IntMax as real) <= x <= IntMax as real
    ensures TruncateToInt32(-x) == -TruncateToInt32(x)
    ensures TruncateToInt32(22.7) == 22 && TruncateToInt32(-22.7) == -22
  {
  }

  /** `getTemperatureForLocation`: test-mode temperature without a real key; with
      one, the `main.temp` reading the API returned, truncated to an int, or 0
      when the call fails or the reading is missing. */
  function TemperatureForLocation(apiKey: Option<string>, month: int, hour: int, fetched: Option<real>): (r: Int32)
    ensures !HasValidApiKey(apiKey) ==> r == TestModeTemperature(month, hour) && -3 <= r <= 30
    ensures HasValidApiKey(apiKey) && fetched.None? ==> r == 0
    ensures HasValidApiKey(apiKey) && fetched.Some? && 0.0 <= fetched.value < IntMax as real + 1.0 ==>
      r as real <= fetched.value < r as real + 1.0
    ensures HasValidApiKey(apiKey) && fetched.Some? && IntMin as real - 1.0 < fetched.value < 0.0 ==>
      r as real - 1.0 < fetched.value <= r as real
    ensures HasValidApiKey(apiKey) && fetched.Some? ==> r == TruncateToInt32(fetched.value)
  {
    if !HasValidApiKey(apiKey) then TestModeTemperature(month, hour)
    else match fetched
      case None => 0
      case Some(t) => TruncateToInt32(t)
  }

  /** A failed lookup is indistinguishable from a real 0 °C reading. */
  lemma TemperatureFailureLooksLikeZero(apiKey: Option<string>, month: int, hour: int)
    requires HasValidApiKey(apiKey)
    ensures TemperatureForLocation(apiKey, month, hour, None) == TemperatureForLocation(apiKey, month, hour, Some(0.0))
  {
  }

  // ---------------------------------------------------------------------------
  // Coordinates

  /** The coordinate table the constructor fills in, "latitude,longitude". */
  const InitialCoordinates: map<string, string> := map[
    "서울" := "37.5665,126.9780",
    "부산" := "35.1796,129.0756",
    "인천" := "37.4563,126.7052",
    "대구" := "35.8714,128.6014",
    "대전" := "36.3504,127.3845",
    "광주" := "35.1595,126.8526",
    "울산" := "35.5384,129.3114",
    "세종" := "36.4800,127.2890",
    "제주" := "33.4996,126.5312",
    "수원" := "37.2636,127.0286",
    "성남" := "37.4449,127.1388",
    "안양" := "37.3941,126.9570",
    "고양" := "37.6559,126.8351",
    "용인" := "37.2344,127.2011",
    "청주" := "36.6424,127.4890",
    "천안" := "36.8151,127.1135",
    "전주" := "35.8242,127.1480",
    "포항" := "36.0199,129.3415",
    "창원" := "35.2540,128.6395",
    "김해" := "35.2282,128.8812",
    "평택" := "36.9920,127.0887",
    "강릉" := "37.7556,128.8961",
    "거제" := "34.8806,128.6211",
    "양산" := "35.3350,129.0378"
  ]

  /** Trims the name and reads the "here" words (여기, 이곳, 우리 동네, 우리동네) as Seoul. */
  function NormalizeLocation(location: string): (r: string)
    ensures r == Seoul || r == Trim(location)
    ensures r == Trim(location) || Trim(location) in {"여기", "이곳", "우리 동네", "우리동네"}
  {
    var t := Trim(location);
    if t == "여기" || t == "이곳" || t == "우리 동네" || t == "우리동네" then Seoul else t
  }

  /** Surrounding whitespace does not change where a name points. */
  lemma NormalizeIgnoresPadding(location: string)
    ensures NormalizeLocation(location) == NormalizeLocation(Trim(location))
  {
    TrimIdempotent(location);
  }

  /** Names ending in 시, 도, 군 or 구 are taken literally; others may be expanded. */
  predicate HasAdminSuffix(name: string) {
    EndsWith(name, "시") || EndsWith(name, "도") || EndsWith(name, "군") || EndsWith(name, "구")
  }

  /** Index of the first key, from `i` on, that starts with `name`. */
  function FirstExtension(keys: seq<string>, name: string, i: nat): (r: Option<nat>)
    requires i <= |keys|
    ensures r.Some? ==> i <= r.value < |keys| && StartsWith(keys[r.value], name)
    ensures r.Some? ==> forall j | i <= j < r.value :: !StartsWith(keys[j], name)
    ensures r.None? ==> forall j | i <= j < |keys| :: !StartsWith(keys[j], name)
    decreases |keys| - i
  {
    if i == |keys| then None
    else if StartsWith(keys[i], name) then Some(i)
    else FirstExtension(keys, name, i + 1)
  }

  /** The prefix expansion of `getCoordinatesForLocation`: a name without an
      administrative suffix becomes the first key, in the table's iteration order
      `keys`, that starts with it. */
  function ExpandPrefix(name: string, keys: seq<string>): (r: string)
    ensures StartsWith(r, name)
    ensures HasAdminSuffix(name) ==> r == name
    ensures r != name ==> r in keys
    ensures !HasAdminSuffix(name) && (exists j | 0 <= j < |keys| :: StartsWith(keys[j], name)) ==> r in keys
  {
    if HasAdminSuffix(name) then name
    else match FirstExtension(keys, name, 0)
      case None => name
      case Some(j) => keys[j]
  }

  /** An empty name is a prefix of every key, so it expands to the first key in
      iteration order, whatever that is. */
  lemma EmptyNameTakesFirstKey(keys: seq<string>)
    requires keys != []
    ensures ExpandPrefix("", keys) == keys[0]
  {
    assert StartsWith(keys[0], "");
  }

  /** A name that is itself a key can still be redirected to a longer key that the
      iteration visits first (here a cached "서울역" shadows "서울"). */
  lemma KnownNameCanBeRedirected()
    ensures ExpandPrefix(Seoul, ["서울역", Seoul]) == "서울역"
  {
    assert StartsWith("서울역", Seoul);
  }

  /** The answer of a lookup and the coordinate cache after it. */
  datatype Lookup = Lookup(coordinates: string, cache: map<string, string>)

  /** `keys` is an iteration order of the cache: it lists exactly its keys. */
  predicate EnumeratesKeys(keys: seq<string>, cache: map<string, string>) {
    && (forall i | 0 <= i < |keys| :: keys[i] in cache)
    && (forall k | k in cache :: k in keys)
  }

  /** The name the lookup settles on before consulting the table. */
  function LookupName(location: string, keys: seq<string>): string {
    ExpandPrefix(NormalizeLocation(location), keys)
  }

  /** `getCoordinatesForLocation` up to the geocoding call: normalise, expand, and
      answer from the cache; otherwise, with a real key, geocode the name
      (`geocode`, None for an empty answer or a failure) and cache a hit; every
      remaining case answers Seoul's coordinates. */
  function CoordinatesForLocation(location: string, cache: map<string, string>, keys: seq<string>,
                                  apiKey: Option<string>, geocode: string -> Option<string>): (r: Lookup)
    requires Seoul in cache && EnumeratesKeys(keys, cache)
    ensures forall k | k in cache :: k in r.cache && r.cache[k] == cache[k]
    ensures forall k | k in r.cache && k !in cache :: k == LookupName(location, keys)
    ensures LookupName(location, keys) in r.cache ==> r.coordinates == r.cache[LookupName(location, keys)]
    ensures LookupName(location, keys) !in r.cache ==> r.coordinates == cache[Seoul]
    ensures !HasValidApiKey(apiKey) ==> r.cache == cache
  {
    var name := LookupName(location, keys);
    if name in cache then Lookup(cache[name], cache)
    else if !HasValidApiKey(apiKey) then Lookup(cache[Seoul], cache)
    else match geocode(name)
      case Some(c) =>
        Lookup(c, cache[name := c])
      case None => Lookup(cache[Seoul], cache)
  }

  /** A name that expands to itself without being a key extends no key. */
  lemma ExpandedToItself(n: string, keys: seq<string>)
    requires ExpandPrefix(n, keys) == n && n !in keys
    ensures !HasAdminSuffix(n) ==> forall j | 0 <= j < |keys| :: !StartsWith(keys[j], n)
  {
    if !HasAdminSuffix(n) {
      match FirstExtension(keys, n, 0)
      case None =>
      case Some(j) =>
        assert false;
    }
  }

  /** Once `n` is cached, and no other key starts with it, it expands to itself. */
  lemma ExpandToInserted(n: string, c: string, cache: map<string, string>, keys: seq<string>, keys': seq<string>)
    requires n !in cache && EnumeratesKeys(keys, cache) && EnumeratesKeys(keys', cache[n := c])
    requires !HasAdminSuffix(n) ==> forall j | 0 <= j < |keys| :: !StartsWith(keys[j], n)
    ensures ExpandPrefix(n, keys') == n
  {
    if !HasAdminSuffix(n) {
      var f := FirstExtension(keys', n, 0);
      assert f.Some? by {
        assert n in cache[n := c];
        var j :| 0 <= j < |keys'| && keys'[j] == n;
        assert StartsWith(keys'[j], n);
      }
    }
  }

  /** A geocoded name is remembered: asking for the same location again, against
      the grown cache, answers the same coordinates without a further geocoding call. */
  lemma LookupIsMemoised(location: string, cache: map<string, string>, keys: seq<string>, keys': seq<string>,
                         apiKey: Option<string>, geocode: string -> Option<string>, geocode': string -> Option<string>)
    requires Seoul in cache && EnumeratesKeys(keys, cache)
    requires CoordinatesForLocation(location, cache, keys, apiKey, geocode).cache != cache
    requires EnumeratesKeys(keys', CoordinatesForLocation(location, cache, keys, apiKey, geocode).cache)
    ensures CoordinatesForLocation(location, CoordinatesForLocation(location, cache, keys, apiKey, geocode).cache, keys', apiKey, geocode')
         == CoordinatesForLocation(location, cache, keys, apiKey, geocode)
  {
    var r := CoordinatesForLocation(location, cache, keys, apiKey, geocode);
    var n := NormalizeLocation(location);
    var name := LookupName(location, keys);
    var c := geocode(name).value;
    assert r == Lookup(c, cache[name := c]);
    assert name == n;
    assert name !in keys;
    ExpandedToItself(n, keys);
    assert r.cache == cache[n := c];
    ExpandToInserted(n, c, cache, keys, keys');
    assert LookupName(location, keys') == name;
    assert name in r.cache && r.cache[name] == c;
    var r2 := CoordinatesForLocation(location, r.cache, keys', apiKey, geocode');
    assert r2 == Lookup(c, r.cache);
  }

  /** The Seoul entry survives every lookup, so the fallback stays defined. */
  lemma LookupKeepsSeoul(location: string, cache: map<string, string>, keys: seq<string>,
                         apiKey: Option<string>, geocode: string -> Option<string>)
    requires Seoul in cache && EnumeratesKeys(keys, cache)
    ensures Seoul in CoordinatesForLocation(location, cache, keys, apiKey, geocode).cache
    ensures CoordinatesForLocation(location, cache, keys, apiKey, geocode).cache[Seoul] == cache[Seoul]
  {
  }

  lemma JejuDoName(keys: seq<string>)
    ensures LookupName("제주도", keys) == "제주도"
  {
    assert TrimStart("제주도") == "제주도";
    assert TrimEnd("제주도") == "제주도";
    assert NormalizeLocation("제주도") == "제주도";
    assert HasAdminSuffix("제주도") by {
      assert "제주도"[2..] == "도";
    }
  }

  /** "제주도" ends in 도, so it is not expanded to the cached "제주"; without a real
      key it gets Seoul's coordinates. */
  lemma JejuDoIsNotJeju(cache: map<string, string>, keys: seq<string>, geocode: string -> Option<string>)
    requires Seoul in cache && "제주도" !in cache && EnumeratesKeys(keys, cache)
    ensures CoordinatesForLocation("제주도", cache, keys, None, geocode).coordinates == cache[Seoul]
  {
    JejuDoName(keys);
  }

  /** The constructor's table knows Seoul and 제주 but not 제주도. */
  lemma InitialTableShape()
    ensures Seoul in InitialCoordinates && "제주" in InitialCoordinates && "제주도" !in InitialCoordinates
  {
  }
}

=== FILE: wrappers.dfy ===
/** The Option type used wherever the Java code admits `null` or signals failure
    with an exception that the caller catches. */
module Wrappers {

  datatype Option<+T> = None | Some(value: T) {

    /** The wrapped value, or `default` when absent (Java's `getOrDefault`/`null` check). */
    function GetOr(default: T): T {
      match this
      case Some(v) => v
      case None => default
    }
  }
}
